=== FILE: README.md ===
# tmux resource monitor — a Dafny model of its core

The monitor is a curses program. It shows one tmux session window by window:
every pane's process tree, with CPU percentages, resident memory and
tree-drawing glyphs. It can also show an overview of all sessions, sorted by
CPU. A companion program, the overview, lists the sessions alone and opens
the monitor on the one the user picks.

This project models the deterministic logic of both programs. The process
table, the clock and every tmux query become explicit inputs:

- the process table is a `Snapshot`, a map from pid to command line, name,
  RSS, CPU times and child list;
- the clock is a `real` number of seconds;
- a tmux query becomes its standard output, or `None` when the query fails.

| file | module | what it models |
|---|---|---|
| base.dfy | Base | `Option`, sequence concatenation |
| text.dfy | Text | Python's `str.strip`, `str.split`, `str.join`, a simplified `int()`, `str(int)` |
| tmux_output.dfy | TmuxOutput | the parsing halves of the tmux queries in both programs |
| process_table.dfy | ProcessTable | the process snapshot and the pre-order walk of a subtree |
| cpu_accounting.dfy | CpuAccounting | `get_cpu_percent` and the seeding pass of the start-up warm-up |
| process_tree.dfy | ProcessTree | `get_process_info` (rows of a pane's tree) and `get_all_process_stats` |
| tree_prefix.dfy | TreePrefix | `get_tree_prefix`, as written and as evidently intended |
| pane_cache.dfy | PaneCache | `_get_cached_pane_pids`, the 0.5 s pane-pid cache |
| aggregate.dfy | Aggregate | window and session totals, the stable CPU-descending sort, the tmux totals |
| selection.dfy | Selection | tab wrap, tab reconciliation after a refresh, draw-time clamps, viewport |
| tab_bar.dfy | TabBar | `draw_tabs`: the writes of the tab bar, which ones can raise, and a guarded variant |
| monitor_input.dfy | MonitorInput | the monitor's `handle_input`, drawing clamps, refresh gate, one main-loop turn |
| overview.dfy | Overview | the overview program's key handling, clamp, viewport and loop turn |

The session-view main loop, `MonitorInput.Cycle`, takes a `TabChoice`.
`AsWritten` reconciles the tab after a refresh the way the source does, and
`Clamped` uses the corrected reconciliation. The as-written loop shows the
crash in the second finding below; the corrected loop is the one proved never
to crash.

Unless a cell names tmux_overview.py, the source cells below refer to
tmux_monitor.py.

## Model

| member | source | states |
|---|---|---|
| Text.StripSpec | tmux_monitor.py:233 | `strip()` removes exactly the leading and trailing whitespace and keeps the middle |
| Text.JoinSplit | tmux_monitor.py:233 | joining the pieces of `split(sep)` with `sep` restores the text |
| Text.SplitJoin | tmux_monitor.py:233 | splitting a join of separator-free pieces gives back the pieces |
| Text.Basename | tmux_monitor.py:423 | `path.split("/")[-1]` is the suffix after the last `/` and contains no `/` |
| Text.ParseShowInt | tmux_monitor.py:380 | the decimal text of an integer parses back to that integer |
| Text.ShowIntInjective | tmux_monitor.py:103 | distinct window indices render to distinct texts |
| TmuxOutput.SessionNames | tmux_monitor.py:224-235 | no names on failure or blank output; otherwise newline-free pieces whose join is the stripped output, inner blank lines kept |
| TmuxOutput.SessionNamesRoundTrip | tmux_overview.py:58-69 | a listing of clean session names, one per line, reads back exactly those names |
| TmuxOutput.WindowCount | tmux_overview.py:71-83 | the window count is 0 on failure, at most the number of lines, and exactly that number when no line is blank |
| TmuxOutput.CountNonEmptyAppend | tmux_overview.py:79-81 | lines are counted one by one: the count of a listing is the sum over any split of it, a blank line adds 0 and any other line adds 1 |
| TmuxOutput.CountNonEmptyAll | tmux_overview.py:79-81 | every line counts exactly when no line is blank |
| TmuxOutput.WindowCountRoundTrip | tmux_monitor.py:237-249 | a listing of n window indices counts n windows |
| TmuxOutput.PidLines | tmux_monitor.py:402-408 | every kept pid comes from a non-blank line that parses as that integer; no more pids than lines |
| TmuxOutput.PidLinesAppend | tmux_overview.py:105-110 | pane-pid parsing keeps input order across concatenated line blocks |
| TmuxOutput.PidLine | tmux_monitor.py:402-408 | one line yields its integer when its stripped text is one, and nothing when it is blank or not an integer |
| TmuxOutput.PidLinesAround | tmux_monitor.py:402-408 | a line between two blocks contributes exactly what it holds, in place, between the two blocks' pids |
| TmuxOutput.PidLinesComplete | tmux_monitor.py:402-408 | every line holding an integer has that integer among the parsed pids |
| TmuxOutput.PanePids | tmux_monitor.py:389-411 | a failed query gives no pids; otherwise at most one pid per output line, and every pid is the integer one of the lines holds |
| TmuxOutput.PanePidsRoundTrip | tmux_monitor.py:389-411 | a pane listing of integers parses back to exactly those integers, in order |
| TmuxOutput.WindowLine | tmux_monitor.py:376-384 | a line is kept iff it has a ':' and the text before the first ':' parses as an integer; the name is everything after that ':' |
| TmuxOutput.SkipsMalformedWindowLine | tmux_monitor.py:376-384 | a malformed line is dropped and the lines around it keep their order |
| TmuxOutput.WindowLines | tmux_monitor.py:375-384 | at most one window per line, and every window is the (index, name) that one of the lines parses to |
| TmuxOutput.ParseWindows | tmux_monitor.py:362-387 | a failed query gives no windows; otherwise at most one per output line, and every window is the (index, name) one of the lines parses to |
| TmuxOutput.ParseWindowsRoundTrip | tmux_monitor.py:362-387 | `index:name` lines, with names that may contain ':', parse back to the (index, name) pairs in order |
| TmuxOutput.SessionPanePids | tmux_monitor.py:251-288 | a failed window query gives none; otherwise the result is the pane ids of every non-blank window line, window after window, each window's in listing order |
| TmuxOutput.PanesOfWindowLinesAppend | tmux_monitor.py:265-284 | the pane ids of two blocks of window lines are those of the first block followed by those of the second |
| TmuxOutput.PanesWindowByWindow | tmux_monitor.py:265-284 | the collected pane ids are the concatenation, in window order, of each window's pane ids; a blank window line contributes none |
| ProcessTable.Subtree | tmux_monitor.py:412-473 | the walk is non-empty iff the pid is readable, starts at the pid, and visits only readable processes off the ancestor path |
| ProcessTable.Descendants | tmux_monitor.py:488-495 | the recursive children are readable processes other than the root |
| ProcessTable.Walk | tmux_monitor.py:412-473 | the depth-annotated pre-order walk: non-empty iff the pid is readable and off the ancestor path, and it starts with the pid at its depth under its parent |
| ProcessTable.Probe | tmux_monitor.py:116-117 | the CPU times are read iff the process is readable |
| CpuAccounting.RateSpec | tmux_monitor.py:124-128 | the percentage times the elapsed time is 100 × the CPU seconds used; idle gives 0 |
| CpuAccounting.CpuPercent | tmux_monitor.py:114-140 | 0 for an unreadable pid, a pid with no baseline, or elapsed ≤ 0.1 s; otherwise 100·Δ(user+system)/elapsed; the table changes only on request, only when readable, and only by replacing this pid's baseline |
| CpuAccounting.IdleReadsZero | tmux_monitor.py:124-129 | a process that used no CPU since its baseline reads 0% |
| CpuAccounting.SuccessiveReadings | tmux_monitor.py:129-130 | with updates on, a second reading measures the interval since the first |
| CpuAccounting.ReadingsDoNotMoveBaseline | tmux_monitor.py:114-140 | without updates, readings never change the table |
| CpuAccounting.SeedAll | tmux_monitor.py:81-90 | each listed pid gets a fresh baseline; every other entry is unchanged |
| CpuAccounting.Warmup | tmux_monitor.py:75-95 | readable processes in a pane root's tree get a baseline at the seeding time; unreadable roots lose theirs; all else is unchanged |
| CpuAccounting.DroppedRootReadsZero | tmux_monitor.py:92-94 | a pane root unreadable at warm-up reads 0% next time |
| ProcessTree.DisplayCommand | tmux_monitor.py:421-427 | the name for an empty command line; otherwise it starts with argv[0]'s base name, then a space and the arguments if there are any |
| ProcessTree.DisplayCommandWords | tmux_monitor.py:421-427 | when no word contains a space, the command splits back into base name and arguments |
| ProcessTree.Build | tmux_monitor.py:412-473 | non-empty iff the pid is readable and off the path; the first row is the pid at the given depth and parent; later rows are deeper with parents; every row describes its process; depths nest |
| ProcessTree.BuildPids | tmux_monitor.py:458-465 | the rows are exactly the processes of the pre-order walk, children in child-list order |
| ProcessTree.DescribedFields | tmux_monitor.py:416-455 | a described row carries its process's CPU reading, resident KB, display command, has_children and is_last_child |
| ProcessTree.ProcessInfo | tmux_monitor.py:412-473 | an absent pid gives no rows; the root comes first at depth 0 with no parent and not a last child; every row describes its process; the rows' (pid, depth, parent) triples are exactly the walk's, so each child sits one level below the process whose child list holds it |
| ProcessTree.BuildShape | tmux_monitor.py:458-465 | every row list the builder makes has the pid, depth and parent of the walk, position by position |
| ProcessTree.ChainRows | tmux_monitor.py:458-465 | a chain 1 → 2 → 3 gives the rows (1, depth 0, no parent), (2, depth 1, parent 1), (3, depth 2, parent 2) |
| ProcessTree.RowTotals | tmux_monitor.py:541-549 | the process count of a list of rows is its length |
| ProcessTree.RowTotalsArePidTotals | tmux_monitor.py:475-505 | totals over displayed rows equal totals read straight from the snapshot for the same pids |
| ProcessTree.PidTotalsAppend | tmux_monitor.py:303-316 | sums over two lists of processes taken one after the other are the two sums added |
| ProcessTree.SubtreeTotals | tmux_monitor.py:475-505 | an unreadable root gives zero totals; otherwise the count is the size of its subtree |
| ProcessTree.ProcessStats | tmux_monitor.py:475-505 | a pane's totals equal the totals of the rows the tree view shows for it |
| TreePrefix.Prefix | tmux_monitor.py:172-190 | one glyph group per level of depth |
| TreePrefix.PrefixSpec | tmux_monitor.py:178-220 | the last group is the connector (`└──` iff last child); an ancestor group is `│   ` iff some row at that depth follows the run of deeper rows after the nearest earlier row at that depth, else blank |
| TreePrefix.PrefixWidth | tmux_monitor.py:172-222 | the prefix is 0 characters at depth 0, else 4·depth − 1 |
| TreePrefix.TreePrefix | tmux_monitor.py:172-222 | the loop implementation renders exactly the glyphs `Prefix` describes |
| TreePrefix.AncestorGroupLoop | tmux_monitor.py:192-220 | the backward scan and the two forward scans compute the ancestor group |
| TreePrefix.OnlyChildrenDrawAllLast | tmux_monitor.py:172-222 | a chain of only children draws blanks and a final `└──` |
| TreePrefix.RendererMissesContinuation | tmux_monitor.py:192-220 | the renderer draws `    └──` where the tree needs `│   └──` |
| TreePrefix.IntendedPrefixSpec | tmux_monitor.py:192-220 | corrected rule: column L shows `│   ` iff the row's ancestor at depth L+1 has a later sibling |
| TreePrefix.IntendedPrefixWidth | tmux_monitor.py:172-222 | the corrected prefix has the same width as the renderer's |
| TreePrefix.IntendedTwoBranches | tmux_monitor.py:192-220 | the corrected rule draws `│   └──` under a non-last child and `    └──` under the last |
| PaneCache.KeyInjective | tmux_monitor.py:103 | distinct (session, window) pairs get distinct keys when the session name has no ':' |
| PaneCache.CachedPanePids | tmux_monitor.py:100-112 | an entry younger than 0.5 s answers without a query and leaves the cache alone; otherwise one query, whose answer is returned and stored with the current time; no other key changes |
| PaneCache.SecondLookupWithinTtlIsCached | tmux_monitor.py:105-108 | two lookups less than 0.5 s apart query tmux once, and the second returns what the first got |
| PaneCache.LookupAfterTtlQueries | tmux_monitor.py:107-112 | a lookup 0.5 s or more after the stored time queries again |
| PaneCache.WindowsCachedSeparately | tmux_monitor.py:100-112 | a lookup of one window leaves another window's entry alone |
| PaneCache.KeyWindowInjective | tmux_monitor.py:103 | within one session, two windows with the same cache key are the same window |
| PaneCache.LookupKeepsAnswers | tmux_monitor.py:100-112 | looking up another window first does not change what a window's lookup returns |
| PaneCache.LookupAll | tmux_monitor.py:517-522 | the lookups of one refresh, threaded through the cache, give for every window what a lookup in the cache as it stood before the refresh gives |
| PaneCache.LookupAllFresh | tmux_monitor.py:100-112 | after the lookups of a refresh, every window looked up has a fresh entry holding the pane ids returned for it |
| PaneCache.FirstStaysFresh | tmux_monitor.py:100-112 | an entry a lookup leaves fresh stays fresh, with the same pane ids, through the later lookups of the same refresh |
| PaneCache.LookupAllKeepsOthers | tmux_monitor.py:100-112 | the lookups of a refresh leave every entry of a window not looked up as it was |
| Aggregate.CollectWindow | tmux_monitor.py:521-559 | a window without panes has zero totals and no rows; a window's totals are the totals of its rows |
| Aggregate.PaneTotalsAreRowTotals | tmux_monitor.py:541-549 | the window totals summed per pane equal the totals of all its rows |
| Aggregate.CollectWindows | tmux_monitor.py:517-559 | one window per listed (index, name), in order; each window is what collecting that window alone gives for the pane ids the cache lookup returns for it; the cache afterwards is the one the lookups leave |
| Aggregate.PaneTrees | tmux_monitor.py:303-316 | the processes a session counts, pane after pane, each readable pane followed by its recursive children; all of them are readable |
| Aggregate.SessionPaneTotals | tmux_monitor.py:299-316 | the session's CPU, memory and process count are the sums over exactly the readable panes and their recursive children, so the count is the number of those processes |
| Aggregate.SessionOf | tmux_monitor.py:294-328 | a session entry carries its name, the sums over its panes' process trees, and the window count it is given |
| Aggregate.SessionMatchesWindows | tmux_monitor.py:302-317 | with the monitor's CPU readings, a session's pane totals equal the window view's totals for those panes |
| Aggregate.InsertByCpu | tmux_monitor.py:332 | inserting adds exactly one entry, the new session, and takes every other entry from the list |
| Aggregate.InsertSorted | tmux_monitor.py:332 | inserting into a CPU-descending list keeps it CPU-descending |
| Aggregate.SortByCpu | tmux_monitor.py:332 | the sorted list is a permutation, in CPU-descending order |
| Aggregate.SortIsStable | tmux_overview.py:157 | sessions with equal CPU keep their discovery order |
| Aggregate.CollectSessions | tmux_overview.py:117-157 | the session list is sorted by CPU descending, is a permutation of the sessions as listed, and is stable |
| Aggregate.Unsorted | tmux_monitor.py:294-330 | one entry per listed session, in tmux's order |
| Aggregate.Megabytes | tmux_monitor.py:168 | `kb // 1024` is the whole number of megabytes, rounded down |
| Aggregate.MemoryColumnExample | tmux_monitor.py:166-170 | a 2,048 KB process on an 8,192 MB machine shows 2 MB and a share under 0.05 % |
| Aggregate.MemoryPercent | tmux_monitor.py:166-170 | the percentage times the total KB is 100 × the KB used |
| Aggregate.Totals | tmux_overview.py:173-184 | tmux CPU is the sum of session CPUs; tmux MB is the summed KB div 1024; the percent is 0 when total memory is 0 MB |
| Aggregate.TotalsIgnoreOrder | tmux_monitor.py:348-360 | sorting the sessions does not change the tmux totals |
| Selection.NextTab | tmux_monitor.py:1106-1109 | no-op without windows; otherwise the result is inside the window list, the next tab after any tab but the last, and the first tab after the last |
| Selection.PrevTab | tmux_monitor.py:1111-1114 | no-op without windows; otherwise the result is inside the window list, the tab before any in-range tab but the first, and the last tab before the first |
| Selection.TabMovesUndo | tmux_monitor.py:1106-1114 | next then previous, or previous then next, return to the same tab |
| Selection.TabMovesWrap | tmux_monitor.py:1106-1114 | right from the last tab gives the first; left from the first gives the last |
| Selection.FirstMatch | tmux_monitor.py:565-584 | the first window with the name (or with the tmux index), and none when no window has it |
| Selection.ReconcileAsWritten | tmux_monitor.py:561-591 | as written: the tab lands inside a non-empty new list when the old tab was inside the old list or a filter applies to a first load; when the new list is empty, or the old list was empty without a filter, the tab is left as it was |
| Selection.ReconcileAsWrittenLeavesTabPastEnd | tmux_monitor.py:561-591 | three windows with tab 2, then none, then one: the tab stays 2 with one window |
| Selection.Reconcile | tmux_monitor.py:561-591 | corrected: after a refresh with windows the tab is inside the new list; with none it is untouched |
| Selection.ReconcileAgrees | tmux_monitor.py:561-591 | the corrected choice equals the source's whenever the source's is in range |
| Selection.SelectionFollowsName | tmux_monitor.py:572-578 | if a window with the selected name survives, the selection lands on a window of that name |
| Selection.SelectionFallsBackToIndex | tmux_monitor.py:579-591 | without a name match, the selection goes to the window with the old tmux index; without that, to the clamped position |
| Selection.FilterPicksFirstMatch | tmux_monitor.py:562-569 | on first load the filter picks the first window of that name, else window 0 |
| Selection.WrapInto | tmux_monitor.py:711-715 | past the end becomes 0 and below 0 becomes the last entry; the result is in range; an in-range index is kept (the overview program clamps its session the same way, tmux_overview.py:226-229) |
| Selection.DrawRow | tmux_monitor.py:767-775 | past the end becomes the last row and below 0 becomes 0; with no rows the selection is 0 and browsing stops |
| Selection.DrawSessionInMonitor | tmux_monitor.py:1021-1025 | while browsing, past the end becomes the last session; the result is in range |
| Selection.SessionClampsDiffer | tmux_overview.py:226-229 | for an index past the end, the overview picks the first session and the monitor the last |
| Selection.FirstShown | tmux_monitor.py:781-786 | the list starts at the top unless browsing with the selection beyond the first screenful |
| Selection.SelectedRowShown | tmux_monitor.py:1027-1031 | while browsing with room for a row, the selected row is among those drawn, and is the last one drawn when the list scrolled |
| TabBar.DisplayName | tmux_monitor.py:675-677 | a tab shows at most 12 characters: a name of 12 or fewer unchanged, a longer one as its first 9 characters and "..." |
| TabBar.TabWrites | tmux_monitor.py:664-697 | every write of the tabs starts at or right of the column it is given, and the only writes no `try` protects are the " \| " separators |
| TabBar.BarWrites | tmux_monitor.py:659-697 | the bar starts with the unprotected "Windows" at column 0 and ": " at column 7; the tabs start at column 9 |
| TabBar.SixLongNamesRaise | tmux_monitor.py:659-705 | as written: six windows named with 12 characters each, the first current, put the separator before the sixth tab at column 83, so on an 80-column screen the bar raises |
| TabBar.Fitting | tmux_monitor.py:645-651 | the writes kept are a prefix of the bar; each ends before the last column; the first write left out is the first that does not fit |
| TabBar.GuardedTabsNeverRaise | tmux_monitor.py:659-705 | corrected: a bar cut at the first write that does not fit, and not drawn without a tab row, never raises; it is a prefix of the bar as written, and all of it when everything fits |
| MonitorInput.SelectedProcess | tmux_monitor.py:1116-1125 | the selected row is found when tab and row are in range; a tab past the end is the indexing error |
| MonitorInput.OnSelected | tmux_monitor.py:1195-1217 | with a process selected the action is applied to that process; with no row selected there is no effect; either way the state is the one the caller passes for after the action; a tab past the end is the indexing error, and nothing else fails |
| MonitorInput.ScrollLeft | tmux_monitor.py:1279-1286 | Alt+Left goes back 10 columns, never below 0 |
| MonitorInput.ScrollRight | tmux_monitor.py:1287-1296 | Alt+Right goes on 10 columns, never past `max(0, len(command) − room + 4)` |
| MonitorInput.ScrollRightSettles | tmux_monitor.py:1287-1296 | at the scroll limit, Alt+Right leaves the offset where it is |
| MonitorInput.ScrollRightThenLeft | tmux_monitor.py:1279-1296 | a right step within the limit is undone by a left step |
| MonitorInput.CommandRoomByDepth | tmux_monitor.py:1266-1277 | the room for the command depends only on the row's depth through the prefix width |
| MonitorInput.AltKey | tmux_monitor.py:1248-1298 | with a row selected, Alt+Left/h/H moves the scroll by `ScrollLeft` and Alt+Right/l/L by `ScrollRight` up to the row's command room; the scroll changes only then, nothing else changes, and only a tab past the end while browsing fails |
| MonitorInput.NavigateKey | tmux_monitor.py:1300-1441 | from a valid state, any navigation key leaves a valid state without failing |
| MonitorInput.HandleKey | tmux_monitor.py:1219-1457 | the only failure is the indexing error of a tab past the end, and no key changes the collected windows or sessions; what each key does is stated by the per-key rows that follow (QuitKeys to TerminateKey, PromptKeys) |
| MonitorInput.SignalKey | tmux_monitor.py:1227-1245 | in the signal prompt a key changes only the mode and the buffer; Enter and Esc close the prompt with an empty buffer; while the prompt stays open there is no effect; a signal is sent only on Enter, to the selected process's pid; the only failure is Enter with a tab past the end |
| MonitorInput.QuitKeys | tmux_monitor.py:1300-1301 | q, Q and Ctrl+C (tmux_monitor.py:1368) stop the program and change nothing else; a running program is stopped by no other key |
| MonitorInput.HelpKey | tmux_monitor.py:1302-1311 | ? asks for the help screen and leaves the state as it was |
| MonitorInput.TabKeys | tmux_monitor.py:1318-1321 | Left/h/H go to the previous tab and Right/l/L to the next, wrapping; nothing else changes |
| MonitorInput.OverviewKeys | tmux_monitor.py:1312-1317 | o, O and Escape (tmux_monitor.py:1383-1388) open the overview without session browsing and ask for the sessions; inside the overview they do nothing; a lone Escape read as Alt is the same key |
| MonitorInput.DownKey | tmux_monitor.py:1322-1340 | j/Down in the overview browses sessions and moves down one, wrapping to 0; in the session view it browses rows and moves down one, wrapping to 0; with no rows it does nothing; a tab past the end is the indexing error |
| MonitorInput.UpKey | tmux_monitor.py:1341-1354 | k/Up in the overview browses sessions and moves up one, wrapping to the last; while browsing rows it moves up one, wrapping to the last; otherwise nothing; a tab past the end while browsing is the indexing error |
| MonitorInput.CopyKeys | tmux_monitor.py:1355-1362 | while browsing with a process selected, y copies its command and Y its pid as decimal text; otherwise both do nothing |
| MonitorInput.EnterKey | tmux_monitor.py:1370-1382 | Enter while browsing sessions with the index in range leaves the overview for that session at tab 0 and asks to switch to it; in every other state it does nothing |
| MonitorInput.TerminateKey | tmux_monitor.py:1426-1441 | x/X while browsing sends SIGTERM (15) to the selected process, does nothing without one, fails on a tab past the end; in the overview it moves one session up or jumps to the last and browses sessions; in the session view it goes to the previous tab |
| MonitorInput.PromptKeys | tmux_monitor.py:1227-1245 | in the signal prompt only mode and buffer change; the buffer holds only digits; digits append, Backspace drops one, Enter and Esc close with an empty buffer; a signal goes out only on Enter with a non-empty buffer, with its value, to the selected process |
| MonitorInput.ValidStateNeverFails | tmux_monitor.py:1219-1457 | from a valid state no key fails, and the state stays valid |
| MonitorInput.PromptOpensOnlyOnS | tmux_monitor.py:1363-1367 | the prompt opens only on s/S while browsing rows, and with an empty buffer |
| MonitorInput.TabKeysUndo | tmux_monitor.py:1318-1321 | Right then Left is the identity in the session view |
| MonitorInput.SessionKeysUndo | tmux_monitor.py:1322-1347 | in the monitor's overview j and k stay inside the session list and undo each other |
| MonitorInput.RowKeysUndo | tmux_monitor.py:1322-1354 | while browsing rows, Down and Up stay inside the rows and undo each other |
| MonitorInput.Draw | tmux_monitor.py:706-775 | a frame interrupted by a curses error before the repairs (the tab bar or the overview header, caught at tmux_monitor.py:1590-1591) changes nothing; a frame that reaches them repairs the tab, the row too when the process table has room, and the session index in the overview; the data is untouched either way |
| MonitorInput.RefreshAsWritten | tmux_monitor.py:507-591 | as written: a refresh installs the new windows and changes nothing but the tab; it keeps a valid state valid when the old list was non-empty, a filter is set, or the new list is empty; after an empty list without a filter the tab is not touched |
| MonitorInput.Refresh | tmux_monitor.py:507-591 | corrected: a refresh installs the new windows, changes nothing but the tab, and always leaves a valid state |
| MonitorInput.Cycle | tmux_monitor.py:1558-1606 | a turn crashes exactly when the key handler indexes past the end; otherwise it carries the key's effect and either keeps the last refresh time or sets it to now |
| MonitorInput.AfterKey | tmux_monitor.py:1558-1606 | after the key (and the window collection a session switch triggers, tmux_monitor.py:1381), a turn always continues with the key's effect and keeps or resets the refresh time; the corrected loop keeps a valid state valid, and the loop as written does so when the window list is non-empty or a filter is set |
| MonitorInput.StaleTabCrashes | tmux_monitor.py:1558-1606 | the loop as written, from a valid state with three windows and tab 2: a turn whose refresh finds no windows, a turn whose refresh finds one, then j crashes the third turn (`windows_data[2]` at tmux_monitor.py:1333) |
| MonitorInput.AsWrittenTurnKeepsValid | tmux_monitor.py:1558-1606 | the loop as written never crashes from a valid state, and ends valid whenever the window list was non-empty or a filter is set |
| MonitorInput.CycleKeepsValid | tmux_monitor.py:1558-1606 | the corrected loop, from a valid state, never crashes and ends valid, whatever tmux reports |
| MonitorInput.ClampedRefreshSurvives | tmux_monitor.py:561-591 | with the corrected refresh, the same sequence leaves tab 0 and every key handled |
| MonitorInput.PromptHoldsRefresh | tmux_monitor.py:1595-1603 | in either loop, while the prompt stays open, no data is collected and the refresh time stands still |
| MonitorInput.DueTurnRefreshes | tmux_monitor.py:1595-1603 | in either loop, outside the prompt, a due turn collects the windows and records the time |
| Overview.OverviewKey | tmux_overview.py:265-297 | q, Q, Ctrl+C and Escape stop the loop and change nothing else, and the loop stops on no other key except an Enter that launches the monitor; Enter launches it only for the selected session in range; an in-range index stays in range |
| Overview.DownWraps | tmux_overview.py:278-283 | j increments below the last index and wraps to 0 otherwise, including with no sessions |
| Overview.UpWraps | tmux_overview.py:284-289 | k decrements above 0, wraps to the last session, or keeps 0 with no sessions |
| Overview.DownUpUndo | tmux_overview.py:278-289 | inside a non-empty list, j and k undo each other |
| Overview.EnterOpensSelected | tmux_overview.py:290-295 | the monitor is launched iff Enter is pressed on an index inside the list |
| Overview.DrawOverview | tmux_overview.py:226-242 | the drawing that gets past the header clamps the index into the list; past the end goes to 0; an in-range index is kept; while browsing the selected row is visible |
| Overview.OverviewTurn | tmux_overview.py:331-360 | a due turn installs the new sessions and records the time, any other turn keeps the key's sessions and the old time; the launch request is the key's; a turn tries to draw exactly when the redraw interval has passed; an attempt that gets past the header leaves the index inside any non-empty list, while a turn that does not try, or whose header raises (tmux_overview.py:192-218), leaves it where the key put it; the time of the last draw moves to now only when the drawing completes (tmux_overview.py:358-360) |
| Overview.RedrawCadence | tmux_overview.py:337-353 | a turn 0.1 s or more after the last draw always tries to draw; one less than 0.05 s after never does; a turn that refreshes tries once 0.05 s have passed |
| Overview.CrampedOverviewKeepsStaleIndex | tmux_overview.py:331-360 | three sessions, the third selected, a refresh that leaves two, on a screen whose header raises: the index stays 2, past the end, the time of the last draw does not move, the next turn tries again, and Enter launches nothing |
| Overview.OverviewRefresh | tmux_overview.py:337-339 | once the refresh interval has passed the new session list replaces the old one and the time is recorded; before that nothing changes; only the session list is touched, and the recorded time lies between the old one and now |
| Overview.RedrawInterval | tmux_overview.py:341 | the interval is 0.05 s exactly when the last refresh was less than 2 s ago, and 0.1 s otherwise |
| Overview.ShrinkingListClampsDiffer | tmux_overview.py:226-229 | when the selected session disappears, the overview jumps to the first session and the monitor to the last |

## Left out

- Terminal drawing is left out: curses, colours, the help text, loading messages and footers. Drawing appears as the index clamps, the viewport start and the column positions of the tab bar (`TabBar`).
- MonitorInput.Draw and Overview.OverviewTurn take how far the frame got (`Frame`, `DrawOutcome`) as an input. Only for the tab bar is that tied to the screen size (`TabBar.TabsRaise`); when the headers of the two overviews raise is not derived from the terminal size and the formatted numbers.
- TabBar.Raises counts a write as failing only when it starts outside the screen. A write that starts inside and runs past the right edge wraps in curses, and raises only if it runs off the bottom-right corner; that case is not modelled.
- The tmux subprocess calls and `read_tmux_option` are left out. Each query is its standard output, or `None` when the command exits non-zero.
- psutil is replaced by a `Snapshot`. A process that cannot be read (`NoSuchProcess`, `AccessDenied`) is absent from the snapshot. One snapshot is used for a whole refresh, so a process cannot vanish between two psutil calls within it.
- The clock is read once per refresh. The source calls `time.time()` for each process, and each pane-id cache lookup reads it again (tmux_monitor.py:102); `PaneCache.LookupAll` uses one time for all lookups of a refresh.
- Python floats are modelled as exact `real` numbers. Aggregate.TotalsIgnoreOrder and CpuAccounting.RateSpec hold exactly for reals; with floats, summing in another order can round differently, and the percentage times the elapsed time is 100 × the CPU seconds only up to rounding.
- ProcessTree.ProcessStats, Aggregate.CollectWindow and Aggregate.SessionMatchesWindows rely on treating an unreadable process as absent from the snapshot, and hold only under that abstraction. The source treats unreadable processes differently in the two views. When a pane root's `memory_info` raises, `get_all_process_stats` still counts its descendants (tmux_monitor.py:483-500). It has already added the root's CPU reading, and the monitor's session totals add CPU before `memory_info` too (tmux_monitor.py:485, 307). `get_process_info` instead drops the whole subtree of a process whose fields cannot be read (tmux_monitor.py:415-468). With such a process the source's totals and its rows can differ.
- System CPU and memory come from psutil and are not modelled. The machine's total memory enters as a number of megabytes.
- The warm-up thread and the clipboard thread are left out, with the clipboard's wl-copy/xclip/xsel fallback chain. Warm-up is its sequential seeding pass, `Warmup`. A copy is the `Copy` effect.
- Sending a signal and `os.execv` are effects (`SendSignal`, `OpenMonitor`). Their delivery is not modelled.
- Float formatting (`:5.1f`, percent strings) and the command-line argument parsing in `main` are left out.
- `time.sleep` pacing, including the 0.1 s pause after a failed overview frame (tmux_overview.py:358-360), and the 50 ms Alt detection are left out. An Escape followed by a key in time is the `Alt` event.
- The help screen waits for one key and discards it. The model shows the help as the `ShowHelp` effect and does not model that swallowed key.
- The width of the pid/CPU/memory columns depends on float formatting. It enters Alt-scroll as `Screen.baseLineLen`.
- The loop the monitor runs when started in overview mode (tmux_monitor.py:1483-1522) is not modelled. It always draws the overview and collects sessions, whatever the overview flag says. `MonitorInput.Cycle` models the session-view loop (tmux_monitor.py:1558-1606), which checks the flag.
- The duplicate branches at tmux_monitor.py:1389-1425 and 1442-1455 cannot be reached, because earlier branches catch the same keys. First-match dispatch drops them; the reachable x/X branch is modelled.
- `Text.ParseInt` is a simplification of Python's `int()`. It accepts surrounding whitespace, one sign and ASCII digits. It does not accept underscores or non-ASCII digits.
- ProcessTable.Subtree cuts a pid that would repeat on its own ancestor path, which a real process table never has. This is what makes the walk terminate; there is no fuel bound.
- ProcessTable.Descendants lists psutil's recursive children in pre-order. psutil may list them in another order. Only the totals use this list, and they do not depend on order.
- CpuAccounting.CpuPercent follows the code, not the docstring. It never records a baseline on first sight and never deletes one on failure; only a requested update writes, and no caller requests one.
- CpuAccounting.Warmup states what seeding does to the table. No single lemma states "the first reading after warm-up". That reading follows from `Warmup` together with `CpuPercent`.
- Aggregate.MemoryPercent requires a positive total. `format_memory` has no zero guard and would raise ZeroDivisionError there.
- Aggregate.CollectSessions takes each process's CPU percentage as `cpuOf`. The monitor passes its own reading. The overview program calls psutil's per-object `cpu_percent()` on new `Process` objects, which is psutil-internal and not modelled.
- TreePrefix.RendererMissesContinuation works on a hand-built row list. That list has the shape `ProcessInfo` produces for a root with two children that each have one child.

## Findings

| source | as written | input that shows it | evidently intended | confidence | as-written member | corrected member |
|---|---|---|---|---|---|---|
| tmux_monitor.py:192-220 | The group in ancestor column L is decided by the nearest earlier row at depth L. | A root with children A (not last) and B (last), each with one child. A's child is drawn `    └──`. | Column L continues the line of the row's ancestor at depth L + 1. It shows `│   ` when that ancestor has a later sibling, so A's child is drawn `│   └──`. | not executed | TreePrefix.RendererMissesContinuation | TreePrefix.IntendedTwoBranches |
| tmux_monitor.py:561-591 | If the previous window list was empty and there is no filter, the tab is left unchanged. | With three windows, tab 2 selected and no filter: a refresh finds none, the next finds one. The tab stays 2, and the next j indexes `windows_data[2]` (IndexError, at tmux_monitor.py:1333). | Clamp the tab into the new list in every case. | not executed | MonitorInput.StaleTabCrashes | MonitorInput.CycleKeepsValid |
| tmux_monitor.py:664-673 | The " \| " separators between tabs, like "Windows" and ": ", are written with no `try`. | Six windows with 12-character names on an 80-column terminal: the separator before the sixth tab goes to column 83, curses raises, and the main loop swallows the error (tmux_monitor.py:1590-1591). The tab and row clamps (tmux_monitor.py:711-715, 768-775) and the process table are skipped on every frame while the terminal stays that narrow. | Stop the bar at the first part that does not fit, as the header does with its parts (tmux_monitor.py:645-651). | not executed | TabBar.SixLongNamesRaise | TabBar.GuardedTabsNeverRaise |

=== FILE: aggregate.dfy ===
/**
 * Window and session totals (`collect_window_data`,
 * `collect_all_sessions_stats`, `collect_system_stats`) and the stable
 * CPU-descending order of the session list.
 */
module Aggregate {
  import opened Base
  import opened ProcessTable
  import opened CpuAccounting
  import opened ProcessTree
  import opened PaneCache

  // ---------------------------------------------------------------------
  // Windows
  // ---------------------------------------------------------------------

  /** One tab of the monitor: a tmux window, its pane roots, the rows of their process trees and the totals. */
  datatype Window = Window(name: string, index: int, totals: Stats, panePids: seq<Pid>, processes: seq<Node>)

  /** The rows of every pane's process tree, pane after pane. */
  function PaneRows(snap: Snapshot, table: Table, now: real, panes: seq<Pid>): seq<Node>
  {
    if |panes| == 0 then []
    else PaneRows(snap, table, now, panes[..|panes| - 1]) + ProcessInfo(snap, table, now, panes[|panes| - 1])
  }

  /** The subtree totals of every pane, added up. */
  function PaneTotals(snap: Snapshot, table: Table, now: real, panes: seq<Pid>): Stats
  {
    if |panes| == 0 then NoStats
    else Add(PaneTotals(snap, table, now, panes[..|panes| - 1]), ProcessStats(snap, table, now, panes[|panes| - 1]))
  }

  lemma {:induction false} RowTotalsAppend(a: seq<Node>, b: seq<Node>)
    ensures RowTotals(a + b) == Add(RowTotals(a), RowTotals(b))
    decreases |a|
  {
    if |a| > 0 {
      assert (a + b)[1..] == a[1..] + b;
      RowTotalsAppend(a[1..], b);
    } else {
      assert a + b == b;
    }
  }

  lemma {:induction false} PaneTotalsAreRowTotals(snap: Snapshot, table: Table, now: real, panes: seq<Pid>)
    ensures PaneTotals(snap, table, now, panes) == RowTotals(PaneRows(snap, table, now, panes))
    decreases |panes|
  {
    if |panes| > 0 {
      var init := panes[..|panes| - 1];
      PaneTotalsAreRowTotals(snap, table, now, init);
      RowTotalsAppend(PaneRows(snap, table, now, init), ProcessInfo(snap, table, now, panes[|panes| - 1]));
    }
  }

  /**
   * One window as a refresh builds it from its pane roots: the rows of every
   * pane's tree, and totals that are exactly the totals of those rows.
   */
  function CollectWindow(snap: Snapshot, table: Table, now: real, index: int, name: string, panes: seq<Pid>): (w: Window)
    ensures w.name == name && w.index == index && w.panePids == panes
    ensures w.processes == PaneRows(snap, table, now, panes)
    ensures w.totals == RowTotals(w.processes)
    ensures w.totals.count == |w.processes|
  {
    if |panes| == 0 then
      Window(name, index, NoStats, [], [])
    else
      PaneTotalsAreRowTotals(snap, table, now, panes);
      Window(name, index, PaneTotals(snap, table, now, panes), panes, PaneRows(snap, table, now, panes))
  }

  /**
   * All windows of the parsed window list, in order, each collected from the
   * pane roots the pane cache gives for it; `answer(i)` is what asking tmux
   * for the panes of window `i` would return. The lookups are threaded
   * through the cache one window after the other.
   */
  function CollectWindows(cache: Cache, session: string, now: real, listed: seq<(int, string)>,
                          answer: int -> seq<Pid>, snap: Snapshot, table: Table): (r: (seq<Window>, Cache))
    ensures |r.0| == |listed|
    ensures forall i :: 0 <= i < |listed| ==> r.0[i].index == listed[i].0 && r.0[i].name == listed[i].1
    ensures forall i :: 0 <= i < |listed| ==> r.0[i].totals == RowTotals(r.0[i].processes)
    ensures forall i :: 0 <= i < |listed| ==>
              r.0[i] == CollectWindow(snap, table, now, listed[i].0, listed[i].1, r.0[i].panePids)
    ensures forall i :: 0 <= i < |listed| ==>
              r.0[i].panePids == CachedPanePids(cache, session, listed[i].0, now, answer(listed[i].0)).pids
    ensures r.1 == LookupAll(cache, session, now, WindowIndices(listed), answer).1
  {
    var indices := WindowIndices(listed);
    var looked := LookupAll(cache, session, now, indices, answer);
    (seq(|listed|, i requires 0 <= i < |listed| => CollectWindow(snap, table, now, listed[i].0, listed[i].1, looked.0[i])),
     looked.1)
  }

  function WindowIndices(listed: seq<(int, string)>): (r: seq<int>)
    ensures |r| == |listed| && forall i :: 0 <= i < |listed| ==> r[i] == listed[i].0
  {
    seq(|listed|, i requires 0 <= i < |listed| => listed[i].0)
  }

  // ---------------------------------------------------------------------
  // Sessions
  // ---------------------------------------------------------------------

  datatype Session = Session(name: string, cpu: real, ramKb: nat, count: nat, windowCount: nat)

  /** The processes a session's totals cover: each readable pane root and its readable descendants, pane after pane. */
  function PaneTrees(snap: Snapshot, panes: seq<Pid>): (ps: seq<Pid>)
    ensures forall i :: 0 <= i < |ps| ==> ps[i] in snap.procs
  {
    if |panes| == 0 then []
    else
      var p := panes[|panes| - 1];
      var front := PaneTrees(snap, panes[..|panes| - 1]);
      if p in snap.procs then
        var t := [p] + Descendants(snap, p);
        assert forall i :: 0 <= i < |t| ==> t[i] in snap.procs;
        front + t
      else front
  }

  /**
   * The subtree totals of a session's pane roots, added up, with `cpuOf`
   * giving each process's CPU percent: the totals over every process of
   * every readable pane's tree, one count per process.
   */
  function SessionPaneTotals(snap: Snapshot, cpuOf: Pid -> real, panes: seq<Pid>): (s: Stats)
    ensures s == PidTotals(snap, cpuOf, PaneTrees(snap, panes))
    ensures s.count == |PaneTrees(snap, panes)|
  {
    if |panes| == 0 then NoStats
    else
      var p := panes[|panes| - 1];
      var front := SessionPaneTotals(snap, cpuOf, panes[..|panes| - 1]);
      if p in snap.procs then
        PidTotalsAppend(snap, cpuOf, PaneTrees(snap, panes[..|panes| - 1]), [p] + Descendants(snap, p));
        Add(front, SubtreeTotals(snap, cpuOf, p))
      else
        Add(front, SubtreeTotals(snap, cpuOf, p))
  }

  /** One session's row: its name, the totals over its panes' trees, and its window count. */
  function SessionOf(snap: Snapshot, cpuOf: Pid -> real, name: string, panes: seq<Pid>, windowCount: nat): (s: Session)
    ensures var t := PidTotals(snap, cpuOf, PaneTrees(snap, panes));
            s == Session(name, t.cpu, t.ramKb, t.count, windowCount)
    ensures s.count == |PaneTrees(snap, panes)|
  {
    var t := SessionPaneTotals(snap, cpuOf, panes);
    Session(name, t.cpu, t.ramKb, t.count, windowCount)
  }

  /**
   * In the monitor, where every process's CPU is the monitor's own reading,
   * a session's totals over some panes are the totals the window view
   * reports for the same panes.
   */
  lemma {:induction false} SessionMatchesWindows(snap: Snapshot, table: Table, now: real, panes: seq<Pid>)
    ensures SessionPaneTotals(snap, MonitorCpu(snap, table, now), panes) == PaneTotals(snap, table, now, panes)
    decreases |panes|
  {
    if |panes| > 0 {
      SessionMatchesWindows(snap, table, now, panes[..|panes| - 1]);
    }
  }

  /** Sessions are listed from highest to lowest CPU. */
  predicate SortedByCpu(ss: seq<Session>) {
    forall i, j :: 0 <= i < j < |ss| ==> ss[i].cpu >= ss[j].cpu
  }

  /** Places `x` after every session whose CPU is at least its own. */
  function InsertByCpu(x: Session, s: seq<Session>): (r: seq<Session>)
    ensures |r| == |s| + 1
    ensures forall k :: 0 <= k < |r| ==> r[k] == x || r[k] in s
  {
    if |s| == 0 then [x]
    else if s[0].cpu >= x.cpu then [s[0]] + InsertByCpu(x, s[1..])
    else [x] + s
  }

  /** Inserting into a list sorted highest CPU first keeps it sorted. */
  lemma {:induction false} InsertSorted(x: Session, s: seq<Session>)
    requires SortedByCpu(s)
    ensures SortedByCpu(InsertByCpu(x, s))
    decreases |s|
  {
    if |s| == 0 {
    } else if s[0].cpu >= x.cpu {
      var rest := InsertByCpu(x, s[1..]);
      assert SortedByCpu(s[1..]) by {
        forall i, j | 0 <= i < j < |s[1..]| ensures s[1..][i].cpu >= s[1..][j].cpu {
          assert s[1..][i] == s[i + 1] && s[1..][j] == s[j + 1];
        }
      }
      InsertSorted(x, s[1..]);
      forall k | 0 <= k < |rest| ensures s[0].cpu >= rest[k].cpu {
        if rest[k] != x {
          var j :| 0 <= j < |s[1..]| && s[1..][j] == rest[k];
          assert s[j + 1] == rest[k];
        }
      }
      SortedCons(s[0], rest);
    } else {
      SortedCons(x, s);
    }
  }

  /** A session with at least the CPU of every session of a sorted list may go in front of it. */
  lemma SortedCons(h: Session, rest: seq<Session>)
    requires SortedByCpu(rest)
    requires forall k :: 0 <= k < |rest| ==> h.cpu >= rest[k].cpu
    ensures SortedByCpu([h] + rest)
  {
    forall i, j | 0 <= i < j < |[h] + rest|
      ensures ([h] + rest)[i].cpu >= ([h] + rest)[j].cpu
    {
      if i > 0 {
        assert ([h] + rest)[i] == rest[i - 1];
      }
      assert ([h] + rest)[j] == rest[j - 1];
    }
  }

  lemma {:induction false} InsertPermutes(x: Session, s: seq<Session>)
    ensures multiset(InsertByCpu(x, s)) == multiset(s) + multiset{x}
    decreases |s|
  {
    if |s| > 0 && s[0].cpu >= x.cpu {
      InsertPermutes(x, s[1..]);
      assert s == [s[0]] + s[1..];
    }
  }

  /** `sort(key=cpu_total, reverse=True)`: a stable sort, highest CPU first. */
  function SortByCpu(xs: seq<Session>): (r: seq<Session>)
    ensures multiset(r) == multiset(xs)
    ensures SortedByCpu(r)
  {
    if |xs| == 0 then []
    else
      assert xs == xs[..|xs| - 1] + [xs[|xs| - 1]];
      InsertPermutes(xs[|xs| - 1], SortByCpu(xs[..|xs| - 1]));
      InsertSorted(xs[|xs| - 1], SortByCpu(xs[..|xs| - 1]));
      InsertByCpu(xs[|xs| - 1], SortByCpu(xs[..|xs| - 1]))
  }

  /** The sessions whose CPU total is exactly `v`, in order. */
  function WithCpu(ss: seq<Session>, v: real): seq<Session>
  {
    if |ss| == 0 then [] else (if ss[0].cpu == v then [ss[0]] else []) + WithCpu(ss[1..], v)
  }

  lemma {:induction false} WithCpuAppend(a: seq<Session>, b: seq<Session>, v: real)
    ensures WithCpu(a + b, v) == WithCpu(a, v) + WithCpu(b, v)
    decreases |a|
  {
    if |a| > 0 {
      assert (a + b)[1..] == a[1..] + b;
      WithCpuAppend(a[1..], b, v);
    } else {
      assert a + b == b;
    }
  }

  lemma {:induction false} WithCpuNone(s: seq<Session>, v: real)
    requires forall k :: 0 <= k < |s| ==> s[k].cpu != v
    ensures WithCpu(s, v) == []
    decreases |s|
  {
    if |s| > 0 {
      WithCpuNone(s[1..], v);
    }
  }

  /** Two lists that are the same three parts concatenated, grouped either way, are equal. */
  lemma Regroup(l: seq<Session>, r: seq<Session>, h: seq<Session>, p: seq<Session>, q: seq<Session>)
    requires l == h + (p + q) && r == (h + p) + q
    ensures l == r
  {
    assert |l| == |r|;
    forall k | 0 <= k < |l|
      ensures l[k] == r[k]
    {
      if k < |h| {
      } else if k < |h| + |p| {
      }
    }
  }

  /** One step of `InsertStable`: `x` goes past a first session with at least its CPU. */
  lemma InsertPastHead(x: Session, s: seq<Session>, v: real)
    requires |s| > 0 && s[0].cpu >= x.cpu
    requires WithCpu(InsertByCpu(x, s[1..]), v) == WithCpu(s[1..], v) + WithCpu([x], v)
    ensures WithCpu(InsertByCpu(x, s), v) == WithCpu(s, v) + WithCpu([x], v)
  {
    var rest := InsertByCpu(x, s[1..]);
    var h, p, q := WithCpu([s[0]], v), WithCpu(s[1..], v), WithCpu([x], v);
    assert InsertByCpu(x, s) == [s[0]] + rest;
    WithCpuAppend([s[0]], rest, v);
    assert WithCpu(InsertByCpu(x, s), v) == h + (p + q);
    assert [s[0]][1..] == [];
    assert h == (if s[0].cpu == v then [s[0]] else []);
    assert WithCpu(s, v) + q == (h + p) + q;
    Regroup(WithCpu(InsertByCpu(x, s), v), WithCpu(s, v) + q, h, p, q);
  }

  /** The other step: `x` stops in front of sessions that all have less CPU than it. */
  lemma InsertAtHead(x: Session, s: seq<Session>, v: real)
    requires |s| > 0 && s[0].cpu < x.cpu
    requires forall k :: 0 <= k < |s| ==> s[k].cpu < x.cpu
    ensures WithCpu(InsertByCpu(x, s), v) == WithCpu(s, v) + WithCpu([x], v)
  {
    WithCpuAppend([x], s, v);
    if x.cpu == v {
      WithCpuNone(s, v);
      assert WithCpu(InsertByCpu(x, s), v) == WithCpu([x], v);
    } else {
      assert WithCpu([x], v) == [];
      assert WithCpu(InsertByCpu(x, s), v) == WithCpu(s, v);
    }
  }

  /** Inserting `x` puts it after the sessions of its CPU already there. */
  lemma {:induction false} InsertStable(x: Session, s: seq<Session>, v: real)
    requires SortedByCpu(s)
    ensures WithCpu(InsertByCpu(x, s), v) == WithCpu(s, v) + WithCpu([x], v)
    decreases |s|
  {
    if |s| == 0 {
    } else if s[0].cpu >= x.cpu {
      assert SortedByCpu(s[1..]);
      InsertStable(x, s[1..], v);
      InsertPastHead(x, s, v);
    } else {
      forall k | 0 <= k < |s|
        ensures s[k].cpu < x.cpu
      {
        assert k == 0 || s[0].cpu >= s[k].cpu;
      }
      InsertAtHead(x, s, v);
    }
  }

  /** Sessions with equal CPU keep the order in which they were discovered. */
  lemma {:induction false} SortIsStable(xs: seq<Session>, v: real)
    ensures WithCpu(SortByCpu(xs), v) == WithCpu(xs, v)
    decreases |xs|
  {
    if |xs| > 0 {
      var init, last := xs[..|xs| - 1], xs[|xs| - 1];
      var sorted := SortByCpu(init);
      calc {
        WithCpu(SortByCpu(xs), v);
        WithCpu(InsertByCpu(last, sorted), v);
        { InsertStable(last, sorted, v); }
        WithCpu(sorted, v) + WithCpu([last], v);
        { SortIsStable(init, v); }
        WithCpu(init, v) + WithCpu([last], v);
        { WithCpuAppend(init, [last], v); }
        WithCpu(init + [last], v);
        { assert init + [last] == xs; }
        WithCpu(xs, v);
      }
    }
  }

  /**
   * The session list after a refresh: one entry per listed session, then
   * sorted. `panesOf` and `windowsOf` stand for the tmux queries.
   */
  function CollectSessions(snap: Snapshot, cpuOf: Pid -> real, names: seq<string>,
                           panesOf: string -> seq<Pid>, windowsOf: string -> nat): (r: seq<Session>)
    ensures SortedByCpu(r)
    ensures multiset(r) == multiset(Unsorted(snap, cpuOf, names, panesOf, windowsOf))
    ensures forall v :: WithCpu(r, v) == WithCpu(Unsorted(snap, cpuOf, names, panesOf, windowsOf), v)
  {
    var unsorted := Unsorted(snap, cpuOf, names, panesOf, windowsOf);
    forall v
      ensures WithCpu(SortByCpu(unsorted), v) == WithCpu(unsorted, v)
    {
      SortIsStable(unsorted, v);
    }
    SortByCpu(unsorted)
  }

  /** The sessions in the order tmux listed them. */
  function Unsorted(snap: Snapshot, cpuOf: Pid -> real, names: seq<string>,
                    panesOf: string -> seq<Pid>, windowsOf: string -> nat): (r: seq<Session>)
    ensures |r| == |names|
    ensures forall i :: 0 <= i < |names| ==> r[i] == SessionOf(snap, cpuOf, names[i], panesOf(names[i]), windowsOf(names[i]))
  {
    seq(|names|, i requires 0 <= i < |names| => SessionOf(snap, cpuOf, names[i], panesOf(names[i]), windowsOf(names[i])))
  }

  // ---------------------------------------------------------------------
  // Totals
  // ---------------------------------------------------------------------

  /** Whole megabytes in a number of kilobytes, rounded down. */
  function Megabytes(kb: nat): (mb: nat)
    ensures mb * 1024 <= kb < (mb + 1) * 1024
  {
    kb / 1024
  }

  /**
   * The share of physical memory taken by `kb` kilobytes, in percent, as the
   * per-row memory column shows it. The monitor does not guard against a
   * total of zero here, so callers need a positive total.
   */
  function MemoryPercent(kb: nat, totalRamMb: nat): (p: real)
    requires totalRamMb > 0
    ensures p >= 0.0
    ensures p * (totalRamMb * 1024) as real == (kb * 100) as real
  {
    (kb * 100) as real / (totalRamMb * 1024) as real
  }

  /** A 2,048 KB process on an 8,192 MB machine shows 2 MB and a share that rounds to 0.0%. */
  lemma MemoryColumnExample()
    ensures Megabytes(2048) == 2
    ensures MemoryPercent(2048, 8192) < 0.05
  {
  }

  function SumCpu(ss: seq<Session>): real
  {
    if |ss| == 0 then 0.0 else ss[0].cpu + SumCpu(ss[1..])
  }

  function SumRam(ss: seq<Session>): nat
  {
    if |ss| == 0 then 0 else ss[0].ramKb + SumRam(ss[1..])
  }

  /** The tmux line of the overview: total CPU, whole megabytes, and percent of physical memory. */
  datatype TmuxTotals = TmuxTotals(cpu: real, memoryMb: nat, memoryPercent: real)

  /**
   * `collect_system_stats`: CPU and memory added up over the sessions; the
   * percentage is 0 when the machine's total memory is reported as 0 MB.
   */
  function Totals(ss: seq<Session>, totalRamMb: nat): (t: TmuxTotals)
    ensures t.cpu == SumCpu(ss)
    ensures t.memoryMb * 1024 <= SumRam(ss) < (t.memoryMb + 1) * 1024
    ensures totalRamMb == 0 ==> t.memoryPercent == 0.0
    ensures totalRamMb > 0 ==> t.memoryPercent * (totalRamMb * 1024) as real == (SumRam(ss) * 100) as real
  {
    TmuxTotals(SumCpu(ss), Megabytes(SumRam(ss)),
               if totalRamMb > 0 then MemoryPercent(SumRam(ss), totalRamMb) else 0.0)
  }

  lemma {:induction false} InsertSums(x: Session, s: seq<Session>)
    ensures SumCpu(InsertByCpu(x, s)) == x.cpu + SumCpu(s)
    ensures SumRam(InsertByCpu(x, s)) == x.ramKb + SumRam(s)
    decreases |s|
  {
    if |s| > 0 && s[0].cpu >= x.cpu {
      InsertSums(x, s[1..]);
    }
  }

  lemma {:induction false} SumsAppendLast(xs: seq<Session>)
    requires |xs| > 0
    ensures SumCpu(xs) == SumCpu(xs[..|xs| - 1]) + xs[|xs| - 1].cpu
    ensures SumRam(xs) == SumRam(xs[..|xs| - 1]) + xs[|xs| - 1].ramKb
    decreases |xs|
  {
    if |xs| > 1 {
      assert xs[1..][..|xs| - 2] == xs[..|xs| - 1][1..];
      SumsAppendLast(xs[1..]);
    }
  }

  /** Sorting the session list does not change the tmux totals. */
  lemma {:induction false} TotalsIgnoreOrder(xs: seq<Session>, totalRamMb: nat)
    ensures Totals(SortByCpu(xs), totalRamMb) == Totals(xs, totalRamMb)
  {
    SortKeepsSums(xs);
  }

  lemma {:induction false} SortKeepsSums(xs: seq<Session>)
    ensures SumCpu(SortByCpu(xs)) == SumCpu(xs)
    ensures SumRam(SortByCpu(xs)) == SumRam(xs)
    decreases |xs|
  {
    if |xs| > 0 {
      SortKeepsSums(xs[..|xs| - 1]);
      InsertSums(xs[|xs| - 1], SortByCpu(xs[..|xs| - 1]));
      SumsAppendLast(xs);
    }
  }
}

=== FILE: base.dfy ===
/** Small shared vocabulary: an optional value and sequence flattening. */
module Base {

  /** A value that may be missing; `None` stands for Python's `None` or a failed query. */
  datatype Option<T> = None | Some(value: T)

  /** The present value as a one-element sequence, or nothing. */
  function OptionToSeq<T>(o: Option<T>): seq<T>
  {
    match o
    case Some(v) => [v]
    case None => []
  }

  /** Concatenation of a sequence of sequences, in order. */
  function Concat<T>(xss: seq<seq<T>>): seq<T>
  {
    if |xss| == 0 then [] else Concat(xss[..|xss| - 1]) + xss[|xss| - 1]
  }

  /** Concat distributes over appending lists of lists. */
  lemma {:induction false} ConcatAppend<T>(a: seq<seq<T>>, b: seq<seq<T>>)
    ensures Concat(a + b) == Concat(a) + Concat(b)
    decreases |b|
  {
    if |b| == 0 {
      assert a + b == a;
    } else {
      assert (a + b)[..|a + b| - 1] == a + b[..|b| - 1];
      ConcatAppend(a, b[..|b| - 1]);
    }
  }

  /** Every element of the flattening comes from one of the inner sequences. */
  lemma {:induction false} ConcatMember<T>(xss: seq<seq<T>>, x: T)
    requires x in Concat(xss)
    ensures exists k :: 0 <= k < |xss| && x in xss[k]
    decreases |xss|
  {
    var last := xss[|xss| - 1];
    if x in last {
      assert x in xss[|xss| - 1];
    } else {
      ConcatMember(xss[..|xss| - 1], x);
      var k :| 0 <= k < |xss| - 1 && x in xss[..|xss| - 1][k];
      assert x in xss[k];
    }
  }
}

=== FILE: cpu_accounting.dfy ===
/**
 * CPU-percent accounting: a table of per-process baselines (wall-clock time,
 * cumulative CPU times) and the rate computed against them. Times are seconds
 * given by the caller; nothing here reads a clock.
 */
module CpuAccounting {
  import opened Base
  import opened ProcessTable

  /** When the baseline was taken and the cumulative CPU times at that moment. */
  datatype Baseline = Baseline(time: real, times: CpuTimes)

  type Table = map<Pid, Baseline>

  /** Readings closer than this many seconds to their baseline report 0. */
  const MinElapsed: real := 0.1

  /** User plus system seconds. */
  function Busy(t: CpuTimes): real
  {
    t.user + t.system
  }

  /** CPU seconds `busy` over `elapsed` wall-clock seconds, as a percentage of one CPU. */
  function Rate(busy: real, elapsed: real): real
    requires elapsed > 0.0
  {
    busy / elapsed * 100.0
  }

  /** The rate is the share that, applied to the interval, gives back the CPU seconds. */
  lemma RateSpec(busy: real, elapsed: real)
    requires elapsed > 0.0
    ensures Rate(busy, elapsed) * elapsed == 100.0 * busy
    ensures busy == 0.0 ==> Rate(busy, elapsed) == 0.0
    ensures busy >= 0.0 ==> Rate(busy, elapsed) >= 0.0
  {
  }

  /** A percentage and the table as it stands after the reading. */
  datatype Reading = Reading(percent: real, table: Table)

  /**
   * `get_cpu_percent(pid, update_baseline)` at time `now`. `probe` is the
   * process's cumulative times as read now, or `None` when the process cannot
   * be read. The rate is CPU seconds per wall-clock second since the
   * baseline, times 100; the baseline is replaced only on request, and never
   * on the too-soon or unreadable paths.
   */
  function CpuPercent(table: Table, pid: Pid, now: real, probe: Option<CpuTimes>, updateBaseline: bool): (r: Reading)
    ensures probe.None? ==> r == Reading(0.0, table)
    ensures pid !in table ==> r.percent == 0.0
    ensures pid in table && now - table[pid].time <= MinElapsed ==> r == Reading(0.0, table)
    ensures probe.Some? && pid in table && now - table[pid].time > MinElapsed ==>
              r.percent == Rate(Busy(probe.value) - Busy(table[pid].times), now - table[pid].time)
    ensures !updateBaseline ==> r.table == table
    ensures r.table != table ==>
              && updateBaseline && probe.Some?
              && r.table == table[pid := Baseline(now, probe.value)]
              && (pid !in table || now - table[pid].time > MinElapsed)
  {
    match probe
    case None => Reading(0.0, table)
    case Some(current) =>
      if pid in table then
        var last := table[pid];
        var elapsed := now - last.time;
        if elapsed > MinElapsed then
          var percent := Rate(Busy(current) - Busy(last.times), elapsed);
          Reading(percent, if updateBaseline then table[pid := Baseline(now, current)] else table)
        else
          Reading(0.0, table)
      else
        Reading(0.0, if updateBaseline then table[pid := Baseline(now, current)] else table)
  }

  /** A process that used no CPU time since its baseline reads 0%. */
  lemma IdleReadsZero(table: Table, pid: Pid, now: real, current: CpuTimes, updateBaseline: bool)
    requires pid in table && Busy(current) == Busy(table[pid].times)
    ensures CpuPercent(table, pid, now, Some(current), updateBaseline).percent == 0.0
  {
    if now - table[pid].time > MinElapsed {
      RateSpec(0.0, now - table[pid].time);
    }
  }

  /** Records a fresh baseline for each pid in turn. */
  function SeedAll(table: Table, snap: Snapshot, now: real, pids: seq<Pid>): (r: Table)
    requires forall i :: 0 <= i < |pids| ==> pids[i] in snap.procs
    ensures forall q :: q in pids ==> q in r && r[q] == Baseline(now, snap.procs[q].times)
    ensures forall q :: q !in pids ==> (q in r <==> q in table) && (q in r ==> r[q] == table[q])
    decreases |pids|
  {
    if |pids| == 0 then table
    else
      SeedAll(table[pids[0] := Baseline(now, snap.procs[pids[0]].times)], snap, now, pids[1..])
  }

  /** `q` is a readable process in the tree of one of `roots`. */
  ghost predicate Seeded(snap: Snapshot, roots: seq<Pid>, q: Pid) {
    exists k :: 0 <= k < |roots| && q in Tree(snap, roots[k])
  }

  /** `q` is one of `roots` and cannot be read. */
  ghost predicate DroppedRoot(snap: Snapshot, roots: seq<Pid>, q: Pid) {
    q in roots && q !in snap.procs
  }

  /**
   * The seeding pass of the start-up warm-up, over the pane roots of every
   * window in order: a readable root gets a fresh baseline for itself and for
   * each readable descendant; an unreadable root loses its baseline. Nothing
   * else in the table changes.
   */
  function Warmup(table: Table, snap: Snapshot, now: real, roots: seq<Pid>): (r: Table)
    ensures forall q :: Seeded(snap, roots, q) ==> q in r && r[q] == Baseline(now, snap.procs[q].times)
    ensures forall q :: DroppedRoot(snap, roots, q) ==> q !in r
    ensures forall q :: !Seeded(snap, roots, q) && !DroppedRoot(snap, roots, q) ==>
              (q in r <==> q in table) && (q in r ==> r[q] == table[q])
    decreases |roots|
  {
    if |roots| == 0 then table
    else
      var before := roots[..|roots| - 1];
      var root := roots[|roots| - 1];
      var t := Warmup(table, snap, now, before);
      SeededSplit(snap, roots);
      assert forall q :: DroppedRoot(snap, roots, q) <==> DroppedRoot(snap, before, q) || (q == root && q !in snap.procs) by {
        assert roots == before + [root];
      }
      if root in snap.procs then SeedAll(t, snap, now, Tree(snap, root)) else t - {root}
  }

  lemma SeededSplit(snap: Snapshot, roots: seq<Pid>)
    requires |roots| > 0
    ensures forall q :: Seeded(snap, roots, q) <==>
              Seeded(snap, roots[..|roots| - 1], q) || q in Tree(snap, roots[|roots| - 1])
  {
    var before := roots[..|roots| - 1];
    forall q | Seeded(snap, roots, q)
      ensures Seeded(snap, before, q) || q in Tree(snap, roots[|roots| - 1])
    {
      var k :| 0 <= k < |roots| && q in Tree(snap, roots[k]);
      if k < |roots| - 1 {
        assert before[k] == roots[k];
      }
    }
    forall q | Seeded(snap, before, q)
      ensures Seeded(snap, roots, q)
    {
      var k :| 0 <= k < |before| && q in Tree(snap, before[k]);
      assert roots[k] == before[k];
    }
  }

  /**
   * With baseline updates requested, each reading measures the interval since
   * the previous one: two successful readings in a row, the second more than
   * `MinElapsed` after the first, give the rate over the interval between them.
   */
  lemma SuccessiveReadings(table: Table, pid: Pid, t1: real, c1: CpuTimes, t2: real, c2: CpuTimes)
    requires pid !in table || t1 - table[pid].time > MinElapsed
    requires t2 - t1 > MinElapsed
    ensures var first := CpuPercent(table, pid, t1, Some(c1), true);
            CpuPercent(first.table, pid, t2, Some(c2), true).percent == Rate(Busy(c2) - Busy(c1), t2 - t1)
  {
    var first := CpuPercent(table, pid, t1, Some(c1), true);
    assert first.table[pid] == Baseline(t1, c1);
  }

  /** Without baseline updates every reading is taken against the same baseline, however many are made. */
  lemma ReadingsDoNotMoveBaseline(table: Table, pid: Pid, t1: real, p1: Option<CpuTimes>, q: Pid, t2: real, p2: Option<CpuTimes>)
    ensures CpuPercent(CpuPercent(table, pid, t1, p1, false).table, q, t2, p2, false) == CpuPercent(table, q, t2, p2, false)
  {
  }

  /** A pane root that could not be read at warm-up has no baseline, so its next reading is 0%. */
  lemma DroppedRootReadsZero(table: Table, snap: Snapshot, seededAt: real, roots: seq<Pid>,
                             q: Pid, now: real, probe: Option<CpuTimes>, updateBaseline: bool)
    requires DroppedRoot(snap, roots, q)
    ensures CpuPercent(Warmup(table, snap, seededAt, roots), q, now, probe, updateBaseline).percent == 0.0
  {
  }
}

=== FILE: monitor_input.dfy ===
/**
 * The monitor's interactive state and its key handling: one call of the
 * input handler per key, the index clamps applied while drawing, the data
 * refresh, and one turn of the main loop tying the three together.
 */
module MonitorInput {
  import opened Base
  import opened Text
  import opened ProcessTable
  import opened ProcessTree
  import opened TreePrefix
  import opened Aggregate
  import opened Selection

  // ---------------------------------------------------------------------
  // Keys
  // ---------------------------------------------------------------------

  /** Key codes as the terminal library reports them. */
  const KeyDown := 258
  const KeyUp := 259
  const KeyLeft := 260
  const KeyRight := 261
  const KeyBackspace := 263
  const Delete := 127
  const Escape := 27
  const CtrlC := 3

  /**
   * One keyboard event: a single key code, or an Escape followed by another
   * key soon enough to be read as Alt held with that key. `Key(-1)` is the
   * poll that found no key.
   */
  datatype Event = Key(code: int) | Alt(code: int)

  predicate IsEnter(c: int) { c == 10 || c == 13 }
  predicate IsChar(c: int, ch: char) { c == ch as int }
  predicate IsDigitKey(c: int) { 48 <= c <= 57 }

  // ---------------------------------------------------------------------
  // State
  // ---------------------------------------------------------------------

  datatype Mode = Navigate | SignalEntry

  /**
   * The monitor's state: the windows of the watched session and the selected
   * tab, process-row browsing with its selected row and horizontal scroll,
   * the signal-number prompt, and the session overview with its list and
   * selected session.
   */
  datatype Monitor = Monitor(
    windows: seq<Window>, tab: nat,
    browsing: bool, selected: nat, scroll: nat,
    mode: Mode, buffer: string,
    overview: bool, browseSessions: bool, sessions: seq<Session>, sessionIndex: nat,
    sessionName: string, running: bool)

  /** The state before the first key: nothing collected yet, all indices 0. */
  function Initial(sessionName: string, overview: bool): (m: Monitor)
    ensures m.windows == [] && m.sessions == [] && m.mode == Navigate && m.buffer == ""
    ensures m.running && m.overview == overview && !m.browsing && !m.browseSessions
  {
    Monitor([], 0, false, 0, 0, Navigate, "", overview, false, [], 0, sessionName, true)
  }

  /** What a key asks of the outside world besides the state change. */
  datatype Effect =
    | NoEffect
    | ShowHelp               // the help screen, which then waits for and swallows one key
    | SendSignal(pid: Pid, signal: int)
    | Copy(text: string)     // to the clipboard
    | CollectOverview        // gather the sessions for the overview
    | SwitchSession(name: string)  // gather the windows of the newly chosen session

  /** The result of one call of the input handler: a new state, or the `IndexError` that ends the program. */
  datatype Outcome = Step(monitor: Monitor, effect: Effect) | IndexError

  /** The terminal width and the width of the selected row's pid, CPU and memory columns. */
  datatype Screen = Screen(width: int, baseLineLen: nat)

  /**
   * The state the handler can work on without indexing past the end of the
   * window list, with a prompt buffer of digits only.
   */
  predicate Valid(m: Monitor) {
    (|m.windows| == 0 || m.tab < |m.windows|) && AllDigits(m.buffer)
  }

  // ---------------------------------------------------------------------
  // Actions on the selected process
  // ---------------------------------------------------------------------

  /**
   * The selected process of the current window: `None` when there are no
   * windows, the window has no processes or the row is past its end; the
   * error when the tab itself is past the end.
   */
  datatype Selected = NoProcess | Process(node: Node) | TabOutOfRange

  function SelectedProcess(m: Monitor): (s: Selected)
    ensures s == TabOutOfRange <==> |m.windows| > 0 && m.tab >= |m.windows|
    ensures s.Process? ==> m.tab < |m.windows| && m.selected < |m.windows[m.tab].processes|
                           && s.node == m.windows[m.tab].processes[m.selected]
    ensures s == NoProcess <==> |m.windows| == 0
                                || (m.tab < |m.windows| && m.selected >= |m.windows[m.tab].processes|)
  {
    if |m.windows| == 0 then NoProcess
    else if m.tab >= |m.windows| then TabOutOfRange
    else if m.selected < |m.windows[m.tab].processes| then Process(m.windows[m.tab].processes[m.selected])
    else NoProcess
  }

  /** What can be done to the selected process: a signal, or copying its command or its pid. */
  datatype Action = Signal(signal: int) | CopyCommand | CopyPid

  function Act(a: Action, p: Node): Effect
  {
    match a
    case Signal(n) => SendSignal(p.pid, n)
    case CopyCommand => Copy(p.command)
    case CopyPid => Copy(ShowInt(p.pid))
  }

  /** Applies an action to the selected process, if there is one. */
  function OnSelected(m: Monitor, m1: Monitor, a: Action): (o: Outcome)
    ensures o == IndexError <==> SelectedProcess(m) == TabOutOfRange
    ensures o.Step? ==> o.monitor == m1
    ensures o.Step? && o.effect != NoEffect ==> SelectedProcess(m).Process? && o.effect == Act(a, SelectedProcess(m).node)
    ensures SelectedProcess(m).Process? ==> o == Step(m1, Act(a, SelectedProcess(m).node))
    ensures SelectedProcess(m) == NoProcess ==> o == Step(m1, NoEffect)
    ensures o.IndexError? ==> |m.windows| > 0 && m.tab >= |m.windows|
  {
    match SelectedProcess(m)
    case TabOutOfRange => IndexError
    case NoProcess => Step(m1, NoEffect)
    case Process(p) => Step(m1, Act(a, p))
  }

  // ---------------------------------------------------------------------
  // Signal-number prompt
  // ---------------------------------------------------------------------

  /**
   * One key while the signal-number prompt is open: only the prompt changes,
   * and the prompt's only effect is a signal to the selected process when
   * Enter closes it.
   */
  function SignalKey(m: Monitor, c: int): (o: Outcome)
    requires m.mode == SignalEntry
    ensures o.IndexError? ==> IsEnter(c) && SelectedProcess(m) == TabOutOfRange
    ensures o.Step? ==> o.monitor == m.(mode := o.monitor.mode, buffer := o.monitor.buffer)
    ensures o.Step? && (IsEnter(c) || c == Escape) ==> o.monitor.mode == Navigate && o.monitor.buffer == ""
    ensures o.Step? && o.monitor.mode == SignalEntry ==> o.effect == NoEffect
    ensures o.Step? && o.effect != NoEffect ==>
              IsEnter(c) && SelectedProcess(m).Process? && o.effect.SendSignal? && o.effect.pid == SelectedProcess(m).node.pid
  {
    var closed := m.(mode := Navigate, buffer := "");
    if IsEnter(c) then
      if |Strip(m.buffer)| > 0 then
        match ParseInt(m.buffer)
        case None => Step(closed, NoEffect)
        case Some(n) => OnSelected(m, closed, Signal(n))
      else Step(closed, NoEffect)
    else if c == Escape then Step(closed, NoEffect)
    else if c == KeyBackspace || c == Delete then
      Step(if |m.buffer| > 0 then m.(buffer := m.buffer[..|m.buffer| - 1]) else m, NoEffect)
    else if IsDigitKey(c) then Step(m.(buffer := m.buffer + [c as char]), NoEffect)
    else Step(m, NoEffect)
  }

  // ---------------------------------------------------------------------
  // Horizontal scrolling of the selected command
  // ---------------------------------------------------------------------

  /** Alt+Left: ten columns back, never before the start. */
  function ScrollLeft(offset: nat): (r: nat)
    ensures r <= offset
    ensures offset >= 10 ==> r == offset - 10
    ensures offset < 10 ==> r == 0
  {
    if offset >= 10 then offset - 10 else 0
  }

  /**
   * Alt+Right: ten columns on, never past the offset that shows the end of
   * the command with four columns to spare. `room` is what is left of the
   * row for the command and may be negative on a narrow terminal.
   */
  function ScrollRight(offset: nat, commandLength: nat, room: int): (r: nat)
    ensures r <= offset + 10
    ensures r <= MaxScroll(commandLength, room)
    ensures r == offset + 10 || r == MaxScroll(commandLength, room)
  {
    var limit := MaxScroll(commandLength, room);
    if limit < offset + 10 then limit else offset + 10
  }

  /** The furthest the command may be scrolled: `max(0, len(command) - room + 4)`. */
  function MaxScroll(commandLength: nat, room: int): nat
  {
    if commandLength - room + 4 > 0 then commandLength - room + 4 else 0
  }

  /** Scrolling right by a step that stays within the limit and then left again returns to the same column. */
  lemma ScrollRightThenLeft(offset: nat, commandLength: nat, room: int)
    requires offset + 10 <= MaxScroll(commandLength, room)
    ensures ScrollLeft(ScrollRight(offset, commandLength, room)) == offset
  {
  }

  /** Repeated Alt+Right stops at the limit and stays there. */
  lemma ScrollRightSettles(offset: nat, commandLength: nat, room: int)
    requires offset == MaxScroll(commandLength, room)
    ensures ScrollRight(offset, commandLength, room) == offset
  {
  }

  /** The columns left for the command on the selected row, as the handler computes them. */
  function CommandRoom(screen: Screen, rows: seq<Node>, sel: nat): int
    requires sel < |rows|
  {
    screen.width - (screen.baseLineLen + |Render(Prefix(rows, sel))| + 1) - 1
  }

  /** The room left for the command depends only on the row's depth: the tree prefix is 4·depth − 1 columns wide. */
  lemma CommandRoomByDepth(screen: Screen, rows: seq<Node>, sel: nat)
    requires sel < |rows|
    ensures rows[sel].depth > 0 ==>
              CommandRoom(screen, rows, sel) == screen.width - screen.baseLineLen - 4 * rows[sel].depth - 1
    ensures rows[sel].depth == 0 ==> CommandRoom(screen, rows, sel) == screen.width - screen.baseLineLen - 2
  {
    PrefixWidth(rows, sel);
  }

  /** Browsing rows, with the tab and the selected row both inside their lists. */
  predicate RowSelected(m: Monitor) {
    m.browsing && m.tab < |m.windows| && m.selected < |m.windows[m.tab].processes|
  }

  /** Alt with a key in navigation mode: scrolls the selected command while browsing rows. */
  function AltKey(m: Monitor, c: int, screen: Screen): (o: Outcome)
    requires m.mode == Navigate
    ensures o == IndexError <==> m.browsing && |m.windows| > 0 && m.tab >= |m.windows|
    ensures o.Step? ==> o.effect == NoEffect && o.monitor == m.(scroll := o.monitor.scroll)
    ensures RowSelected(m) && (c == KeyLeft || IsChar(c, 'h') || IsChar(c, 'H')) ==>
              o == Step(m.(scroll := ScrollLeft(m.scroll)), NoEffect)
    ensures RowSelected(m) && (c == KeyRight || IsChar(c, 'l') || IsChar(c, 'L')) ==>
              var rows := m.windows[m.tab].processes;
              o == Step(m.(scroll := ScrollRight(m.scroll, |rows[m.selected].command|, CommandRoom(screen, rows, m.selected))), NoEffect)
    ensures o.Step? && o.monitor.scroll != m.scroll ==>
              RowSelected(m) && (c == KeyLeft || IsChar(c, 'h') || IsChar(c, 'H') || c == KeyRight || IsChar(c, 'l') || IsChar(c, 'L'))
  {
    if m.browsing && |m.windows| > 0 then
      if m.tab >= |m.windows| then IndexError
      else
        var rows := m.windows[m.tab].processes;
        if |rows| > 0 && m.selected < |rows| then
          var room := CommandRoom(screen, rows, m.selected);
          if c == KeyLeft || IsChar(c, 'h') || IsChar(c, 'H') then
            Step(m.(scroll := ScrollLeft(m.scroll)), NoEffect)
          else if c == KeyRight || IsChar(c, 'l') || IsChar(c, 'L') then
            Step(m.(scroll := ScrollRight(m.scroll, |rows[m.selected].command|, room)), NoEffect)
          else Step(m, NoEffect)
        else Step(m, NoEffect)
    else Step(m, NoEffect)
  }

  // ---------------------------------------------------------------------
  // Navigation mode
  // ---------------------------------------------------------------------

  /** Back to the session overview, unless it is already shown. */
  function OpenOverview(m: Monitor): (o: Outcome)
    ensures Valid(m) ==> o.Step? && Valid(o.monitor)
    ensures o.Step? ==> o.monitor.mode == m.mode && o.monitor.buffer == m.buffer && o.monitor.windows == m.windows
                        && o.monitor.running == m.running && o.monitor.sessions == m.sessions
    ensures o.IndexError? ==> |m.windows| > 0 && m.tab >= |m.windows|
  {
    if !m.overview then Step(m.(overview := true, browseSessions := false), CollectOverview)
    else Step(m, NoEffect)
  }

  /** j / Down. */
  function Down(m: Monitor): (o: Outcome)
    ensures Valid(m) ==> o.Step? && Valid(o.monitor)
    ensures o.Step? ==> o.monitor.mode == m.mode && o.monitor.buffer == m.buffer && o.monitor.windows == m.windows
                        && o.monitor.running == m.running && o.monitor.sessions == m.sessions
    ensures o.IndexError? ==> |m.windows| > 0 && m.tab >= |m.windows|
  {
    if m.overview then
      var n := |m.sessions|;
      Step(m.(browseSessions := true,
              sessionIndex := if n == 0 then m.sessionIndex else if m.sessionIndex < n - 1 then m.sessionIndex + 1 else 0),
           NoEffect)
    else if |m.windows| > 0 then
      if m.tab >= |m.windows| then IndexError
      else
        var n := |m.windows[m.tab].processes|;
        if n > 0 then
          Step(m.(browsing := true, selected := if m.selected < n - 1 then m.selected + 1 else 0), NoEffect)
        else Step(m, NoEffect)
    else Step(m, NoEffect)
  }

  /** k / Up. */
  function Up(m: Monitor): (o: Outcome)
    ensures Valid(m) ==> o.Step? && Valid(o.monitor)
    ensures o.Step? ==> o.monitor.mode == m.mode && o.monitor.buffer == m.buffer && o.monitor.windows == m.windows
                        && o.monitor.running == m.running && o.monitor.sessions == m.sessions
    ensures o.IndexError? ==> |m.windows| > 0 && m.tab >= |m.windows|
  {
    if m.overview then
      var n := |m.sessions|;
      Step(m.(browseSessions := true,
              sessionIndex := if m.sessionIndex > 0 then m.sessionIndex - 1 else if n > 0 then n - 1 else m.sessionIndex),
           NoEffect)
    else if m.browsing && |m.windows| > 0 then
      if m.tab >= |m.windows| then IndexError
      else
        var n := |m.windows[m.tab].processes|;
        if n > 0 then
          Step(m.(selected := if m.selected > 0 then m.selected - 1 else n - 1), NoEffect)
        else Step(m, NoEffect)
    else Step(m, NoEffect)
  }

  /** Enter: opens the selected session of the overview when browsing sessions. */
  function Enter(m: Monitor): (o: Outcome)
    ensures Valid(m) ==> o.Step? && Valid(o.monitor)
    ensures o.Step? ==> o.monitor.mode == m.mode && o.monitor.buffer == m.buffer && o.monitor.windows == m.windows
                        && o.monitor.running == m.running && o.monitor.sessions == m.sessions
    ensures o.IndexError? ==> |m.windows| > 0 && m.tab >= |m.windows|
  {
    if m.overview && m.browseSessions && |m.sessions| > 0 && m.sessionIndex < |m.sessions| then
      var name := m.sessions[m.sessionIndex].name;
      Step(m.(overview := false, browseSessions := false, sessionName := name, tab := 0), SwitchSession(name))
    else Step(m, NoEffect)
  }

  /** x / X: SIGTERM to the selected process when browsing rows; otherwise a step up the sessions or a tab to the left. */
  function Terminate(m: Monitor): (o: Outcome)
    ensures Valid(m) ==> o.Step? && Valid(o.monitor)
    ensures o.Step? ==> o.monitor.mode == m.mode && o.monitor.buffer == m.buffer && o.monitor.windows == m.windows
                        && o.monitor.running == m.running && o.monitor.sessions == m.sessions
    ensures o.IndexError? ==> |m.windows| > 0 && m.tab >= |m.windows|
  {
    if m.browsing then OnSelected(m, m, Signal(15))
    else if m.overview && m.browseSessions && |m.sessions| > 0 && m.sessionIndex > 0 then
      Step(m.(sessionIndex := m.sessionIndex - 1), NoEffect)
    else if m.overview then
      Step(m.(browseSessions := true, sessionIndex := if |m.sessions| > 0 then |m.sessions| - 1 else m.sessionIndex), NoEffect)
    else Step(m.(tab := PrevTab(m.tab, |m.windows|)), NoEffect)
  }

  /** One key in navigation mode; the first branch whose key matches decides. */
  function NavigateKey(m: Monitor, c: int): (o: Outcome)
    requires m.mode == Navigate
    ensures Valid(m) ==> o.Step? && Valid(o.monitor)
    ensures o.Step? ==> o.monitor.windows == m.windows && o.monitor.sessions == m.sessions
    ensures o.IndexError? ==> |m.windows| > 0 && m.tab >= |m.windows|
  {
    if IsChar(c, 'q') || IsChar(c, 'Q') then Step(m.(running := false), NoEffect)
    else if IsChar(c, '?') then Step(m, ShowHelp)
    else if IsChar(c, 'o') || IsChar(c, 'O') then OpenOverview(m)
    else if c == KeyLeft || IsChar(c, 'h') || IsChar(c, 'H') then Step(m.(tab := PrevTab(m.tab, |m.windows|)), NoEffect)
    else if c == KeyRight || IsChar(c, 'l') || IsChar(c, 'L') then Step(m.(tab := NextTab(m.tab, |m.windows|)), NoEffect)
    else if IsChar(c, 'j') || c == KeyDown then Down(m)
    else if IsChar(c, 'k') || c == KeyUp then Up(m)
    else if IsChar(c, 'y') then
      if m.browsing then OnSelected(m, m, CopyCommand) else Step(m, NoEffect)
    else if IsChar(c, 'Y') then
      if m.browsing then OnSelected(m, m, CopyPid) else Step(m, NoEffect)
    else if IsChar(c, 's') || IsChar(c, 'S') then
      if m.browsing then Step(m.(mode := SignalEntry, buffer := ""), NoEffect) else Step(m, NoEffect)
    else if c == CtrlC then Step(m.(running := false), NoEffect)
    else if IsEnter(c) then Enter(m)
    else if c == Escape then OpenOverview(m)
    else if IsChar(c, 'x') || IsChar(c, 'X') then Terminate(m)
    else Step(m, NoEffect)
  }

  /**
   * One call of the input handler. `Alt(-1)`, an Escape with nothing after
   * it, is the Escape key in either mode. During the prompt the handler reads
   * only the Escape of an Alt event, which closes the prompt, and the next
   * poll reads the trailing key as an ordinary key; here both happen in one
   * call, so the drawing and the refresh the main loop would run between the
   * two polls are skipped.
   */
  function HandleKey(m: Monitor, e: Event, screen: Screen): (o: Outcome)
    ensures o.IndexError? ==> |m.windows| > 0 && m.tab >= |m.windows|
    ensures o.Step? ==> o.monitor.windows == m.windows && o.monitor.sessions == m.sessions
  {
    if e == Key(-1) then Step(m, NoEffect)
    else if m.mode == SignalEntry then
      match e
      case Key(c) => SignalKey(m, c)
      case Alt(c) =>
        if c == -1 then SignalKey(m, Escape)
        else NavigateKey(m.(mode := Navigate, buffer := ""), c)
    else
      match e
      case Key(c) => NavigateKey(m, c)
      case Alt(c) => if c == -1 then NavigateKey(m, Escape) else AltKey(m, c, screen)
  }

  // ---------------------------------------------------------------------
  // Properties of the handler
  // ---------------------------------------------------------------------

  /**
   * While the prompt is open, a key changes nothing but the prompt: digits
   * are appended, Backspace drops the last character, Enter and Escape close
   * the prompt with an empty buffer, and anything else is ignored. The buffer
   * holds digits only, and a signal goes out only on Enter with a non-empty
   * buffer, carrying its value, to the selected process.
   */
  lemma PromptKeys(m: Monitor, c: int, screen: Screen)
    requires Valid(m) && m.mode == SignalEntry && c != -1
    ensures HandleKey(m, Key(c), screen).Step?
    ensures var o := HandleKey(m, Key(c), screen);
            && o.monitor == m.(mode := o.monitor.mode, buffer := o.monitor.buffer)
            && AllDigits(o.monitor.buffer)
            && (o.monitor.mode == Navigate <==> IsEnter(c) || c == Escape)
            && (o.monitor.mode == Navigate ==> o.monitor.buffer == "")
            && (IsDigitKey(c) ==> o.monitor.buffer == m.buffer + [c as char])
            && ((c == KeyBackspace || c == Delete) && |m.buffer| > 0 ==> o.monitor.buffer == m.buffer[..|m.buffer| - 1])
            && (o.effect != NoEffect ==> IsEnter(c) && |m.buffer| > 0 && o.effect == SendSignal(o.effect.pid, DigitsValue(m.buffer)))
            && (IsEnter(c) && |m.buffer| > 0 && SelectedProcess(m).Process? ==>
                  o.effect == SendSignal(SelectedProcess(m).node.pid, DigitsValue(m.buffer)))
  {
    var b := m.buffer;
    assert HandleKey(m, Key(c), screen) == SignalKey(m, c);
    if IsEnter(c) {
      if |b| > 0 {
        DigitsParse(b);
      }
    } else if c == Escape || c == KeyBackspace || c == Delete {
    } else if IsDigitKey(c) {
      var b2 := b + [c as char];
      assert AllDigits(b2) by {
        forall k | 0 <= k < |b2|
          ensures IsDigit(b2[k])
        {
          if k < |b| {
            assert b2[k] == b[k];
          }
        }
      }
    }
  }

  /** A non-empty run of digits is its own stripped text and parses to its value. */
  lemma DigitsParse(b: string)
    requires AllDigits(b) && |b| > 0
    ensures Strip(b) == b && ParseInt(b) == Some(DigitsValue(b))
  {
    assert !IsSpace(b[0]) && !IsSpace(b[|b| - 1]);
    StripUnchanged(b);
  }

  /**
   * From a valid state no key makes the handler index past the end of the
   * window list, and the state stays valid.
   */
  lemma ValidStateNeverFails(m: Monitor, e: Event, screen: Screen)
    requires Valid(m)
    ensures HandleKey(m, e, screen).Step?
    ensures Valid(HandleKey(m, e, screen).monitor)
    ensures HandleKey(m, e, screen).monitor.windows == m.windows
  {
    if m.mode == SignalEntry && e.Key? && e.code != -1 {
      PromptKeys(m, e.code, screen);
    }
  }

  /** Navigation keys never open or change the prompt unless they are s/S while browsing rows. */
  lemma PromptOpensOnlyOnS(m: Monitor, c: int, screen: Screen)
    requires Valid(m) && m.mode == Navigate
    ensures var o := HandleKey(m, Key(c), screen);
            o.monitor.mode == SignalEntry <==> m.browsing && (IsChar(c, 's') || IsChar(c, 'S'))
    ensures var o := HandleKey(m, Key(c), screen);
            o.monitor.mode == SignalEntry ==> o.monitor.buffer == ""
  {
    ValidStateNeverFails(m, Key(c), screen);
    if c == -1 {
    } else if IsChar(c, 's') || IsChar(c, 'S') {
      assert !(IsChar(c, 'q') || IsChar(c, 'Q') || IsChar(c, '?') || IsChar(c, 'o') || IsChar(c, 'O'));
    } else {
      assert HandleKey(m, Key(c), screen) == NavigateKey(m, c);
    }
  }

  /** Left and right arrows between tabs undo each other in the session view. */
  lemma TabKeysUndo(m: Monitor, screen: Screen)
    requires Valid(m) && m.mode == Navigate && |m.windows| > 0
    ensures var o := HandleKey(m, Key(KeyRight), screen);
            o.Step? && HandleKey(o.monitor, Key(KeyLeft), screen) == Step(m, NoEffect)
  {
    TabMovesUndo(m.tab, |m.windows|);
  }

  /**
   * In the overview, with the selected session inside the list, j and k keep
   * it inside and undo each other, wrapping at either end.
   */
  lemma SessionKeysUndo(m: Monitor, screen: Screen)
    requires Valid(m) && m.mode == Navigate && m.overview && m.sessionIndex < |m.sessions|
    ensures var d := HandleKey(m, Key('j' as int), screen);
            d.Step? && d.monitor.sessionIndex < |m.sessions| && d.monitor.browseSessions
            && HandleKey(d.monitor, Key('k' as int), screen) == Step(m.(browseSessions := true), NoEffect)
    ensures var u := HandleKey(m, Key('k' as int), screen);
            u.Step? && u.monitor.sessionIndex < |m.sessions| && u.monitor.browseSessions
            && HandleKey(u.monitor, Key('j' as int), screen) == Step(m.(browseSessions := true), NoEffect)
  {
  }

  /**
   * In the session view, while browsing a window's rows with the selection
   * inside them, j and k keep it inside and undo each other.
   */
  lemma RowKeysUndo(m: Monitor, screen: Screen)
    requires Valid(m) && m.mode == Navigate && !m.overview && m.browsing
    requires |m.windows| > 0 && m.selected < |m.windows[m.tab].processes|
    ensures var d := HandleKey(m, Key(KeyDown), screen);
            d.Step? && d.monitor.selected < |m.windows[m.tab].processes|
            && HandleKey(d.monitor, Key(KeyUp), screen) == Step(m, NoEffect)
    ensures var u := HandleKey(m, Key(KeyUp), screen);
            u.Step? && u.monitor.selected < |m.windows[m.tab].processes|
            && HandleKey(u.monitor, Key(KeyDown), screen) == Step(m, NoEffect)
  {
  }

  // ---------------------------------------------------------------------
  // What each navigation key does
  // ---------------------------------------------------------------------

  /** q, Q and Ctrl+C stop the program and change nothing else; no other key stops it. */
  lemma QuitKeys(m: Monitor, c: int, screen: Screen)
    requires m.mode == Navigate
    ensures IsChar(c, 'q') || IsChar(c, 'Q') || c == CtrlC ==>
              HandleKey(m, Key(c), screen) == Step(m.(running := false), NoEffect)
    ensures var o := HandleKey(m, Key(c), screen);
            m.running && o.Step? && !o.monitor.running ==> IsChar(c, 'q') || IsChar(c, 'Q') || c == CtrlC
  {
    if c != -1 {
      assert HandleKey(m, Key(c), screen) == NavigateKey(m, c);
    }
  }

  /** ? asks for the help screen and changes nothing. */
  lemma HelpKey(m: Monitor, screen: Screen)
    requires m.mode == Navigate
    ensures HandleKey(m, Key('?' as int), screen) == Step(m, ShowHelp)
  {
  }

  /** Left, h and H go one tab to the left, Right, l and L one to the right, wrapping; nothing else changes. */
  lemma TabKeys(m: Monitor, c: int, screen: Screen)
    requires m.mode == Navigate
    ensures c == KeyLeft || IsChar(c, 'h') || IsChar(c, 'H') ==>
              HandleKey(m, Key(c), screen) == Step(m.(tab := PrevTab(m.tab, |m.windows|)), NoEffect)
    ensures c == KeyRight || IsChar(c, 'l') || IsChar(c, 'L') ==>
              HandleKey(m, Key(c), screen) == Step(m.(tab := NextTab(m.tab, |m.windows|)), NoEffect)
  {
  }

  /**
   * o, O and Escape (alone, or as an Alt with nothing after it) switch to
   * the session overview and ask for the sessions; in the overview they do
   * nothing.
   */
  lemma OverviewKeys(m: Monitor, c: int, screen: Screen)
    requires m.mode == Navigate && (IsChar(c, 'o') || IsChar(c, 'O') || c == Escape)
    ensures !m.overview ==>
              HandleKey(m, Key(c), screen) == Step(m.(overview := true, browseSessions := false), CollectOverview)
    ensures m.overview ==> HandleKey(m, Key(c), screen) == Step(m, NoEffect)
    ensures HandleKey(m, Alt(-1), screen) == HandleKey(m, Key(Escape), screen)
  {
  }

  /**
   * j / Down: in the overview, starts browsing sessions and moves one down,
   * wrapping to the top; in the session view, starts browsing rows and moves
   * one down, wrapping to the top, when the tab has rows.
   */
  lemma DownKey(m: Monitor, c: int, screen: Screen)
    requires m.mode == Navigate && (IsChar(c, 'j') || c == KeyDown)
    ensures var o := HandleKey(m, Key(c), screen);
            m.overview ==>
              && o.Step? && o.effect == NoEffect
              && o.monitor == m.(browseSessions := true, sessionIndex := o.monitor.sessionIndex)
              && (|m.sessions| == 0 ==> o.monitor.sessionIndex == m.sessionIndex)
              && (m.sessionIndex + 1 < |m.sessions| ==> o.monitor.sessionIndex == m.sessionIndex + 1)
              && (|m.sessions| > 0 && m.sessionIndex + 1 >= |m.sessions| ==> o.monitor.sessionIndex == 0)
    ensures var o := HandleKey(m, Key(c), screen);
            !m.overview && m.tab < |m.windows| && |m.windows[m.tab].processes| > 0 ==>
              && o.Step? && o.effect == NoEffect
              && o.monitor == m.(browsing := true, selected := o.monitor.selected)
              && (m.selected + 1 < |m.windows[m.tab].processes| ==> o.monitor.selected == m.selected + 1)
              && (m.selected + 1 >= |m.windows[m.tab].processes| ==> o.monitor.selected == 0)
    ensures !m.overview && (|m.windows| == 0 || (m.tab < |m.windows| && |m.windows[m.tab].processes| == 0)) ==>
              HandleKey(m, Key(c), screen) == Step(m, NoEffect)
    ensures !m.overview && |m.windows| > 0 && m.tab >= |m.windows| ==> HandleKey(m, Key(c), screen) == IndexError
  {
  }

  /**
   * k / Up: in the overview, starts browsing sessions and moves one up,
   * wrapping to the bottom; while browsing rows, moves one row up, wrapping
   * to the bottom; otherwise nothing.
   */
  lemma UpKey(m: Monitor, c: int, screen: Screen)
    requires m.mode == Navigate && (IsChar(c, 'k') || c == KeyUp)
    ensures var o := HandleKey(m, Key(c), screen);
            m.overview ==>
              && o.Step? && o.effect == NoEffect
              && o.monitor == m.(browseSessions := true, sessionIndex := o.monitor.sessionIndex)
              && (m.sessionIndex > 0 ==> o.monitor.sessionIndex == m.sessionIndex - 1)
              && (m.sessionIndex == 0 && |m.sessions| > 0 ==> o.monitor.sessionIndex == |m.sessions| - 1)
              && (m.sessionIndex == 0 && |m.sessions| == 0 ==> o.monitor.sessionIndex == 0)
    ensures var o := HandleKey(m, Key(c), screen);
            !m.overview && m.browsing && m.tab < |m.windows| && |m.windows[m.tab].processes| > 0 ==>
              && o.Step? && o.effect == NoEffect
              && o.monitor == m.(selected := o.monitor.selected)
              && (m.selected > 0 ==> o.monitor.selected == m.selected - 1)
              && (m.selected == 0 ==> o.monitor.selected == |m.windows[m.tab].processes| - 1)
    ensures !m.overview && (!m.browsing || |m.windows| == 0 || (m.tab < |m.windows| && |m.windows[m.tab].processes| == 0)) ==>
              HandleKey(m, Key(c), screen) == Step(m, NoEffect)
    ensures !m.overview && m.browsing && |m.windows| > 0 && m.tab >= |m.windows| ==> HandleKey(m, Key(c), screen) == IndexError
  {
  }

  /** y copies the selected process's command and Y its pid, while browsing rows; nothing changes otherwise. */
  lemma CopyKeys(m: Monitor, screen: Screen)
    requires m.mode == Navigate
    ensures m.browsing && SelectedProcess(m).Process? ==>
              && HandleKey(m, Key('y' as int), screen) == Step(m, Copy(SelectedProcess(m).node.command))
              && HandleKey(m, Key('Y' as int), screen) == Step(m, Copy(ShowInt(SelectedProcess(m).node.pid)))
    ensures !m.browsing || SelectedProcess(m) == NoProcess ==>
              && HandleKey(m, Key('y' as int), screen) == Step(m, NoEffect)
              && HandleKey(m, Key('Y' as int), screen) == Step(m, NoEffect)
  {
  }

  /**
   * Enter, while browsing the overview's sessions on one inside the list,
   * leaves the overview for that session at its first tab and asks for its
   * windows; otherwise it does nothing.
   */
  lemma EnterKey(m: Monitor, c: int, screen: Screen)
    requires m.mode == Navigate && IsEnter(c)
    ensures m.overview && m.browseSessions && m.sessionIndex < |m.sessions| ==>
              var name := m.sessions[m.sessionIndex].name;
              HandleKey(m, Key(c), screen)
                == Step(m.(overview := false, browseSessions := false, sessionName := name, tab := 0), SwitchSession(name))
    ensures !(m.overview && m.browseSessions && m.sessionIndex < |m.sessions|) ==>
              HandleKey(m, Key(c), screen) == Step(m, NoEffect)
  {
  }

  /**
   * x / X: SIGTERM to the selected process while browsing rows; otherwise,
   * in the overview, one session up or to the last session, and in the
   * session view, one tab to the left.
   */
  lemma TerminateKey(m: Monitor, c: int, screen: Screen)
    requires m.mode == Navigate && (IsChar(c, 'x') || IsChar(c, 'X'))
    ensures m.browsing && SelectedProcess(m).Process? ==>
              HandleKey(m, Key(c), screen) == Step(m, SendSignal(SelectedProcess(m).node.pid, 15))
    ensures m.browsing && SelectedProcess(m) == NoProcess ==> HandleKey(m, Key(c), screen) == Step(m, NoEffect)
    ensures m.browsing && SelectedProcess(m) == TabOutOfRange ==> HandleKey(m, Key(c), screen) == IndexError
    ensures !m.browsing && m.overview && m.browseSessions && 0 < m.sessionIndex && |m.sessions| > 0 ==>
              HandleKey(m, Key(c), screen) == Step(m.(sessionIndex := m.sessionIndex - 1), NoEffect)
    ensures !m.browsing && m.overview && !(m.browseSessions && 0 < m.sessionIndex) && |m.sessions| > 0 ==>
              HandleKey(m, Key(c), screen) == Step(m.(browseSessions := true, sessionIndex := |m.sessions| - 1), NoEffect)
    ensures !m.browsing && m.overview && |m.sessions| == 0 ==>
              HandleKey(m, Key(c), screen) == Step(m.(browseSessions := true), NoEffect)
    ensures !m.browsing && !m.overview ==>
              HandleKey(m, Key(c), screen) == Step(m.(tab := PrevTab(m.tab, |m.windows|)), NoEffect)
  {
  }

  // ---------------------------------------------------------------------
  // Drawing clamps, refresh and one turn of the main loop
  // ---------------------------------------------------------------------

  /**
   * How far drawing a frame got. `Interrupted`: a curses error was raised
   * before the index repairs, by an unguarded write of the tab bar in the
   * session view (tmux_monitor.py:664-673, see `TabBar.TabsRaise`) or of
   * the overview's header (tmux_monitor.py:976-1011); the main loop swallows
   * it (tmux_monitor.py:1590-1591) and the rest of the frame is not drawn.
   * `Drawn(roomy)`: the repairs were reached, and `roomy` says whether the
   * screen had room for the process table (tmux_monitor.py:720-725).
   */
  datatype Frame = Interrupted | Drawn(roomy: bool)

  /**
   * The index repairs drawing makes. A frame interrupted before them repairs
   * nothing. Otherwise, in the session view the tab is clamped, and the row
   * selection too when the process table fits; in the overview the session
   * index is clamped while browsing sessions.
   */
  function Draw(m: Monitor, frame: Frame): (d: Monitor)
    ensures frame == Interrupted ==> d == m
    ensures frame.Drawn? && !m.overview ==> Valid(d) || !AllDigits(m.buffer)
    ensures frame.Drawn? && !m.overview && |m.windows| > 0 ==> d.tab < |d.windows|
    ensures frame == Drawn(true) && !m.overview && |m.windows| > 0 ==>
              |d.windows[d.tab].processes| == 0 || d.selected < |d.windows[d.tab].processes|
    ensures frame.Drawn? && m.overview && m.browseSessions && |m.sessions| > 0 ==> d.sessionIndex < |d.sessions|
    ensures d.windows == m.windows && d.sessions == m.sessions && d.mode == m.mode && d.buffer == m.buffer
    ensures Valid(m) && !m.overview && (frame != Drawn(true) || |m.windows| == 0) ==> d == m
    ensures Valid(m) ==> Valid(d)
  {
    match frame
    case Interrupted => m
    case Drawn(roomy) =>
      if m.overview then
        m.(sessionIndex := DrawSessionInMonitor(m.sessionIndex, m.browseSessions, |m.sessions|) as nat)
      else if |m.windows| == 0 then m
      else
        var t := WrapInto(m.tab, |m.windows|) as nat;
        if roomy then
          var r := DrawRow(m.selected, m.browsing, |m.windows[t].processes|);
          m.(tab := t, selected := r.0 as nat, browsing := r.1)
        else m.(tab := t)
  }

  /** The refresh of the session view as written: new windows, and the tab chosen by `ReconcileAsWritten`. */
  function RefreshAsWritten(m: Monitor, current: seq<Window>, filter: string): (r: Monitor)
    ensures r.windows == current && r == m.(windows := current, tab := r.tab)
    ensures Valid(m) && (|m.windows| > 0 || filter != "" || |current| == 0) ==> Valid(r)
    ensures |m.windows| == 0 && filter == "" ==> r.tab == m.tab
  {
    m.(windows := current, tab := ReconcileAsWritten(m.windows, m.tab, current, filter))
  }

  /** The refresh of the session view with the tab always clamped into the new list. */
  function Refresh(m: Monitor, current: seq<Window>, filter: string): (r: Monitor)
    ensures r.windows == current && r == m.(windows := current, tab := r.tab)
    ensures AllDigits(m.buffer) ==> Valid(r)
  {
    m.(windows := current, tab := Reconcile(m.windows, m.tab, current, filter))
  }

  /**
   * Three windows with the third selected, and no window filter: a turn's
   * refresh finds no windows, the next turn's refresh finds one, and the
   * tab is left at 2. In the third turn, j indexes the window list at 2
   * before drawing could repair the tab, and the program does not survive it.
   */
  lemma StaleTabCrashes(a: Window, b: Window, c: Window, x: Window, screen: Screen, frame: Frame)
    requires |x.processes| > 0
    ensures var m0 := Initial("main", false).(windows := [a, b, c], tab := 2);
            var t1 := Cycle(AsWritten, m0, Key(-1), screen, frame, 1.0, 0.0, 1.0, [], [], "");
            var t2 := Cycle(AsWritten, t1.monitor, Key(-1), screen, frame, 2.0, t1.lastRefresh, 1.0, [x], [], "");
            && Valid(m0) && t1.Turn? && t2.Turn? && t2.monitor.windows == [x] && t2.monitor.tab == 2
            && Cycle(AsWritten, t2.monitor, Key('j' as int), screen, frame, 2.5, t2.lastRefresh, 1.0, [x], [], "") == Crashed
  {
    var m0 := Initial("main", false).(windows := [a, b, c], tab := 2);
    var t1 := Cycle(AsWritten, m0, Key(-1), screen, frame, 1.0, 0.0, 1.0, [], [], "");
    assert t1.monitor.windows == [] && t1.monitor.tab == 2 && t1.lastRefresh == 1.0;
    var t2 := Cycle(AsWritten, t1.monitor, Key(-1), screen, frame, 2.0, t1.lastRefresh, 1.0, [x], [], "");
    assert t2.monitor.windows == [x] && t2.monitor.tab == 2;
    assert HandleKey(t2.monitor, Key('j' as int), screen) == IndexError;
  }

  /** The same two refreshes with the tab clamped leave a state every key can be handled in. */
  lemma ClampedRefreshSurvives(a: Window, b: Window, c: Window, x: Window, e: Event, screen: Screen)
    ensures var m0 := Initial("main", false).(windows := [a, b, c], tab := 2);
            var m2 := Refresh(Refresh(m0, [], ""), [x], "");
            Valid(m2) && m2.tab == 0 && HandleKey(m2, e, screen).Step?
  {
    var m0 := Initial("main", false).(windows := [a, b, c], tab := 2);
    var m2 := Refresh(Refresh(m0, [], ""), [x], "");
    ValidStateNeverFails(m2, e, screen);
  }

  /** Data is collected only outside the prompt, and only once the refresh interval has passed. */
  predicate RefreshDue(m: Monitor, now: real, lastRefresh: real, rate: real)
  {
    m.mode == Navigate && now - lastRefresh >= rate
  }

  /** What one turn of the main loop ends with: the state, the key's effect and the time of the last refresh. */
  datatype Turn = Turn(monitor: Monitor, effect: Effect, lastRefresh: real) | Crashed

  /** How a refresh chooses the tab: as the program does, or clamped into the new list in every case. */
  datatype TabChoice = AsWritten | Clamped

  function RefreshBy(choice: TabChoice, m: Monitor, current: seq<Window>, filter: string): Monitor
  {
    match choice
    case AsWritten => RefreshAsWritten(m, current, filter)
    case Clamped => Refresh(m, current, filter)
  }

  /**
   * One turn of the main loop: the key is handled (opening the overview or
   * another session collects its data at once), the screen is drawn, and
   * the data is collected again when due. `windowsNow` and `sessionsNow` are
   * what collecting would find at this moment; `choice` says whether the
   * refreshes pick the tab as the program does or clamped.
   */
  function Cycle(choice: TabChoice, m: Monitor, e: Event, screen: Screen, frame: Frame,
                 now: real, lastRefresh: real, rate: real,
                 windowsNow: seq<Window>, sessionsNow: seq<Session>, filter: string): (t: Turn)
    ensures t.Crashed? <==> HandleKey(m, e, screen).IndexError?
    ensures t.Turn? ==> t.effect == HandleKey(m, e, screen).effect
    ensures t.Turn? ==> t.lastRefresh == now || t.lastRefresh == lastRefresh
  {
    match HandleKey(m, e, screen)
    case IndexError => Crashed
    case Step(m1, eff) => AfterKey(choice, m1, eff, frame, now, lastRefresh, rate, windowsNow, sessionsNow, filter)
  }

  /** The rest of a turn once the key is handled: the effect's collection, the draw, and the refresh when due. */
  function AfterKey(choice: TabChoice, m1: Monitor, eff: Effect, frame: Frame,
                    now: real, lastRefresh: real, rate: real,
                    windowsNow: seq<Window>, sessionsNow: seq<Session>, filter: string): (t: Turn)
    ensures t.Turn? && t.effect == eff && (t.lastRefresh == now || t.lastRefresh == lastRefresh)
    ensures choice == Clamped && Valid(m1) ==> Valid(t.monitor)
    ensures Valid(m1) && (|m1.windows| > 0 || filter != "") ==> Valid(t.monitor)
  {
    var m2 := if eff.CollectOverview? then m1.(sessions := sessionsNow)
              else if eff.SwitchSession? then RefreshBy(choice, m1, windowsNow, filter)
              else m1;
    var m3 := Draw(m2, frame);
    if RefreshDue(m3, now, lastRefresh, rate) then
      Turn(if m3.overview then m3.(sessions := sessionsNow) else RefreshBy(choice, m3, windowsNow, filter), eff, now)
    else Turn(m3, eff, lastRefresh)
  }

  /** With the tab clamped at every refresh, a turn from a valid state never crashes and ends in a valid state. */
  lemma CycleKeepsValid(m: Monitor, e: Event, screen: Screen, frame: Frame,
                        now: real, lastRefresh: real, rate: real,
                        windowsNow: seq<Window>, sessionsNow: seq<Session>, filter: string)
    requires Valid(m)
    ensures var t := Cycle(Clamped, m, e, screen, frame, now, lastRefresh, rate, windowsNow, sessionsNow, filter);
            t.Turn? && Valid(t.monitor)
  {
    ValidStateNeverFails(m, e, screen);
  }

  /**
   * As written, a turn from a valid state never crashes, and it ends in a
   * valid state whenever the window list it starts from is non-empty or a
   * window filter is set.
   */
  lemma AsWrittenTurnKeepsValid(m: Monitor, e: Event, screen: Screen, frame: Frame,
                                now: real, lastRefresh: real, rate: real,
                                windowsNow: seq<Window>, sessionsNow: seq<Session>, filter: string)
    requires Valid(m)
    ensures Cycle(AsWritten, m, e, screen, frame, now, lastRefresh, rate, windowsNow, sessionsNow, filter).Turn?
    ensures |m.windows| > 0 || filter != "" ==>
              Valid(Cycle(AsWritten, m, e, screen, frame, now, lastRefresh, rate, windowsNow, sessionsNow, filter).monitor)
  {
    ValidStateNeverFails(m, e, screen);
  }

  /**
   * While the prompt stays open, a turn neither replaces the window list nor
   * the session list, and the time of the last refresh stands still, however
   * long ago it was.
   */
  lemma PromptHoldsRefresh(choice: TabChoice, m: Monitor, c: int, screen: Screen, frame: Frame,
                           now: real, lastRefresh: real, rate: real,
                           windowsNow: seq<Window>, sessionsNow: seq<Session>, filter: string)
    requires Valid(m) && m.mode == SignalEntry && c != -1 && !IsEnter(c) && c != Escape
    ensures var t := Cycle(choice, m, Key(c), screen, frame, now, lastRefresh, rate, windowsNow, sessionsNow, filter);
            t.Turn? && t.monitor.windows == m.windows && t.monitor.sessions == m.sessions
            && t.lastRefresh == lastRefresh && t.monitor.mode == SignalEntry
  {
    PromptKeys(m, c, screen);
  }

  /** Outside the prompt, a turn whose interval has passed collects the session view's windows and records the time. */
  lemma DueTurnRefreshes(choice: TabChoice, m: Monitor, screen: Screen, frame: Frame,
                         now: real, lastRefresh: real, rate: real,
                         windowsNow: seq<Window>, sessionsNow: seq<Session>, filter: string)
    requires Valid(m) && m.mode == Navigate && !m.overview && now - lastRefresh >= rate
    ensures var t := Cycle(choice, m, Key(-1), screen, frame, now, lastRefresh, rate, windowsNow, sessionsNow, filter);
            t.Turn? && t.lastRefresh == now && t.monitor.windows == windowsNow
  {
  }
}

=== FILE: overview.dfy ===
/**
 * The stand-alone overview program: a list of tmux sessions to browse with
 * j/k, Enter to open the monitor on the selected session, and the index
 * clamp and scrolling applied while drawing.
 */
module Overview {
  import opened Base
  import opened Aggregate
  import opened Selection

  /** The overview program's state. */
  datatype Browser = Browser(sessions: seq<Session>, browsing: bool, selected: nat, running: bool)

  /** What a key leads to beyond the state: replacing this program with the monitor for a session. */
  datatype Launch = Stay | OpenMonitor(session: string)

  /** q, Q, Ctrl+C and Escape end the program. */
  predicate IsStopKey(c: int) {
    c == 'q' as int || c == 'Q' as int || c == 3 || c == 27
  }

  /** One key; -1 is the poll that found none. */
  function OverviewKey(b: Browser, c: int): (r: (Browser, Launch))
    ensures r.1.OpenMonitor? ==> b.selected < |b.sessions| && r.1.session == b.sessions[b.selected].name && !r.0.running
    ensures r.0.sessions == b.sessions
    ensures b.selected < |b.sessions| ==> r.0.selected < |b.sessions|
    ensures IsStopKey(c) ==> r == (b.(running := false), Stay)
    ensures b.running && !r.0.running ==> IsStopKey(c) || r.1.OpenMonitor?
  {
    var n := |b.sessions|;
    if c == -1 then (b, Stay)
    else if c == 'q' as int || c == 'Q' as int || c == 3 then (b.(running := false), Stay)
    else if c == 'j' as int || c == 258 then
      (b.(browsing := true, selected := if b.selected < n - 1 then b.selected + 1 else 0), Stay)
    else if c == 'k' as int || c == 259 then
      (b.(browsing := true, selected := if b.selected > 0 then b.selected - 1 else if n > 0 then n - 1 else b.selected), Stay)
    else if c == 10 || c == 13 then
      if n > 0 && b.selected < n then (b.(running := false), OpenMonitor(b.sessions[b.selected].name))
      else (b, Stay)
    else if c == 27 then (b.(running := false), Stay)
    else (b, Stay)
  }

  /** j moves down and wraps to the top; with no sessions it resets the index to 0. */
  lemma DownWraps(b: Browser)
    ensures var n := |b.sessions|;
            var r := OverviewKey(b, 'j' as int).0;
            r.browsing
            && (b.selected + 1 < n ==> r.selected == b.selected + 1)
            && (b.selected + 1 >= n ==> r.selected == 0)
  {
  }

  /** k moves up and wraps to the bottom; with no sessions an index of 0 stays. */
  lemma UpWraps(b: Browser)
    ensures var n := |b.sessions|;
            var r := OverviewKey(b, 'k' as int).0;
            r.browsing
            && (b.selected > 0 ==> r.selected == b.selected - 1)
            && (b.selected == 0 && n > 0 ==> r.selected == n - 1)
            && (b.selected == 0 && n == 0 ==> r.selected == 0)
  {
  }

  /** Inside a non-empty list, j and k undo each other. */
  lemma DownUpUndo(b: Browser)
    requires b.selected < |b.sessions|
    ensures OverviewKey(OverviewKey(b, 'j' as int).0, 'k' as int).0 == b.(browsing := true)
    ensures OverviewKey(OverviewKey(b, 'k' as int).0, 'j' as int).0 == b.(browsing := true)
  {
  }

  /** Only Enter on a session in the list launches the monitor, and it launches it for that session. */
  lemma EnterOpensSelected(b: Browser, c: int)
    ensures OverviewKey(b, c).1.OpenMonitor? <==> (c == 10 || c == 13) && b.selected < |b.sessions|
  {
  }

  /**
   * Drawing: with sessions to show, the index is clamped into the list, and
   * rows from `FirstShown` on are drawn.
   */
  function DrawOverview(b: Browser, avail: int): (r: (Browser, int))
    ensures r.0 == b.(selected := r.0.selected)
    ensures |b.sessions| > 0 ==> r.0.selected < |b.sessions|
    ensures b.selected < |b.sessions| ==> r.0.selected == b.selected
    ensures |b.sessions| > 0 && b.selected >= |b.sessions| ==> r.0.selected == 0
    ensures avail > 0 && r.0.browsing && |b.sessions| > 0 ==> r.1 <= r.0.selected < r.1 + avail
  {
    if |b.sessions| == 0 then (b, 0)
    else
      var s := WrapInto(b.selected, |b.sessions|) as nat;
      SelectedRowShown(s, if avail > 0 then avail else 1);
      (b.(selected := s), FirstShown(s, avail, b.browsing))
  }

  /** A new session list replaces the old one when the refresh interval has passed; the index is left for drawing to repair. */
  function OverviewRefresh(b: Browser, now: real, lastRefresh: real, rate: real, sessionsNow: seq<Session>): (r: (Browser, real))
    ensures now - lastRefresh >= rate ==> r == (b.(sessions := sessionsNow), now)
    ensures now - lastRefresh < rate ==> r == (b, lastRefresh)
    ensures r.0 == b.(sessions := r.0.sessions)
    ensures lastRefresh <= now ==> lastRefresh <= r.1 <= now
  {
    if now - lastRefresh >= rate then (b.(sessions := sessionsNow), now) else (b, lastRefresh)
  }

  /** Redraw every 0.05 s within two seconds of a refresh, every 0.1 s after that. */
  function RedrawInterval(now: real, lastRefresh: real): (r: real)
    ensures r == 0.05 || r == 0.1
    ensures now - lastRefresh < 2.0 <==> r == 0.05
  {
    if now - lastRefresh < 2.0 then 0.05 else 0.1
  }

  /**
   * How an attempt to draw ends. The header's writes are unguarded, so on a
   * terminal too small for them curses raises before the index is clamped
   * (`RaisedBeforeClamp`); a later write can raise after the clamp
   * (`RaisedAfterClamp`). The loop catches either and does not record the
   * time of the drawing.
   */
  datatype DrawOutcome = RaisedBeforeClamp | RaisedAfterClamp | Completed

  /**
   * The result of one turn: the state, the launch request, the time of the
   * last refresh, whether the turn tried to draw, and the time of the last
   * drawing that completed.
   */
  datatype OverviewStep = OverviewStep(browser: Browser, launch: Launch, lastRefresh: real, attempted: bool, lastDraw: real)

  /**
   * One turn of the overview's main loop: the key, then the refresh when
   * due, then an attempt to draw when the redraw interval has passed since
   * the last completed drawing; `outcome` says how that attempt ends. Unlike
   * the monitor, nothing holds the refresh back. A drawing that reaches the
   * clamp leaves the selected index inside any non-empty list; only one that
   * completes moves the time of the last drawing.
   */
  function OverviewTurn(b: Browser, c: int, avail: int, outcome: DrawOutcome,
                        now: real, lastRefresh: real, lastDraw: real, rate: real,
                        sessionsNow: seq<Session>): (r: OverviewStep)
    ensures now - lastRefresh >= rate ==> r.browser.sessions == sessionsNow && r.lastRefresh == now
    ensures now - lastRefresh < rate ==> r.browser.sessions == OverviewKey(b, c).0.sessions && r.lastRefresh == lastRefresh
    ensures r.launch == OverviewKey(b, c).1
    ensures r.attempted <==> now - lastDraw >= RedrawInterval(now, r.lastRefresh)
    ensures r.attempted && outcome != RaisedBeforeClamp ==>
              |r.browser.sessions| == 0 || r.browser.selected < |r.browser.sessions|
    ensures !r.attempted || outcome == RaisedBeforeClamp ==> r.browser.selected == OverviewKey(b, c).0.selected
    ensures r.attempted && outcome == Completed ==> r.lastDraw == now
    ensures !(r.attempted && outcome == Completed) ==> r.lastDraw == lastDraw
  {
    var (b1, launch) := OverviewKey(b, c);
    var (b2, last) := OverviewRefresh(b1, now, lastRefresh, rate, sessionsNow);
    if now - lastDraw >= RedrawInterval(now, last) then
      var b3 := if outcome == RaisedBeforeClamp then b2 else DrawOverview(b2, avail).0;
      OverviewStep(b3, launch, last, true, if outcome == Completed then now else lastDraw)
    else
      OverviewStep(b2, launch, last, false, lastDraw)
  }

  /**
   * However the turns fall, the screen is redrawn once a tenth of a second
   * has passed since the last drawing, and never sooner than a twentieth.
   * Right after a refresh it is redrawn every twentieth of a second.
   */
  lemma RedrawCadence(b: Browser, c: int, avail: int, outcome: DrawOutcome,
                      now: real, lastRefresh: real, lastDraw: real, rate: real, sessionsNow: seq<Session>)
    ensures var r := OverviewTurn(b, c, avail, outcome, now, lastRefresh, lastDraw, rate, sessionsNow);
            && (now - lastDraw >= 0.1 ==> r.attempted)
            && (now - lastDraw < 0.05 ==> !r.attempted)
            && (now - lastRefresh >= rate && now - lastDraw >= 0.05 ==> r.attempted)
  {
  }

  /**
   * On a terminal too small for the header, a refresh that drops the selected
   * session leaves the index past the end, the drawing is retried on the next
   * turn, and Enter then launches nothing.
   */
  lemma CrampedOverviewKeepsStaleIndex(s0: Session, s1: Session, s2: Session)
    ensures var b := Browser([s0, s1, s2], true, 2, true);
            var r := OverviewTurn(b, -1, 10, RaisedBeforeClamp, 5.0, 0.0, 4.0, 1.0, [s0, s1]);
            && r.attempted && r.lastDraw == 4.0 && r.browser.selected == 2 == |r.browser.sessions|
            && OverviewTurn(r.browser, -1, 10, RaisedBeforeClamp, 5.1, r.lastRefresh, r.lastDraw, 1.0, [s0, s1]).attempted
            && OverviewKey(r.browser, 10).1 == Stay
  {
  }

  /**
   * Two sessions, the second selected, and a refresh that drops it: the
   * overview program selects the first session, where the monitor's
   * overview selects the last remaining one.
   */
  lemma ShrinkingListClampsDiffer(s0: Session, s1: Session, s2: Session)
    ensures var b := Browser([s0, s1, s2], true, 2, true);
            var r := OverviewTurn(b, -1, 10, Completed, 5.0, 0.0, 0.0, 1.0, [s0, s1]);
            r.browser.selected == 0 && DrawSessionInMonitor(2, true, 2) == 1
  {
  }
}

=== FILE: pane_cache.dfy ===
/**
 * The short-lived cache of pane process ids per window
 * (`_get_cached_pane_pids`). The clock reading and the answer tmux would give
 * right now are parameters; `queried` records whether that answer was used.
 */
module PaneCache {
  import opened Text
  import opened ProcessTable

  /** Seconds an entry stays fresh. */
  const Ttl: real := 0.5

  datatype Entry = Entry(time: real, pids: seq<Pid>)

  type Cache = map<string, Entry>

  /** The cache key `session:window`. */
  function Key(session: string, window: int): string
  {
    session + ":" + ShowInt(window)
  }

  /** Different windows of a session (whose name has no `:`) never share a key. */
  lemma KeyInjective(s1: string, w1: int, s2: string, w2: int)
    requires ':' !in s1 && ':' !in s2
    requires Key(s1, w1) == Key(s2, w2)
    ensures s1 == s2 && w1 == w2
  {
    var k := Key(s1, w1);
    var t1, t2 := ShowInt(w1), ShowInt(w2);
    assert k == s1 + (":" + t1) == s2 + (":" + t2);
    NoSepBefore(s1, ":" + t1, ':');
    NoSepBefore(s2, ":" + t2, ':');
    assert |s1| == |s2|;
    assert s1 == k[..|s1|] == s2;
    assert t1 == k[|s1| + 1..] == t2;
    ShowIntInjective(w1, w2);
  }

  /** The pids returned, the cache afterwards, and whether tmux was asked. */
  datatype Lookup = Lookup(pids: seq<Pid>, cache: Cache, queried: bool)

  /** A stored entry younger than `Ttl` answers the lookup. */
  predicate Fresh(cache: Cache, key: string, now: real) {
    key in cache && now - cache[key].time < Ttl
  }

  /**
   * Looking up window `window` of `session` at time `now`, where `answer` is
   * what asking tmux would return: a fresh entry is returned without asking;
   * otherwise the answer is returned and stored with the current time under
   * the window's key, and no other key changes.
   */
  function CachedPanePids(cache: Cache, session: string, window: int, now: real, answer: seq<Pid>): (r: Lookup)
    ensures r.queried <==> !Fresh(cache, Key(session, window), now)
    ensures !r.queried ==> r.cache == cache && r.pids == cache[Key(session, window)].pids
    ensures r.queried ==> r.pids == answer
    ensures r.queried ==> r.cache.Keys == cache.Keys + {Key(session, window)}
                          && r.cache[Key(session, window)] == Entry(now, answer)
    ensures forall k :: k in cache && k != Key(session, window) ==> k in r.cache && r.cache[k] == cache[k]
  {
    var key := Key(session, window);
    if key in cache && now - cache[key].time < Ttl then
      Lookup(cache[key].pids, cache, false)
    else
      Lookup(answer, cache[key := Entry(now, answer)], true)
  }

  /**
   * Two lookups of the same window less than `Ttl` apart, the first of which
   * finds no fresh entry, ask tmux exactly once: the second is answered from
   * the cache with what the first returned.
   */
  lemma SecondLookupWithinTtlIsCached(cache: Cache, session: string, window: int,
                                      t1: real, a1: seq<Pid>, t2: real, a2: seq<Pid>)
    requires !Fresh(cache, Key(session, window), t1)
    requires t1 <= t2 < t1 + Ttl
    ensures var first := CachedPanePids(cache, session, window, t1, a1);
            var second := CachedPanePids(first.cache, session, window, t2, a2);
            first.queried && !second.queried && second.pids == a1 && second.cache == first.cache
  {
  }

  /** A lookup at least `Ttl` after the entry was stored asks tmux again and returns the new answer. */
  lemma LookupAfterTtlQueries(cache: Cache, session: string, window: int,
                              t1: real, a1: seq<Pid>, t2: real, a2: seq<Pid>)
    requires t2 >= t1 + Ttl
    requires !Fresh(cache, Key(session, window), t1)
    ensures var first := CachedPanePids(cache, session, window, t1, a1);
            var second := CachedPanePids(first.cache, session, window, t2, a2);
            first.queried && second.queried && second.pids == a2
  {
  }

  /** Looking up one window leaves the cached entry of another window of the session alone. */
  lemma WindowsCachedSeparately(cache: Cache, session: string, w1: int, w2: int, now: real, answer: seq<Pid>)
    requires w1 != w2
    requires Key(session, w2) in cache
    ensures var r := CachedPanePids(cache, session, w1, now, answer);
            Key(session, w2) in r.cache && r.cache[Key(session, w2)] == cache[Key(session, w2)]
  {
    if Key(session, w1) == Key(session, w2) {
      KeyWindowInjective(session, w1, w2);
    }
  }

  /** Within one session, different windows never share a key, whatever the session's name. */
  lemma KeyWindowInjective(session: string, w1: int, w2: int)
    requires Key(session, w1) == Key(session, w2)
    ensures w1 == w2
  {
    assert Key(session, w1)[|session| + 1..] == ShowInt(w1);
    assert Key(session, w2)[|session| + 1..] == ShowInt(w2);
    ShowIntInjective(w1, w2);
  }

  /**
   * Lookups made at the same moment do not change each other's answers:
   * after looking up `w0`, looking up `w` returns what it would have
   * returned first, provided a window asked about twice gets the same answer
   * from tmux both times.
   */
  lemma LookupKeepsAnswers(cache: Cache, session: string, w0: int, now: real, a0: seq<Pid>, w: int, a: seq<Pid>)
    requires w == w0 ==> a == a0
    ensures CachedPanePids(CachedPanePids(cache, session, w0, now, a0).cache, session, w, now, a).pids
            == CachedPanePids(cache, session, w, now, a).pids
  {
    if Key(session, w) == Key(session, w0) {
      KeyWindowInjective(session, w, w0);
    }
  }

  /**
   * The lookups of one refresh, one window after the other, each in the
   * cache the previous one left. Each answer is what a lookup in the
   * starting cache would give.
   */
  function LookupAll(cache: Cache, session: string, now: real, windows: seq<int>, answer: int -> seq<Pid>): (r: (seq<seq<Pid>>, Cache))
    ensures |r.0| == |windows|
    ensures forall i :: 0 <= i < |windows| ==>
              r.0[i] == CachedPanePids(cache, session, windows[i], now, answer(windows[i])).pids
    decreases |windows|
  {
    if |windows| == 0 then ([], cache)
    else
      var hit := CachedPanePids(cache, session, windows[0], now, answer(windows[0]));
      var rest := LookupAll(hit.cache, session, now, windows[1..], answer);
      forall j | 0 <= j < |windows| - 1
        ensures rest.0[j] == CachedPanePids(cache, session, windows[j + 1], now, answer(windows[j + 1])).pids
      {
        assert windows[1..][j] == windows[j + 1];
        LookupKeepsAnswers(cache, session, windows[0], now, answer(windows[0]), windows[j + 1], answer(windows[j + 1]));
      }
      ([hit.pids] + rest.0, rest.1)
  }

  /** After the lookups of one refresh, every window looked up has a fresh entry holding the answer it got. */
  lemma {:induction false} LookupAllFresh(cache: Cache, session: string, now: real, windows: seq<int>, answer: int -> seq<Pid>)
    ensures var r := LookupAll(cache, session, now, windows, answer);
            forall i :: 0 <= i < |windows| ==>
              Fresh(r.1, Key(session, windows[i]), now) && r.1[Key(session, windows[i])].pids == r.0[i]
    decreases |windows|, 1
  {
    if |windows| > 0 {
      var hit := CachedPanePids(cache, session, windows[0], now, answer(windows[0]));
      var tail := windows[1..];
      var rest := LookupAll(hit.cache, session, now, tail, answer);
      var r := LookupAll(cache, session, now, windows, answer);
      assert r.0 == [hit.pids] + rest.0 && r.1 == rest.1;
      LookupAllFresh(hit.cache, session, now, tail, answer);
      FirstStaysFresh(hit, cache, session, now, windows[0], answer(windows[0]), tail, answer);
      forall i | 0 < i < |windows|
        ensures Fresh(r.1, Key(session, windows[i]), now) && r.1[Key(session, windows[i])].pids == r.0[i]
      {
        assert windows[i] == tail[i - 1];
      }
    }
  }

  /** The entry a lookup leaves stays fresh, with the same answer, through the later lookups of the same refresh. */
  lemma {:induction false} FirstStaysFresh(hit: Lookup, cache: Cache, session: string, now: real, w: int, a: seq<Pid>,
                        tail: seq<int>, answer: int -> seq<Pid>)
    requires hit == CachedPanePids(cache, session, w, now, a) && a == answer(w)
    ensures var rest := LookupAll(hit.cache, session, now, tail, answer);
            Fresh(rest.1, Key(session, w), now) && rest.1[Key(session, w)].pids == hit.pids
    decreases |tail| + 1, 0
  {
    var key := Key(session, w);
    var rest := LookupAll(hit.cache, session, now, tail, answer);
    assert Fresh(hit.cache, key, now) && hit.cache[key].pids == hit.pids;
    if j :| 0 <= j < |tail| && Key(session, tail[j]) == key {
      KeyWindowInjective(session, tail[j], w);
      LookupAllFresh(hit.cache, session, now, tail, answer);
      assert rest.0[j] == CachedPanePids(hit.cache, session, w, now, answer(w)).pids;
    } else {
      LookupAllKeepsOthers(hit.cache, session, now, tail, answer);
    }
  }

  /** The lookups of one refresh leave the entry of every window not looked up as it was. */
  lemma {:induction false} LookupAllKeepsOthers(cache: Cache, session: string, now: real, windows: seq<int>, answer: int -> seq<Pid>)
    ensures var r := LookupAll(cache, session, now, windows, answer);
            forall k :: k in cache && (forall i :: 0 <= i < |windows| ==> k != Key(session, windows[i])) ==>
              k in r.1 && r.1[k] == cache[k]
    decreases |windows|
  {
    if |windows| > 0 {
      var hit := CachedPanePids(cache, session, windows[0], now, answer(windows[0]));
      var tail := windows[1..];
      LookupAllKeepsOthers(hit.cache, session, now, tail, answer);
      forall k | k in cache && (forall i :: 0 <= i < |windows| ==> k != Key(session, windows[i]))
        ensures forall j :: 0 <= j < |tail| ==> k != Key(session, tail[j])
      {
        forall j | 0 <= j < |tail| ensures k != Key(session, tail[j]) {
          assert tail[j] == windows[j + 1];
        }
      }
    }
  }
}

=== FILE: process_table.dfy ===
/**
 * The process table as the monitor sees it through its process-introspection
 * library, frozen at one instant: every query the monitor makes about a
 * process during one refresh is answered from this snapshot.
 */
module ProcessTable {
  import opened Base

  type Pid = int

  /** Cumulative CPU seconds spent in user and kernel mode. */
  datatype CpuTimes = CpuTimes(user: real, system: real)

  /**
   * A readable process: its command line (possibly empty), short name,
   * resident set size in bytes, cumulative CPU times and its direct children
   * in the order the library lists them. A child listed here may be absent
   * from the table: it vanished after its parent was enumerated.
   */
  datatype Proc = Proc(cmdline: seq<string>, name: string, rssBytes: nat, times: CpuTimes, children: seq<Pid>)

  /** A pid that is not a key is gone or not readable (no such process, access denied). */
  datatype Snapshot = Snapshot(procs: map<Pid, Proc>)

  /**
   * The readable processes of the subtree rooted at `pid`, in pre-order, each
   * child's subtree in the order of its parent's child list. Unreadable pids
   * are omitted together with everything below them. `path` holds the pids
   * already on the way down from the root; a pid that would repeat on its own
   * ancestor path is cut there (a real process table has no such cycle).
   */
  function Subtree(snap: Snapshot, pid: Pid, path: set<Pid>): (r: seq<Pid>)
    ensures |r| > 0 <==> pid in snap.procs && pid !in path
    ensures |r| > 0 ==> r[0] == pid
    ensures forall q :: q in r ==> q in snap.procs && q !in path
    decreases snap.procs.Keys - path, 0
  {
    if pid in snap.procs && pid !in path then
      [pid] + SubtreeList(snap, snap.procs[pid].children, path + {pid})
    else
      []
  }

  /** The subtrees of `kids`, one after the other. */
  function SubtreeList(snap: Snapshot, kids: seq<Pid>, path: set<Pid>): (r: seq<Pid>)
    ensures forall q :: q in r ==> q in snap.procs && q !in path
    decreases snap.procs.Keys - path, 1, |kids|
  {
    if |kids| == 0 then []
    else Subtree(snap, kids[0], path) + SubtreeList(snap, kids[1..], path)
  }

  /** Where the walk visits a process: its pid, its depth below the root, and the pid it was reached from. */
  datatype Place = Place(pid: Pid, depth: nat, parent: Option<Pid>)

  /**
   * The walk of `Subtree` with each visit placed in the tree: `pid` at
   * `depth` under `parent`, then the walk of each child in child-list order,
   * one level deeper and under `pid`.
   */
  function Walk(snap: Snapshot, pid: Pid, depth: nat, parent: Option<Pid>, path: set<Pid>): (r: seq<Place>)
    ensures |r| > 0 <==> pid in snap.procs && pid !in path
    ensures |r| > 0 ==> r[0] == Place(pid, depth, parent)
    decreases snap.procs.Keys - path, 0
  {
    if pid in snap.procs && pid !in path then
      [Place(pid, depth, parent)] + WalkList(snap, snap.procs[pid].children, depth + 1, pid, path + {pid})
    else
      []
  }

  /** The placed walks of `kids`, one after the other, each child at `depth` under `parent`. */
  function WalkList(snap: Snapshot, kids: seq<Pid>, depth: nat, parent: Pid, path: set<Pid>): (r: seq<Place>)
    ensures forall i :: 0 <= i < |r| ==> r[i].depth >= depth && r[i].parent.Some?
    decreases snap.procs.Keys - path, 1, |kids|
  {
    if |kids| == 0 then []
    else Walk(snap, kids[0], depth, Some(parent), path) + WalkList(snap, kids[1..], depth, parent, path)
  }

  /** The pane roots' subtrees, as walked from each root with an empty ancestor path. */
  function Tree(snap: Snapshot, root: Pid): seq<Pid>
  {
    Subtree(snap, root, {})
  }

  /** psutil's `children(recursive=True)`: every readable descendant of a readable process. */
  function Descendants(snap: Snapshot, pid: Pid): (r: seq<Pid>)
    requires pid in snap.procs
    ensures forall q :: q in r ==> q in snap.procs && q != pid
  {
    Tree(snap, pid)[1..]
  }

  /** The current cumulative CPU times of a pid, or nothing when it cannot be read. */
  function Probe(snap: Snapshot, pid: Pid): (r: Option<CpuTimes>)
    ensures r.Some? <==> pid in snap.procs
  {
    if pid in snap.procs then Some(snap.procs[pid].times) else None
  }
}

=== FILE: process_tree.dfy ===
/**
 * The per-pane process tree the monitor displays (`get_process_info`) and the
 * subtree totals it reports (`get_all_process_stats`), read from one snapshot
 * of the process table and one CPU baseline table.
 */
module ProcessTree {
  import opened Base
  import opened Text
  import opened ProcessTable
  import opened CpuAccounting

  /** One displayed row of a pane's process tree. */
  datatype Node = Node(pid: Pid, cpu: real, memoryKb: nat, command: string, depth: nat,
                       isLastChild: bool, hasChildren: bool, parent: Option<Pid>)

  /**
   * The command shown for a process: the last path component of argv[0],
   * followed by the remaining arguments separated by single spaces; the
   * process name when the command line is empty.
   */
  function DisplayCommand(p: Proc): (r: string)
    ensures |p.cmdline| == 0 ==> r == p.name
    ensures |p.cmdline| > 0 ==> |Basename(p.cmdline[0])| <= |r| && r[..|Basename(p.cmdline[0])|] == Basename(p.cmdline[0])
  {
    if |p.cmdline| == 0 then p.name
    else
      var exe := Basename(p.cmdline[0]);
      var args := p.cmdline[1..];
      if |args| == 0 then exe else exe + " " + Join(args, ' ')
  }

  /**
   * When no word of the command line contains a space, the displayed command
   * splits at spaces into the executable's base name and the arguments.
   */
  lemma DisplayCommandWords(p: Proc)
    requires |p.cmdline| > 0
    requires forall k :: 0 <= k < |p.cmdline| ==> ' ' !in p.cmdline[k]
    ensures Split(DisplayCommand(p), ' ') == [Basename(p.cmdline[0])] + p.cmdline[1..]
  {
    var exe := Basename(p.cmdline[0]);
    var words := [exe] + p.cmdline[1..];
    assert ' ' !in exe by {
      assert exe == p.cmdline[0][|p.cmdline[0]| - |exe|..];
    }
    if |p.cmdline| == 1 {
      assert words == [exe];
    } else {
      assert words[1..] == p.cmdline[1..];
    }
    assert DisplayCommand(p) == Join(words, ' ');
    SplitJoin(words, ' ');
  }

  /**
   * `pid` is the last entry of its parent's child list. A node without a
   * parent, or whose parent cannot be read or has no children, is not a last child.
   */
  predicate IsLastChild(snap: Snapshot, parent: Option<Pid>, pid: Pid) {
    && parent.Some?
    && parent.value in snap.procs
    && |snap.procs[parent.value].children| > 0
    && snap.procs[parent.value].children[|snap.procs[parent.value].children| - 1] == pid
  }

  /** The CPU percentage the tree reports for a pid: a reading that leaves the baselines alone. */
  function CpuOf(snap: Snapshot, table: Table, now: real, pid: Pid): real
  {
    CpuPercent(table, pid, now, Probe(snap, pid), false).percent
  }

  /**
   * The row `get_process_info` emits for a readable pid at a given depth under
   * a given parent: its CPU reading, resident memory in whole KB, display
   * command, whether it has children, and whether it is its parent's last child.
   */
  function MakeNode(snap: Snapshot, table: Table, now: real, pid: Pid, depth: nat, parent: Option<Pid>): (n: Node)
    requires pid in snap.procs
    ensures n.pid == pid && n.depth == depth && n.parent == parent
  {
    var p := snap.procs[pid];
    Node(pid, CpuOf(snap, table, now, pid), p.rssBytes / 1024, DisplayCommand(p), depth,
         IsLastChild(snap, parent, pid), |p.children| > 0, parent)
  }

  /** `n` is the row the snapshot and baseline table give for its pid, depth and parent. */
  predicate Describes(snap: Snapshot, table: Table, now: real, n: Node) {
    n.pid in snap.procs && n == MakeNode(snap, table, now, n.pid, n.depth, n.parent)
  }

  /** Field by field, a described row reports what the snapshot says about its process. */
  lemma DescribedFields(snap: Snapshot, table: Table, now: real, n: Node)
    requires Describes(snap, table, now, n)
    ensures n.cpu == CpuOf(snap, table, now, n.pid)
    ensures n.memoryKb == snap.procs[n.pid].rssBytes / 1024
    ensures n.command == DisplayCommand(snap.procs[n.pid])
    ensures n.hasChildren <==> |snap.procs[n.pid].children| > 0
    ensures n.isLastChild <==> IsLastChild(snap, n.parent, n.pid)
  {
  }

  /** The pids of a list of rows, in order. */
  function Pids(nodes: seq<Node>): (r: seq<Pid>)
    ensures |r| == |nodes|
    ensures forall i :: 0 <= i < |nodes| ==> r[i] == nodes[i].pid
  {
    seq(|nodes|, i requires 0 <= i < |nodes| => nodes[i].pid)
  }

  /** Where each row sits in the tree: its pid, depth and parent. */
  function Places(nodes: seq<Node>): (r: seq<Place>)
    ensures |r| == |nodes|
    ensures forall i :: 0 <= i < |nodes| ==> r[i] == Place(nodes[i].pid, nodes[i].depth, nodes[i].parent)
  {
    seq(|nodes|, i requires 0 <= i < |nodes| => Place(nodes[i].pid, nodes[i].depth, nodes[i].parent))
  }

  lemma PlacesAppend(a: seq<Node>, b: seq<Node>)
    ensures Places(a + b) == Places(a) + Places(b)
  {
  }

  /** Each row is at most one level deeper than the row before it. */
  predicate Nested(nodes: seq<Node>) {
    forall i :: 0 < i < |nodes| ==> nodes[i].depth <= nodes[i - 1].depth + 1
  }

  /**
   * Every row of `r` is described by the snapshot, sits at `depth` or deeper
   * under some parent, and those exactly at `depth` hang under `parent`.
   */
  predicate RowsBelow(snap: Snapshot, table: Table, now: real, r: seq<Node>, depth: nat, parent: Pid) {
    forall i :: 0 <= i < |r| ==>
      && r[i].depth >= depth && r[i].parent.Some?
      && (r[i].depth == depth ==> r[i].parent == Some(parent))
      && Describes(snap, table, now, r[i])
  }

  /**
   * The rows of the subtree at `pid`, pre-order: the process itself at
   * `depth`, then each child's rows one level deeper. An unreadable process
   * contributes no rows, and neither does anything below it.
   */
  function Build(snap: Snapshot, table: Table, now: real, pid: Pid, depth: nat, parent: Option<Pid>, path: set<Pid>): (r: seq<Node>)
    ensures |r| > 0 <==> pid in snap.procs && pid !in path
    ensures |r| > 0 ==> r[0].pid == pid && r[0].depth == depth && r[0].parent == parent
    ensures forall i :: 0 < i < |r| ==> r[i].depth > depth && r[i].parent.Some?
    ensures forall i :: 0 <= i < |r| ==> Describes(snap, table, now, r[i])
    ensures parent.Some? ==> RowsBelow(snap, table, now, r, depth, parent.value)
    ensures Nested(r)
    decreases snap.procs.Keys - path, 0
  {
    if pid in snap.procs && pid !in path then
      var node := MakeNode(snap, table, now, pid, depth, parent);
      var rest := BuildList(snap, table, now, snap.procs[pid].children, depth + 1, pid, path + {pid});
      NestedAppend([node], rest);
      [node] + rest
    else
      []
  }

  /** The rows of each child's subtree in turn, the children at `depth` under `parent`. */
  function BuildList(snap: Snapshot, table: Table, now: real, kids: seq<Pid>, depth: nat, parent: Pid, path: set<Pid>): (r: seq<Node>)
    ensures |r| > 0 ==> r[0].depth == depth
    ensures RowsBelow(snap, table, now, r, depth, parent)
    ensures Nested(r)
    decreases snap.procs.Keys - path, 1, |kids|
  {
    if |kids| == 0 then []
    else
      var first := Build(snap, table, now, kids[0], depth, Some(parent), path);
      var rest := BuildList(snap, table, now, kids[1..], depth, parent, path);
      NestedAppend(first, rest);
      RowsAppend(snap, table, now, first, rest, depth, parent);
      first + rest
  }

  /** The row facts `BuildList` promises hold for a concatenation when they hold for both parts. */
  lemma RowsAppend(snap: Snapshot, table: Table, now: real, a: seq<Node>, b: seq<Node>, depth: nat, parent: Pid)
    requires RowsBelow(snap, table, now, a, depth, parent)
    requires RowsBelow(snap, table, now, b, depth, parent)
    ensures RowsBelow(snap, table, now, a + b, depth, parent)
  {
    forall i | 0 <= i < |a + b|
      ensures (a + b)[i] == if i < |a| then a[i] else b[i - |a|]
    {
    }
  }

  /** Two nested lists stay nested when the second starts at most one level below where the first ends. */
  lemma NestedAppend(a: seq<Node>, b: seq<Node>)
    requires Nested(a) && Nested(b)
    requires |a| > 0 && |b| > 0 ==> b[0].depth <= a[|a| - 1].depth + 1
    ensures Nested(a + b)
  {
    forall i | 0 < i < |a + b|
      ensures (a + b)[i].depth <= (a + b)[i - 1].depth + 1
    {
      if i < |a| {
        assert (a + b)[i] == a[i] && (a + b)[i - 1] == a[i - 1];
      } else if i == |a| {
        assert (a + b)[i] == b[0] && (a + b)[i - 1] == a[|a| - 1];
      } else {
        assert (a + b)[i] == b[i - |a|] && (a + b)[i - 1] == b[i - 1 - |a|];
      }
    }
  }

  /** The rows of a subtree are those of exactly the processes the walk of the process table visits, in the same order. */
  lemma {:induction false} BuildPids(snap: Snapshot, table: Table, now: real, pid: Pid, depth: nat, parent: Option<Pid>, path: set<Pid>)
    ensures Pids(Build(snap, table, now, pid, depth, parent, path)) == Subtree(snap, pid, path)
    decreases snap.procs.Keys - path, 0
  {
    if pid in snap.procs && pid !in path {
      var node := MakeNode(snap, table, now, pid, depth, parent);
      var rest := BuildList(snap, table, now, snap.procs[pid].children, depth + 1, pid, path + {pid});
      assert Build(snap, table, now, pid, depth, parent, path) == [node] + rest;
      BuildListPids(snap, table, now, snap.procs[pid].children, depth + 1, pid, path + {pid});
      PidsAppend([node], rest);
      assert Pids([node]) == [pid];
    }
  }

  lemma {:induction false} BuildListPids(snap: Snapshot, table: Table, now: real, kids: seq<Pid>, depth: nat, parent: Pid, path: set<Pid>)
    ensures Pids(BuildList(snap, table, now, kids, depth, parent, path)) == SubtreeList(snap, kids, path)
    decreases snap.procs.Keys - path, 1, |kids|
  {
    if |kids| > 0 {
      var first := Build(snap, table, now, kids[0], depth, Some(parent), path);
      var rest := BuildList(snap, table, now, kids[1..], depth, parent, path);
      BuildPids(snap, table, now, kids[0], depth, Some(parent), path);
      BuildListPids(snap, table, now, kids[1..], depth, parent, path);
      PidsAppend(first, rest);
    }
  }

  /**
   * The rows of a subtree sit where the placed walk of the process table
   * puts them: each child's rows follow their parent's row, one level
   * deeper and under that parent, children in child-list order.
   */
  lemma {:induction false} BuildShape(snap: Snapshot, table: Table, now: real, pid: Pid, depth: nat, parent: Option<Pid>, path: set<Pid>)
    ensures Places(Build(snap, table, now, pid, depth, parent, path)) == Walk(snap, pid, depth, parent, path)
    decreases snap.procs.Keys - path, 0
  {
    if pid in snap.procs && pid !in path {
      var node := MakeNode(snap, table, now, pid, depth, parent);
      var rest := BuildList(snap, table, now, snap.procs[pid].children, depth + 1, pid, path + {pid});
      assert Build(snap, table, now, pid, depth, parent, path) == [node] + rest;
      BuildListShape(snap, table, now, snap.procs[pid].children, depth + 1, pid, path + {pid});
      PlacesAppend([node], rest);
      assert Places([node]) == [Place(pid, depth, parent)];
    }
  }

  lemma {:induction false} BuildListShape(snap: Snapshot, table: Table, now: real, kids: seq<Pid>, depth: nat, parent: Pid, path: set<Pid>)
    ensures Places(BuildList(snap, table, now, kids, depth, parent, path)) == WalkList(snap, kids, depth, parent, path)
    decreases snap.procs.Keys - path, 1, |kids|
  {
    if |kids| > 0 {
      var first := Build(snap, table, now, kids[0], depth, Some(parent), path);
      var rest := BuildList(snap, table, now, kids[1..], depth, parent, path);
      BuildShape(snap, table, now, kids[0], depth, Some(parent), path);
      BuildListShape(snap, table, now, kids[1..], depth, parent, path);
      PlacesAppend(first, rest);
    }
  }

  lemma PidsAppend(a: seq<Node>, b: seq<Node>)
    ensures Pids(a + b) == Pids(a) + Pids(b)
  {
  }

  /**
   * `get_process_info(pid)`: the rows of a pane's process tree, rooted at
   * depth 0 with no parent.
   */
  function ProcessInfo(snap: Snapshot, table: Table, now: real, pid: Pid): (r: seq<Node>)
    ensures pid !in snap.procs ==> r == []
    ensures pid in snap.procs ==> |r| > 0 && r[0].pid == pid && r[0].depth == 0 && r[0].parent == None && !r[0].isLastChild
    ensures forall i :: 0 < i < |r| ==> r[i].depth > 0 && r[i].parent.Some?
    ensures forall i :: 0 <= i < |r| ==> Describes(snap, table, now, r[i])
    ensures Nested(r)
    ensures Pids(r) == Tree(snap, pid)
    ensures Places(r) == Walk(snap, pid, 0, None, {})
  {
    BuildPids(snap, table, now, pid, 0, None, {});
    BuildShape(snap, table, now, pid, 0, None, {});
    Build(snap, table, now, pid, 0, None, {})
  }

  /** A chain 1 → 2 → 3 is drawn as a staircase: each process one level below the one it hangs from. */
  lemma ChainRows(table: Table, now: real, p1: Proc, p2: Proc, p3: Proc)
    requires p1.children == [2] && p2.children == [3] && p3.children == []
    ensures var snap := Snapshot(map[1 := p1, 2 := p2, 3 := p3]);
            Places(ProcessInfo(snap, table, now, 1)) == [Place(1, 0, None), Place(2, 1, Some(1)), Place(3, 2, Some(2))]
  {
    var snap := Snapshot(map[1 := p1, 2 := p2, 3 := p3]);
    assert {} + {1} == {1} && {1} + {2} == {1, 2} && {1, 2} + {3} == {1, 2, 3};
    assert [2][1..] == [] && [3][1..] == [];
    assert WalkList(snap, [], 3, 3, {1, 2, 3}) == [];
    assert Walk(snap, 3, 2, Some(2), {1, 2}) == [Place(3, 2, Some(2))];
    assert WalkList(snap, [3], 2, 2, {1, 2}) == [Place(3, 2, Some(2))];
    assert Walk(snap, 2, 1, Some(1), {1}) == [Place(2, 1, Some(1)), Place(3, 2, Some(2))];
    assert WalkList(snap, [2], 1, 1, {1}) == [Place(2, 1, Some(1)), Place(3, 2, Some(2))];
    assert Walk(snap, 1, 0, None, {}) == [Place(1, 0, None), Place(2, 1, Some(1)), Place(3, 2, Some(2))];
  }

  /** CPU percent, resident memory in KB and process count of a group of processes. */
  datatype Stats = Stats(cpu: real, ramKb: nat, count: nat)

  const NoStats := Stats(0.0, 0, 0)

  function Add(a: Stats, b: Stats): Stats {
    Stats(a.cpu + b.cpu, a.ramKb + b.ramKb, a.count + b.count)
  }

  /** The sums over displayed rows. */
  function RowTotals(nodes: seq<Node>): (s: Stats)
    ensures s.count == |nodes|
  {
    if |nodes| == 0 then NoStats
    else Add(Stats(nodes[0].cpu, nodes[0].memoryKb, 1), RowTotals(nodes[1..]))
  }

  /** The sums over readable pids, read straight from the snapshot, with `cpuOf` giving each one's CPU percent. */
  function PidTotals(snap: Snapshot, cpuOf: Pid -> real, pids: seq<Pid>): (s: Stats)
    requires forall i :: 0 <= i < |pids| ==> pids[i] in snap.procs
    ensures s.count == |pids|
  {
    if |pids| == 0 then NoStats
    else Add(Stats(cpuOf(pids[0]), snap.procs[pids[0]].rssBytes / 1024, 1),
             PidTotals(snap, cpuOf, pids[1..]))
  }

  /** Totals over two lists of pids put one after the other are the two totals added. */
  lemma {:induction false} PidTotalsAppend(snap: Snapshot, cpuOf: Pid -> real, a: seq<Pid>, b: seq<Pid>)
    requires forall i :: 0 <= i < |a| ==> a[i] in snap.procs
    requires forall i :: 0 <= i < |b| ==> b[i] in snap.procs
    ensures forall i :: 0 <= i < |a + b| ==> (a + b)[i] in snap.procs
    ensures PidTotals(snap, cpuOf, a + b) == Add(PidTotals(snap, cpuOf, a), PidTotals(snap, cpuOf, b))
    decreases |a|
  {
    var ab := a + b;
    forall i | 0 <= i < |ab|
      ensures ab[i] in snap.procs
    {
      if i < |a| { assert ab[i] == a[i]; } else { assert ab[i] == b[i - |a|]; }
    }
    if |a| > 0 {
      assert ab[0] == a[0];
      assert ab[1..] == a[1..] + b;
      PidTotalsAppend(snap, cpuOf, a[1..], b);
      var head := Stats(cpuOf(a[0]), snap.procs[a[0]].rssBytes / 1024, 1);
      var x, y := PidTotals(snap, cpuOf, a[1..]), PidTotals(snap, cpuOf, b);
      calc {
        PidTotals(snap, cpuOf, ab);
        Add(head, PidTotals(snap, cpuOf, ab[1..]));
        Add(head, Add(x, y));
        Add(Add(head, x), y);
        Add(PidTotals(snap, cpuOf, a), y);
      }
    } else {
      var y := PidTotals(snap, cpuOf, b);
      assert ab == b && PidTotals(snap, cpuOf, a) == NoStats;
      assert Add(NoStats, y) == Stats(y.cpu, y.ramKb, y.count) == y;
    }
  }

  /** The CPU reading the monitor uses for every process. */
  function MonitorCpu(snap: Snapshot, table: Table, now: real): Pid -> real
  {
    q => CpuOf(snap, table, now, q)
  }

  lemma {:induction false} RowTotalsArePidTotals(snap: Snapshot, table: Table, now: real, nodes: seq<Node>)
    requires forall i :: 0 <= i < |nodes| ==> Describes(snap, table, now, nodes[i])
    ensures forall i :: 0 <= i < |Pids(nodes)| ==> Pids(nodes)[i] in snap.procs
    ensures RowTotals(nodes) == PidTotals(snap, MonitorCpu(snap, table, now), Pids(nodes))
    decreases |nodes|
  {
    if |nodes| > 0 {
      assert Pids(nodes)[1..] == Pids(nodes[1..]);
      RowTotalsArePidTotals(snap, table, now, nodes[1..]);
    }
  }

  /**
   * The process plus every readable descendant, as `get_all_process_stats`
   * adds them up, given each process's CPU percent.
   */
  function SubtreeTotals(snap: Snapshot, cpuOf: Pid -> real, pid: Pid): (s: Stats)
    ensures pid !in snap.procs ==> s == NoStats
    ensures s.count == |Tree(snap, pid)|
  {
    if pid in snap.procs then PidTotals(snap, cpuOf, [pid] + Descendants(snap, pid)) else NoStats
  }

  /**
   * `get_all_process_stats(pid)`: the subtree totals with the monitor's own
   * CPU readings. They are the totals of the rows the tree view shows for
   * the same pane.
   */
  function ProcessStats(snap: Snapshot, table: Table, now: real, pid: Pid): (s: Stats)
    ensures pid !in snap.procs ==> s == NoStats
    ensures s == RowTotals(ProcessInfo(snap, table, now, pid))
  {
    if pid in snap.procs then
      assert [pid] + Descendants(snap, pid) == Tree(snap, pid);
      RowTotalsArePidTotals(snap, table, now, ProcessInfo(snap, table, now, pid));
      SubtreeTotals(snap, MonitorCpu(snap, table, now), pid)
    else
      NoStats
  }
}

=== FILE: selection.dfy ===
/**
 * Tab and row selection: moving between tabs, keeping the selected tab across
 * a refresh that rebuilds the window list, the index clamps applied while
 * drawing, and the first row shown in a scrolled list.
 */
module Selection {
  import opened Base
  import opened Aggregate

  // ---------------------------------------------------------------------
  // Tabs
  // ---------------------------------------------------------------------

  /** `next_tab`: one tab to the right, wrapping; nothing happens without windows. */
  function NextTab(tab: nat, count: nat): (t: nat)
    ensures count == 0 ==> t == tab
    ensures count > 0 ==> t < count
    ensures count > 0 && tab + 1 < count ==> t == tab + 1
    ensures count > 0 && tab + 1 == count ==> t == 0
  {
    if count > 0 then (tab + 1) % count else tab
  }

  /** `prev_tab`: one tab to the left, wrapping (Python's `%` never yields a negative result here). */
  function PrevTab(tab: nat, count: nat): (t: nat)
    ensures count == 0 ==> t == tab
    ensures count > 0 ==> t < count
    ensures count > 0 && 0 < tab <= count ==> t == tab - 1
    ensures count > 0 && tab == 0 ==> t == count - 1
  {
    if count > 0 then (tab - 1) % count else tab
  }

  /** From a valid tab, going right then left, or left then right, comes back to it. */
  lemma TabMovesUndo(tab: nat, count: nat)
    requires tab < count
    ensures PrevTab(NextTab(tab, count), count) == tab
    ensures NextTab(PrevTab(tab, count), count) == tab
  {
    if tab + 1 == count {
      ModSelf(count);
      assert NextTab(tab, count) == 0;
      ModOfMinusOne(count);
    } else {
      ModSmall(tab + 1, count);
      ModSmall(tab, count);
    }
    if tab == 0 {
      ModOfMinusOne(count);
      ModSmall(count - 1, count);
      ModSelf(count);
    } else {
      ModSmall(tab - 1, count);
      ModSmall(tab, count);
    }
  }

  lemma ModSmall(a: int, n: int)
    requires 0 <= a < n
    ensures a % n == a
  {
  }

  lemma ModSelf(n: int)
    requires n > 0
    ensures n % n == 0
  {
  }

  lemma ModOfMinusOne(n: int)
    requires n > 0
    ensures (-1) % n == n - 1
  {
  }

  /** Going right from the last tab lands on the first, going left from the first lands on the last. */
  lemma TabMovesWrap(count: nat)
    requires count > 0
    ensures NextTab(count - 1, count) == 0
    ensures PrevTab(0, count) == count - 1
  {
    ModSelf(count);
    ModOfMinusOne(count);
  }

  // ---------------------------------------------------------------------
  // Reconciliation after a refresh
  // ---------------------------------------------------------------------

  /** What a window is looked up by after a refresh: its name or its tmux window index. */
  datatype WindowKey = ByName(name: string) | ByIndex(index: int)

  predicate Matches(w: Window, k: WindowKey) {
    match k
    case ByName(name) => w.name == name
    case ByIndex(index) => w.index == index
  }

  /** The position of the first window the key matches, or none when no window matches. */
  function FirstMatch(ws: seq<Window>, k: WindowKey): (r: Option<nat>)
    ensures r.Some? ==> r.value < |ws| && Matches(ws[r.value], k)
    ensures r.Some? ==> forall j :: 0 <= j < r.value ==> !Matches(ws[j], k)
    ensures r.None? ==> forall j :: 0 <= j < |ws| ==> !Matches(ws[j], k)
    decreases |ws|
  {
    if |ws| == 0 then None
    else if Matches(ws[0], k) then Some(0)
    else match FirstMatch(ws[1..], k)
      case None => None
      case Some(i) => Some(i + 1)
  }

  /** `max(0, min(tab, count - 1))` for a non-empty list. */
  function ClampInto(tab: nat, count: nat): (t: nat)
    requires count > 0
    ensures t < count
    ensures tab < count ==> t == tab
    ensures tab >= count ==> t == count - 1
  {
    if tab < count then tab else count - 1
  }

  /**
   * The tab chosen after a refresh, as the refresh code picks it. `filter`
   * is the window-name filter from the command line; the empty string
   * stands for no filter. When the new list is non-empty:
   *  - on a first load with a filter, the first window of that name, else 0;
   *  - when a tab was selected before, the first window with its name, else
   *    the first with its tmux index, else the prior position clamped;
   *  - otherwise the prior value, untouched.
   */
  function ReconcileAsWritten(prior: seq<Window>, tab: nat, current: seq<Window>, filter: string): (t: nat)
    ensures |current| > 0 && (tab < |prior| || (|prior| == 0 && filter != "")) ==> t < |current|
    ensures |current| == 0 || (tab >= |prior| && (|prior| > 0 || filter == "")) ==> t == tab
  {
    if |current| == 0 then tab
    else if |prior| == 0 && filter != "" then
      match FirstMatch(current, ByName(filter)) case Some(i) => i case None => 0
    else if tab < |prior| then
      match FirstMatch(current, ByName(prior[tab].name))
      case Some(i) => i
      case None =>
        match FirstMatch(current, ByIndex(prior[tab].index))
        case Some(i) => i
        case None => ClampInto(tab, |current|)
    else
      tab
  }

  /**
   * With no filter, a tab selected on a list that then became empty stays
   * where it was when windows come back: three windows with the third
   * selected, then none, then one leaves the tab pointing past the end.
   */
  lemma ReconcileAsWrittenLeavesTabPastEnd(a: Window, b: Window, c: Window, x: Window)
    ensures var t1 := ReconcileAsWritten([a, b, c], 2, [], "");
            var t2 := ReconcileAsWritten([], t1, [x], "");
            t2 == 2 && t2 >= |[x]|
  {
  }

  /**
   * The refresh's choice of tab with the fall-through case clamped as well,
   * so that whenever the new list is non-empty the tab lies inside it.
   */
  function Reconcile(prior: seq<Window>, tab: nat, current: seq<Window>, filter: string): (t: nat)
    ensures |current| > 0 ==> t < |current|
    ensures |current| == 0 ==> t == tab
  {
    if |current| == 0 then tab
    else if |prior| == 0 && filter != "" then
      match FirstMatch(current, ByName(filter)) case Some(i) => i case None => 0
    else if tab < |prior| then
      match FirstMatch(current, ByName(prior[tab].name))
      case Some(i) => i
      case None =>
        match FirstMatch(current, ByIndex(prior[tab].index))
        case Some(i) => i
        case None => ClampInto(tab, |current|)
    else
      ClampInto(tab, |current|)
  }

  /** The corrected choice agrees with the refresh code whenever the latter yields a tab inside the new list. */
  lemma ReconcileAgrees(prior: seq<Window>, tab: nat, current: seq<Window>, filter: string)
    requires ReconcileAsWritten(prior, tab, current, filter) < |current| || |current| == 0
    ensures Reconcile(prior, tab, current, filter) == ReconcileAsWritten(prior, tab, current, filter)
  {
  }

  /**
   * A selected window keeps its selection across a refresh that still lists
   * a window of the same name, wherever that window moved.
   */
  lemma SelectionFollowsName(prior: seq<Window>, tab: nat, current: seq<Window>, filter: string, j: nat)
    requires tab < |prior| && j < |current| && current[j].name == prior[tab].name
    ensures current[ReconcileAsWritten(prior, tab, current, filter)].name == prior[tab].name
  {
  }

  /**
   * When no new window has the selected name, the selection moves to the
   * first window with the same tmux index; only when neither exists is the
   * prior position clamped.
   */
  lemma SelectionFallsBackToIndex(prior: seq<Window>, tab: nat, current: seq<Window>, filter: string)
    requires tab < |prior| && |current| > 0
    requires forall j :: 0 <= j < |current| ==> current[j].name != prior[tab].name
    ensures (exists j :: 0 <= j < |current| && current[j].index == prior[tab].index) ==>
              current[ReconcileAsWritten(prior, tab, current, filter)].index == prior[tab].index
    ensures (forall j :: 0 <= j < |current| ==> current[j].index != prior[tab].index) ==>
              ReconcileAsWritten(prior, tab, current, filter) == ClampInto(tab, |current|)
  {
    assert FirstMatch(current, ByName(prior[tab].name)).None?;
  }

  /** On the first load, the filter selects the first window with that name, or the first window when none has it. */
  lemma FilterPicksFirstMatch(tab: nat, current: seq<Window>, filter: string)
    requires |current| > 0 && filter != ""
    ensures var t := ReconcileAsWritten([], tab, current, filter);
            (exists j :: 0 <= j < |current| && current[j].name == filter) ==>
              current[t].name == filter && forall j :: 0 <= j < t ==> current[j].name != filter
    ensures (forall j :: 0 <= j < |current| ==> current[j].name != filter) ==> ReconcileAsWritten([], tab, current, filter) == 0
  {
  }

  // ---------------------------------------------------------------------
  // Clamps applied while drawing
  // ---------------------------------------------------------------------

  /**
   * The clamp both programs apply before drawing a list they wrap around:
   * the monitor to its tab, the overview program to its selected session.
   * Past the end goes back to the first entry, below zero to the last; an
   * index already in range stays.
   */
  function WrapInto(tab: int, count: nat): (t: int)
    ensures count > 0 ==> 0 <= t < count
    ensures count > 0 && tab >= count ==> t == 0
    ensures count > 0 && tab < 0 ==> t == count - 1
    ensures count == 0 || 0 <= tab < count ==> t == tab
  {
    if count == 0 then tab
    else if tab >= count then 0
    else if tab < 0 then count - 1
    else tab
  }

  /**
   * The monitor's row clamp before drawing a window's processes: past the
   * end goes to the last row, below zero to the first; with no rows the
   * selection resets to 0 and row browsing stops.
   */
  function DrawRow(sel: int, browsing: bool, count: nat): (r: (int, bool))
    ensures count > 0 ==> 0 <= r.0 < count && r.1 == browsing
    ensures count > 0 && sel >= count ==> r.0 == count - 1
    ensures count > 0 && sel < 0 ==> r.0 == 0
    ensures count > 0 && 0 <= sel < count ==> r.0 == sel
    ensures count == 0 ==> r == (0, false)
  {
    if count == 0 then (0, false)
    else if sel >= count then (count - 1, browsing)
    else if sel < 0 then (0, browsing)
    else (sel, browsing)
  }

  /**
   * The monitor's session clamp in its overview, applied only while browsing
   * sessions: past the end goes to the last session, below zero to the first.
   */
  function DrawSessionInMonitor(sel: int, browsing: bool, count: nat): (s: int)
    ensures count > 0 && browsing ==> 0 <= s < count
    ensures count > 0 && browsing && sel >= count ==> s == count - 1
    ensures !browsing || count == 0 || 0 <= sel < count ==> s == sel
  {
    if count == 0 || !browsing then sel
    else if sel >= count then count - 1
    else if sel < 0 then 0
    else sel
  }

  /** The two programs disagree on a session index past the end of a list of two or more. */
  lemma SessionClampsDiffer(sel: int, count: nat)
    requires count >= 2 && sel >= count
    ensures DrawSessionInMonitor(sel, true, count) == count - 1
    ensures WrapInto(sel, count) == 0
    ensures DrawSessionInMonitor(sel, true, count) != WrapInto(sel, count)
  {
  }

  // ---------------------------------------------------------------------
  // Scrolling
  // ---------------------------------------------------------------------

  /**
   * The first row shown when `avail` rows fit: while browsing, far enough
   * down that the selected row is the last one shown; from the top otherwise.
   */
  function FirstShown(sel: int, avail: int, browsing: bool): (start: int)
    ensures start >= 0 || sel < 0
    ensures !browsing || sel < avail ==> start == 0
  {
    if browsing && sel >= avail then sel - avail + 1 else 0
  }

  /**
   * Rows `start` up to `start + avail` are drawn. While browsing with room
   * for at least one row, the selected row is among them, and it is the last
   * one drawn whenever the list had to scroll.
   */
  lemma SelectedRowShown(sel: int, avail: int)
    requires sel >= 0 && avail > 0
    ensures var start := FirstShown(sel, avail, true);
            0 <= start <= sel < start + avail
    ensures sel >= avail ==> sel == FirstShown(sel, avail, true) + avail - 1
  {
  }
}

=== FILE: tab_bar.dfy ===
/**
 * The tab bar of the session view (`draw_tabs`): the writes it makes on the
 * tab row, which of them no `try` protects, and when one of those raises the
 * curses error that ends the frame before the process table is drawn.
 */
module TabBar {
  /** One `addstr` on the tab row: its column, its text, and whether a `try` catches its error. */
  datatype Write = Write(column: int, text: string, caught: bool)

  /** The row of the tab bar: the header above it always takes two rows. */
  const TabRow := 2

  /** A window name as its tab shows it: more than 12 characters are cut to 9 and "...". */
  function DisplayName(name: string): (d: string)
    ensures |d| <= 12
    ensures |name| <= 12 ==> d == name
    ensures |name| > 12 ==> |d| == 12 && d[..9] == name[..9] && d[9..] == "..."
  {
    if |name| > 12 then name[..9] + "..." else name
  }

  /** The label of a tab: the current tab's name is shown in brackets. */
  function Label(name: string, current: bool): string
  {
    if current then "[" + DisplayName(name) + "]" else DisplayName(name)
  }

  /**
   * The writes for tabs `i` onwards, starting at column `x`: a separator
   * before every tab but the first, with nothing to catch its error, then
   * the tab's label inside a `try`.
   */
  function TabWrites(names: seq<string>, tab: int, i: nat, x: int): (ws: seq<Write>)
    requires i <= |names|
    ensures forall k :: 0 <= k < |ws| ==> ws[k].column >= x
    ensures forall k :: 0 <= k < |ws| && !ws[k].caught ==> ws[k].text == " | "
    decreases |names| - i
  {
    if i == |names| then []
    else
      var sx := if i > 0 then x + 3 else x;
      var shown := Label(names[i], i == tab);
      var sep := if i > 0 then [Write(x, " | ", false)] else [];
      sep + [Write(sx, shown, true)] + TabWrites(names, tab, i + 1, sx + |shown|)
  }

  /**
   * Every write `draw_tabs` makes with at least one window, before the
   * counter: "Windows" and ": " unprotected, then the tabs. The counter is
   * written only when it fits, so it never raises.
   */
  function BarWrites(names: seq<string>, tab: int): (ws: seq<Write>)
    ensures |ws| >= 2 && ws[0] == Write(0, "Windows", false) && ws[1] == Write(7, ": ", false)
    ensures forall k :: 2 <= k < |ws| ==> ws[k].column >= 9
  {
    [Write(0, "Windows", false), Write(7, ": ", false)] + TabWrites(names, tab, 0, 9)
  }

  /** A write no `try` protects raises when its row or its first column lies outside the window. */
  predicate Raises(w: Write, height: int, width: int)
  {
    !w.caught && (TabRow >= height || w.column >= width)
  }

  /** `draw_tabs` as written raises when it has a window to show and one of its writes raises. */
  predicate TabsRaise(names: seq<string>, tab: int, height: int, width: int)
  {
    |names| > 0 && exists k :: 0 <= k < |BarWrites(names, tab)| && Raises(BarWrites(names, tab)[k], height, width)
  }

  /**
   * Six windows with 12-character names on an 80-column terminal, the first
   * one current: the separator before the sixth tab is written at column
   * 83, so the bar raises and the frame ends before the tab clamp and the
   * process table.
   */
  lemma SixLongNamesRaise(name: string)
    requires |name| == 12
    ensures var names := [name, name, name, name, name, name];
            && |BarWrites(names, 0)| == 13 && BarWrites(names, 0)[11] == Write(83, " | ", false)
            && TabsRaise(names, 0, 24, 80)
  {
    var names := [name, name, name, name, name, name];
    var l0 := Label(name, true);
    var l := Label(name, false);
    assert |l0| == 14 && |l| == 12;
    var sep := Write(83, " | ", false);
    var w5 := TabWrites(names, 0, 5, 83);
    assert TabWrites(names, 0, 6, 98) == [];
    assert |w5| == 2 && w5[0] == sep;
    var w4 := TabWrites(names, 0, 4, 68);
    assert |w4| == 4 && w4[2] == sep;
    var w3 := TabWrites(names, 0, 3, 53);
    assert |w3| == 6 && w3[4] == sep;
    var w2 := TabWrites(names, 0, 2, 38);
    assert |w2| == 8 && w2[6] == sep;
    var w1 := TabWrites(names, 0, 1, 23);
    assert |w1| == 10 && w1[8] == sep;
    var w0 := TabWrites(names, 0, 0, 9);
    assert |w0| == 11 && w0[9] == sep;
    assert Raises(BarWrites(names, 0)[11], 24, 80);
  }

  /**
   * The writes kept while they fit on the row, the rule the header applies to
   * its parts (tmux_monitor.py:646-647): the longest prefix whose every write
   * ends before the last column.
   */
  function Fitting(ws: seq<Write>, width: int): (r: seq<Write>)
    ensures r <= ws
    ensures forall k :: 0 <= k < |r| ==> r[k].column + |r[k].text| <= width - 1
    ensures |r| < |ws| ==> ws[|r|].column + |ws[|r|].text| > width - 1
  {
    if |ws| == 0 || ws[0].column + |ws[0].text| > width - 1 then []
    else [ws[0]] + Fitting(ws[1..], width)
  }

  /**
   * The intended tab bar: nothing on a screen without a tab row, otherwise
   * the writes as written, cut at the first one that does not fit.
   */
  function GuardedWrites(names: seq<string>, tab: int, height: int, width: int): seq<Write>
  {
    if |names| == 0 || height <= TabRow then [] else Fitting(BarWrites(names, tab), width)
  }

  /**
   * The guarded tab bar never raises, so the frame always reaches the tab
   * clamp; it draws a prefix of the bar as written, all of it when the
   * whole bar fits.
   */
  lemma GuardedTabsNeverRaise(names: seq<string>, tab: int, height: int, width: int)
    ensures var g := GuardedWrites(names, tab, height, width);
            && (forall k :: 0 <= k < |g| ==> !Raises(g[k], height, width))
            && g <= BarWrites(names, tab)
    ensures var ws := BarWrites(names, tab);
            |names| > 0 && height > TabRow && (forall k :: 0 <= k < |ws| ==> ws[k].column + |ws[k].text| <= width - 1) ==>
              GuardedWrites(names, tab, height, width) == ws
  {
    var g := GuardedWrites(names, tab, height, width);
    forall k | 0 <= k < |g|
      ensures !Raises(g[k], height, width)
    {
      assert g[k].column + |g[k].text| <= width - 1;
    }
    if |names| == 0 || height <= TabRow {
      assert g == [];
    }
  }
}

=== FILE: text.dfy ===
/**
 * The string operations the monitor applies to the multiplexer's text output
 * and to command lines: Python's `str.strip()`, `str.split(sep)`,
 * `sep.join(parts)`, a simplified `int()` and decimal rendering of integers.
 */
module Text {
  import opened Base

  /** Python's `str.isspace()` for one character. */
  predicate IsSpace(c: char) {
    var n := c as int;
    (9 <= n <= 13) || (28 <= n <= 32) || n == 0x85 || n == 0xA0 || n == 0x1680
    || (0x2000 <= n <= 0x200A) || n == 0x2028 || n == 0x2029 || n == 0x202F
    || n == 0x205F || n == 0x3000
  }

  predicate AllSpace(s: string) {
    forall k :: 0 <= k < |s| ==> IsSpace(s[k])
  }

  /** Drops leading whitespace. */
  function TrimLeft(s: string): string
  {
    if |s| > 0 && IsSpace(s[0]) then TrimLeft(s[1..]) else s
  }

  /** Drops trailing whitespace. */
  function TrimRight(s: string): string
  {
    if |s| > 0 && IsSpace(s[|s| - 1]) then TrimRight(s[..|s| - 1]) else s
  }

  /** TrimLeft leaves the suffix that starts at the first non-space character. */
  lemma {:induction false} TrimLeftSpec(s: string)
    ensures var r := TrimLeft(s);
            && |r| <= |s| && r == s[|s| - |r|..]
            && AllSpace(s[..|s| - |r|])
            && (|r| == 0 || !IsSpace(r[0]))
    decreases |s|
  {
    if |s| > 0 && IsSpace(s[0]) {
      TrimLeftSpec(s[1..]);
      var r := TrimLeft(s);
      assert s[..|s| - |r|] == [s[0]] + s[1..][..|s| - 1 - |r|];
    }
  }

  /** TrimRight leaves the prefix that ends at the last non-space character. */
  lemma {:induction false} TrimRightSpec(s: string)
    ensures var r := TrimRight(s);
            && |r| <= |s| && r == s[..|r|]
            && AllSpace(s[|r|..])
            && (|r| == 0 || !IsSpace(r[|r| - 1]))
    decreases |s|
  {
    if |s| > 0 && IsSpace(s[|s| - 1]) {
      TrimRightSpec(s[..|s| - 1]);
      var r := TrimRight(s);
      assert s[|r|..] == s[..|s| - 1][|r|..] + [s[|s| - 1]];
    }
  }

  /** `s.strip()` */
  function Strip(s: string): string
  {
    TrimRight(TrimLeft(s))
  }

  /** The stripped text is the middle of `s`, with only whitespace cut from either end and none left at either end. */
  lemma StripSpec(s: string)
    ensures var r := Strip(s);
            && (|r| == 0 || (!IsSpace(r[0]) && !IsSpace(r[|r| - 1])))
            && exists i :: 0 <= i <= |s| - |r| && r == s[i..i + |r|]
                           && AllSpace(s[..i]) && AllSpace(s[i + |r|..])
  {
    TrimLeftSpec(s);
    var l := TrimLeft(s);
    TrimRightSpec(l);
    var r := TrimRight(l);
    var i := |s| - |l|;
    assert s[i..i + |r|] == r;
    assert s[i + |r|..] == l[|r|..];
  }

  /** Stripping a string that neither starts nor ends with whitespace changes nothing. */
  lemma StripUnchanged(s: string)
    requires |s| == 0 || (!IsSpace(s[0]) && !IsSpace(s[|s| - 1]))
    ensures Strip(s) == s
  {
  }

  /** Position of the first `c` in `s`, or `|s|` when there is none. */
  function IndexOf(s: string, c: char): (i: nat)
    ensures i <= |s|
    ensures i < |s| ==> s[i] == c
    ensures forall k :: 0 <= k < i ==> s[k] != c
    ensures i == |s| <==> c !in s
  {
    if |s| == 0 then 0 else if s[0] == c then 0 else 1 + IndexOf(s[1..], c)
  }

  /** `s.split(sep)` for a one-character separator: the pieces between separators, in order. */
  function Split(s: string, sep: char): (r: seq<string>)
    ensures |r| >= 1
    ensures forall k :: 0 <= k < |r| ==> sep !in r[k]
    decreases |s|
  {
    var i := IndexOf(s, sep);
    if i == |s| then [s] else [s[..i]] + Split(s[i + 1..], sep)
  }

  /** `sep.join(xs)` for a one-character separator. */
  function Join(xs: seq<string>, sep: char): string
  {
    if |xs| == 0 then "" else if |xs| == 1 then xs[0] else xs[0] + [sep] + Join(xs[1..], sep)
  }

  /** Joining the pieces of a split gives back the original text. */
  lemma {:induction false} JoinSplit(s: string, sep: char)
    ensures Join(Split(s, sep), sep) == s
    decreases |s|
  {
    var i := IndexOf(s, sep);
    if i < |s| {
      var rest := Split(s[i + 1..], sep);
      JoinSplit(s[i + 1..], sep);
      assert Split(s, sep) == [s[..i]] + rest;
      assert s == s[..i] + [sep] + s[i + 1..];
    }
  }

  /** Splitting a join of separator-free pieces gives back the pieces. */
  lemma {:induction false} SplitJoin(xs: seq<string>, sep: char)
    requires |xs| >= 1
    requires forall k :: 0 <= k < |xs| ==> sep !in xs[k]
    ensures Split(Join(xs, sep), sep) == xs
    decreases |xs|
  {
    if |xs| == 1 {
      assert Join(xs, sep) == xs[0];
    } else {
      var s := Join(xs, sep);
      var tail := Join(xs[1..], sep);
      assert s == xs[0] + [sep] + tail;
      assert s == xs[0] + ([sep] + tail);
      NoSepBefore(xs[0], [sep] + tail, sep);
      assert s[..|xs[0]|] == xs[0];
      assert s[|xs[0]| + 1..] == tail;
      SplitAt(s, sep, |xs[0]|);
      SplitJoin(xs[1..], sep);
      assert xs == [xs[0]] + xs[1..];
    }
  }

  /** Where the first separator is at `i`, the split is the text before it followed by the split of the rest. */
  lemma SplitAt(s: string, sep: char, i: nat)
    requires i < |s| && IndexOf(s, sep) == i
    ensures Split(s, sep) == [s[..i]] + Split(s[i + 1..], sep)
  {
  }

  lemma NoSepBefore(a: string, b: string, sep: char)
    requires sep !in a && |b| > 0 && b[0] == sep
    ensures IndexOf(a + b, sep) == |a|
  {
    assert (a + b)[|a|] == sep;
  }

  /** The first character of a join is that of its first non-empty leading piece. */
  lemma JoinFirst(xs: seq<string>, sep: char)
    requires |xs| >= 1 && |xs[0]| > 0
    ensures |Join(xs, sep)| > 0 && Join(xs, sep)[0] == xs[0][0]
  {
  }

  /** The last character of a join is that of its last piece, when that is non-empty. */
  lemma {:induction false} JoinLast(xs: seq<string>, sep: char)
    requires |xs| >= 1 && |xs[|xs| - 1]| > 0
    ensures |Join(xs, sep)| > 0
    ensures Join(xs, sep)[|Join(xs, sep)| - 1] == xs[|xs| - 1][|xs[|xs| - 1]| - 1]
    decreases |xs|
  {
    if |xs| > 1 {
      JoinLast(xs[1..], sep);
      assert xs[1..][|xs[1..]| - 1] == xs[|xs| - 1];
    }
  }

  /** The final `/`-separated component of a path, as `path.split("/")[-1]`. */
  function Basename(path: string): (r: string)
    ensures '/' !in r
    ensures |r| <= |path| && r == path[|path| - |r|..]
    ensures |r| == |path| || path[|path| - |r| - 1] == '/'
  {
    var parts := Split(path, '/');
    JoinSplit(path, '/');
    LastPieceIsSuffix(parts, '/');
    parts[|parts| - 1]
  }

  lemma {:induction false} LastPieceIsSuffix(xs: seq<string>, sep: char)
    requires |xs| >= 1
    ensures var j := Join(xs, sep); var l := xs[|xs| - 1];
            |l| <= |j| && l == j[|j| - |l|..] && (|l| == |j| || j[|j| - |l| - 1] == sep)
    decreases |xs|
  {
    if |xs| > 1 {
      LastPieceIsSuffix(xs[1..], sep);
      assert xs[1..][|xs[1..]| - 1] == xs[|xs| - 1];
      var t := Join(xs[1..], sep);
      var j := Join(xs, sep);
      assert j == (xs[0] + [sep]) + t;
    }
  }

  predicate IsDigit(c: char) {
    '0' <= c <= '9'
  }

  predicate AllDigits(s: string) {
    forall k :: 0 <= k < |s| ==> IsDigit(s[k])
  }

  /** The value of a non-empty run of decimal digits, most significant first. */
  function DigitsValue(s: string): nat
    requires AllDigits(s)
  {
    if |s| == 0 then 0 else DigitsValue(s[..|s| - 1]) * 10 + (s[|s| - 1] as int - '0' as int)
  }

  /**
   * Python's `int(text)`, simplified: surrounding whitespace, one optional
   * sign and at least one ASCII digit. `None` stands for `ValueError`.
   */
  function ParseInt(text: string): (r: Option<int>)
    ensures r.Some? ==> |Strip(text)| > 0
  {
    var t := Strip(text);
    if |t| > 1 && (t[0] == '-' || t[0] == '+') && AllDigits(t[1..]) then
      var v: int := DigitsValue(t[1..]);
      Some(if t[0] == '-' then -v else v)
    else if |t| > 0 && AllDigits(t) then
      Some(DigitsValue(t))
    else
      None
  }

  /** Decimal digits of a natural number without leading zeros, as `str(n)`. */
  function ShowNat(n: nat): (r: string)
    ensures |r| > 0 && AllDigits(r) && DigitsValue(r) == n
    ensures |r| > 1 ==> r[0] != '0'
  {
    var d := [(n % 10 + '0' as int) as char];
    if n < 10 then d
    else
      var r := ShowNat(n / 10) + d;
      assert r[..|r| - 1] == ShowNat(n / 10);
      r
  }

  /** `str(n)` for an integer: a minus sign before the digits of a negative number. */
  function ShowInt(n: int): (r: string)
    ensures |r| > 0 && !IsSpace(r[0]) && !IsSpace(r[|r| - 1])
    ensures '\n' !in r && ':' !in r
  {
    if n < 0 then "-" + ShowNat(-n) else ShowNat(n)
  }

  /** Reading back a rendered integer gives the integer. */
  lemma ParseShowInt(n: int)
    ensures ParseInt(ShowInt(n)) == Some(n)
  {
    var s := ShowInt(n);
    StripUnchanged(s);
    if n < 0 {
      assert s[1..] == ShowNat(-n);
    }
  }

  /** Distinct integers render to distinct texts. */
  lemma ShowIntInjective(a: int, b: int)
    requires ShowInt(a) == ShowInt(b)
    ensures a == b
  {
    ParseShowInt(a);
    ParseShowInt(b);
  }
}

=== FILE: tmux_output.dfy ===
/**
 * The text-processing halves of the multiplexer queries: each function takes
 * the query's standard output (`None` when the query exits non-zero) and
 * returns what the monitor extracts from it.
 */
module TmuxOutput {
  import opened Base
  import opened Text

  /** `stdout.strip().split("\n")` */
  function Lines(out: string): seq<string>
  {
    Split(Strip(out), '\n')
  }

  /** A name as the multiplexer prints it on its own line: non-empty, one line, no surrounding blanks. */
  predicate CleanName(n: string) {
    |n| > 0 && '\n' !in n && !IsSpace(n[0]) && !IsSpace(n[|n| - 1])
  }

  /**
   * `get_tmux_sessions`: no names for a failed query or blank output; otherwise
   * the stripped output cut at newlines, inner blank lines included.
   */
  function SessionNames(out: Option<string>): (r: seq<string>)
    ensures out.None? ==> r == []
    ensures out.Some? && Strip(out.value) == "" ==> r == []
    ensures out.Some? && Strip(out.value) != "" ==> |r| > 0 && Join(r, '\n') == Strip(out.value)
    ensures forall k :: 0 <= k < |r| ==> '\n' !in r[k]
  {
    match out
    case None => []
    case Some(s) =>
      if Strip(s) == "" then [] else JoinSplit(Strip(s), '\n'); Lines(s)
  }

  /** A newline-joined list of clean names has no blanks at either end to strip. */
  lemma StripJoinedNames(names: seq<string>)
    requires |names| > 0
    requires forall k :: 0 <= k < |names| ==> CleanName(names[k])
    ensures Strip(Join(names, '\n')) == Join(names, '\n') != ""
  {
    JoinFirst(names, '\n');
    JoinLast(names, '\n');
    StripUnchanged(Join(names, '\n'));
  }

  /** Listing the sessions reads back exactly the names the multiplexer printed, one per line. */
  lemma SessionNamesRoundTrip(names: seq<string>)
    requires forall k :: 0 <= k < |names| ==> CleanName(names[k])
    ensures SessionNames(Some(Join(names, '\n'))) == names
  {
    if |names| > 0 {
      StripJoinedNames(names);
      SplitJoin(names, '\n');
    }
  }

  function CountNonEmpty(lines: seq<string>): nat
  {
    if |lines| == 0 then 0 else (if lines[0] != "" then 1 else 0) + CountNonEmpty(lines[1..])
  }

  /** `get_session_window_count`: the number of non-empty lines of the window listing. */
  function WindowCount(out: Option<string>): (r: nat)
    ensures out.None? ==> r == 0
    ensures out.Some? ==> r <= |Lines(out.value)|
    ensures out.Some? && Strip(out.value) != "" && (forall k :: 0 <= k < |Lines(out.value)| ==> Lines(out.value)[k] != "") ==>
              r == |Lines(out.value)|
  {
    match out
    case None => 0
    case Some(s) =>
      if Strip(s) == "" then 0
      else
        CountNonEmptyAll(Lines(s));
        CountNonEmpty(Lines(s))
  }

  /**
   * Lines are counted one by one: counting a listing split anywhere gives
   * the two counts added up, a blank line adds nothing and any other line
   * adds one.
   */
  lemma {:induction false} CountNonEmptyAppend(a: seq<string>, b: seq<string>)
    ensures CountNonEmpty(a + b) == CountNonEmpty(a) + CountNonEmpty(b)
    ensures forall l :: CountNonEmpty(a + [l]) == CountNonEmpty(a) + (if l == "" then 0 else 1)
    decreases |a|
  {
    if |a| > 0 {
      assert (a + b)[1..] == a[1..] + b;
      CountNonEmptyAppend(a[1..], b);
      forall l ensures CountNonEmpty(a + [l]) == CountNonEmpty(a) + (if l == "" then 0 else 1) {
        assert (a + [l])[1..] == a[1..] + [l];
      }
    } else {
      assert a + b == b;
      forall l ensures CountNonEmpty(a + [l]) == CountNonEmpty(a) + (if l == "" then 0 else 1) {
        assert a + [l] == [l];
      }
    }
  }

  /** At most every line counts, and every line counts exactly when none of them is blank. */
  lemma {:induction false} CountNonEmptyAll(lines: seq<string>)
    ensures CountNonEmpty(lines) <= |lines|
    ensures CountNonEmpty(lines) == |lines| <==> forall k :: 0 <= k < |lines| ==> lines[k] != ""
    decreases |lines|
  {
    if |lines| > 0 {
      CountNonEmptyAll(lines[1..]);
      assert forall k :: 0 <= k < |lines| - 1 ==> lines[1..][k] == lines[k + 1];
      assert (forall k :: 0 <= k < |lines| ==> lines[k] != "") <==>
             lines[0] != "" && forall k :: 0 <= k < |lines| - 1 ==> lines[1..][k] != "";
    }
  }

  function ShowAll(xs: seq<int>): (r: seq<string>)
    ensures |r| == |xs| && forall k :: 0 <= k < |xs| ==> r[k] == ShowInt(xs[k])
  {
    seq(|xs|, k requires 0 <= k < |xs| => ShowInt(xs[k]))
  }

  /** Joining rendered integers with newlines gives text that strips to itself and splits back. */
  lemma RenderedIntLines(xs: seq<int>)
    requires |xs| > 0
    ensures Lines(Join(ShowAll(xs), '\n')) == ShowAll(xs)
  {
    var ls := ShowAll(xs);
    JoinFirst(ls, '\n');
    JoinLast(ls, '\n');
    StripUnchanged(Join(ls, '\n'));
    SplitJoin(ls, '\n');
  }

  lemma {:induction false} CountRendered(xs: seq<int>)
    ensures CountNonEmpty(ShowAll(xs)) == |xs|
    decreases |xs|
  {
    if |xs| > 0 {
      assert ShowAll(xs)[1..] == ShowAll(xs[1..]);
      CountRendered(xs[1..]);
    }
  }

  /** Counting the windows of a listing of window indices gives the number of windows listed. */
  lemma WindowCountRoundTrip(idxs: seq<int>)
    ensures WindowCount(Some(Join(ShowAll(idxs), '\n'))) == |idxs|
  {
    if |idxs| > 0 {
      RenderedIntLines(idxs);
      CountRendered(idxs);
      assert Join(ShowAll(idxs), '\n')[0] == ShowInt(idxs[0])[0] by {
        JoinFirst(ShowAll(idxs), '\n');
      }
    }
  }

  /** One line of a pane listing: the integer on it, or nothing for a blank or non-numeric line. */
  function LinePid(line: string): Option<int>
  {
    var t := Strip(line);
    if t != "" then ParseInt(t) else None
  }

  /**
   * The pane-id loop of `get_pane_pids`: strip each line, skip blank lines and
   * lines that are not integers, keep the rest in order.
   */
  function PidLines(lines: seq<string>): (r: seq<int>)
    ensures |r| <= |lines|
    ensures forall k :: 0 <= k < |r| ==> exists j :: 0 <= j < |lines| && LinePid(lines[j]) == Some(r[k])
  {
    if |lines| == 0 then []
    else
      var rest := PidLines(lines[1..]);
      assert forall j :: 0 <= j < |lines| - 1 ==> lines[1..][j] == lines[j + 1];
      OptionToSeq(LinePid(lines[0])) + rest
  }

  /** Pane-id parsing keeps order across concatenated outputs: nothing is reordered or merged. */
  lemma {:induction false} PidLinesAppend(a: seq<string>, b: seq<string>)
    ensures PidLines(a + b) == PidLines(a) + PidLines(b)
    decreases |a|
  {
    if |a| > 0 {
      assert (a + b)[1..] == a[1..] + b;
      PidLinesAppend(a[1..], b);
    } else {
      assert a + b == b;
    }
  }

  /** A single line contributes its integer when it holds one, and nothing otherwise. */
  lemma PidLine(l: string)
    ensures LinePid(l).Some? ==> PidLines([l]) == [LinePid(l).value]
    ensures LinePid(l).None? ==> PidLines([l]) == []
  {
    assert [l][1..] == [];
  }

  /**
   * A line between two blocks of lines adds what it holds (its integer, or
   * nothing when it is blank or not an integer) between theirs, and the two
   * blocks keep their order.
   */
  lemma PidLinesAround(a: seq<string>, l: string, b: seq<string>)
    ensures PidLines(a + [l] + b) == PidLines(a) + OptionToSeq(LinePid(l)) + PidLines(b)
  {
    PidLine(l);
    PidLinesAppend(a, [l]);
    PidLinesAppend(a + [l], b);
  }

  /** Every line that holds an integer has that integer among the parsed pids. */
  lemma PidLinesComplete(a: seq<string>, l: string, b: seq<string>, x: int)
    requires LinePid(l) == Some(x)
    ensures x in PidLines(a + [l] + b)
  {
    PidLinesAround(a, l, b);
    var p, q := PidLines(a), PidLines(b);
    assert (p + [x] + q)[|p|] == x;
  }

  /** `get_pane_pids` / the inner loop of `get_session_pane_pids`. */
  function PanePids(out: Option<string>): (r: seq<int>)
    ensures out.None? ==> r == []
    ensures out.Some? ==> |r| <= |Lines(out.value)|
    ensures out.Some? ==>
              forall k :: 0 <= k < |r| ==> exists j :: 0 <= j < |Lines(out.value)| && LinePid(Lines(out.value)[j]) == Some(r[k])
  {
    match out
    case None => []
    case Some(s) => PidLines(Lines(s))
  }

  lemma LinePidShow(x: int)
    ensures LinePid(ShowInt(x)) == Some(x)
  {
    StripUnchanged(ShowInt(x));
    ParseShowInt(x);
  }

  lemma {:induction false} PidLinesRendered(xs: seq<int>)
    ensures PidLines(ShowAll(xs)) == xs
    decreases |xs|
  {
    if |xs| > 0 {
      LinePidShow(xs[0]);
      assert ShowAll(xs)[1..] == ShowAll(xs[1..]);
      PidLinesRendered(xs[1..]);
    }
  }

  /** Parsing a listing of pane process ids gives back exactly those ids, in order. */
  lemma PanePidsRoundTrip(pids: seq<int>)
    ensures PanePids(Some(Join(ShowAll(pids), '\n'))) == pids
  {
    if |pids| > 0 {
      RenderedIntLines(pids);
      PidLinesRendered(pids);
    } else {
      assert Lines("") == [""];
    }
  }

  /**
   * One line of `get_tmux_windows`: the text before the first ':' must parse as
   * an integer (the window index); everything after it is the name, which may
   * itself contain ':'.
   */
  function WindowLine(line: string): (r: Option<(int, string)>)
    ensures r.Some? <==> (':' in line && ParseInt(line[..IndexOf(line, ':')]).Some?)
    ensures r.Some? ==> exists pre :: ':' !in pre && line == pre + ":" + r.value.1
                                      && ParseInt(pre) == Some(r.value.0)
  {
    if line != "" && ':' in line then
      var i := IndexOf(line, ':');
      var pre := line[..i];
      match ParseInt(pre)
      case Some(n) =>
        assert line == pre + ":" + line[i + 1..];
        Some((n, line[i + 1..]))
      case None => None
    else None
  }

  function WindowLines(lines: seq<string>): (r: seq<(int, string)>)
    ensures |r| <= |lines|
    ensures forall k :: 0 <= k < |r| ==> exists j :: 0 <= j < |lines| && WindowLine(lines[j]) == Some(r[k])
  {
    if |lines| == 0 then []
    else
      var rest := WindowLines(lines[1..]);
      assert forall j :: 0 <= j < |lines| - 1 ==> lines[1..][j] == lines[j + 1];
      OptionToSeq(WindowLine(lines[0])) + rest
  }

  /** `get_tmux_windows`: the (index, name) pairs of the well-formed lines, in input order. */
  function ParseWindows(out: Option<string>): (r: seq<(int, string)>)
    ensures out.None? ==> r == []
    ensures out.Some? ==> |r| <= |Lines(out.value)|
    ensures out.Some? ==>
              forall k :: 0 <= k < |r| ==> exists j :: 0 <= j < |Lines(out.value)| && WindowLine(Lines(out.value)[j]) == Some(r[k])
  {
    match out
    case None => []
    case Some(s) => WindowLines(Lines(s))
  }

  lemma {:induction false} WindowLinesAppend(a: seq<string>, b: seq<string>)
    ensures WindowLines(a + b) == WindowLines(a) + WindowLines(b)
    decreases |a|
  {
    if |a| > 0 {
      assert (a + b)[1..] == a[1..] + b;
      WindowLinesAppend(a[1..], b);
    } else {
      assert a + b == b;
    }
  }

  /** A malformed line between two blocks of lines is dropped and the blocks keep their order. */
  lemma SkipsMalformedWindowLine(a: seq<string>, bad: string, b: seq<string>)
    requires WindowLine(bad).None?
    ensures WindowLines(a + [bad] + b) == WindowLines(a) + WindowLines(b)
  {
    WindowLinesAppend(a + [bad], b);
    WindowLinesAppend(a, [bad]);
  }

  /** The line the `#{window_index}:#{window_name}` format prints for one window. */
  function WindowEntry(w: (int, string)): string
  {
    ShowInt(w.0) + ":" + w.1
  }

  function WindowEntries(ws: seq<(int, string)>): (r: seq<string>)
    ensures |r| == |ws| && forall k :: 0 <= k < |ws| ==> r[k] == WindowEntry(ws[k])
  {
    seq(|ws|, k requires 0 <= k < |ws| => WindowEntry(ws[k]))
  }

  lemma ParseWindowEntry(w: (int, string))
    ensures WindowLine(WindowEntry(w)) == Some(w)
  {
    var e := WindowEntry(w);
    assert e == ShowInt(w.0) + ([':'] + w.1);
    NoSepBefore(ShowInt(w.0), [':'] + w.1, ':');
    assert e[..|ShowInt(w.0)|] == ShowInt(w.0);
    assert e[|ShowInt(w.0)| + 1..] == w.1;
    ParseShowInt(w.0);
  }

  lemma {:induction false} WindowLinesOfEntries(ws: seq<(int, string)>)
    ensures WindowLines(WindowEntries(ws)) == ws
    decreases |ws|
  {
    if |ws| > 0 {
      ParseWindowEntry(ws[0]);
      assert WindowEntries(ws)[1..] == WindowEntries(ws[1..]);
      WindowLinesOfEntries(ws[1..]);
    }
  }

  /** Window names without newlines or trailing blanks survive a listing round trip. */
  lemma ParseWindowsRoundTrip(ws: seq<(int, string)>)
    requires forall k :: 0 <= k < |ws| ==> '\n' !in ws[k].1
    requires forall k :: 0 <= k < |ws| ==> |ws[k].1| == 0 || !IsSpace(ws[k].1[|ws[k].1| - 1])
    ensures ParseWindows(Some(Join(WindowEntries(ws), '\n'))) == ws
  {
    var es := WindowEntries(ws);
    if |ws| > 0 {
      EntriesStripClean(ws);
      EntriesSingleLine(ws);
      SplitJoin(es, '\n');
      assert Lines(Join(es, '\n')) == es;
      WindowLinesOfEntries(ws);
    } else {
      assert Lines("") == [""];
    }
  }

  lemma EntriesStripClean(ws: seq<(int, string)>)
    requires |ws| > 0
    requires forall k :: 0 <= k < |ws| ==> |ws[k].1| == 0 || !IsSpace(ws[k].1[|ws[k].1| - 1])
    ensures Strip(Join(WindowEntries(ws), '\n')) == Join(WindowEntries(ws), '\n')
  {
    var es := WindowEntries(ws);
    var first := ShowInt(ws[0].0);
    assert es[0] == first + (":" + ws[0].1);
    assert es[0][0] == first[0];
    JoinFirst(es, '\n');
    var last := ws[|ws| - 1];
    var e := es[|es| - 1];
    assert e == ShowInt(last.0) + ":" + last.1;
    assert !IsSpace(e[|e| - 1]) by {
      if |last.1| > 0 {
        assert e[|e| - 1] == last.1[|last.1| - 1];
      } else {
        assert e[|e| - 1] == ':';
      }
    }
    JoinLast(es, '\n');
    StripUnchanged(Join(es, '\n'));
  }

  lemma EntriesSingleLine(ws: seq<(int, string)>)
    requires forall k :: 0 <= k < |ws| ==> '\n' !in ws[k].1
    ensures forall k :: 0 <= k < |ws| ==> '\n' !in WindowEntries(ws)[k]
  {
    forall k | 0 <= k < |ws|
      ensures '\n' !in WindowEntries(ws)[k]
    {
      assert WindowEntries(ws)[k] == ShowInt(ws[k].0) + ":" + ws[k].1;
    }
  }

  function PanesOfWindowLines(lines: seq<string>, panesOut: string -> Option<string>): (r: seq<int>)
    ensures forall p :: p in r ==> exists j :: 0 <= j < |lines| && lines[j] != "" && p in PanePids(panesOut(lines[j]))
  {
    if |lines| == 0 then []
    else
      var here := if lines[0] == "" then [] else PanePids(panesOut(lines[0]));
      var rest := PanesOfWindowLines(lines[1..], panesOut);
      assert forall j :: 0 <= j < |lines| - 1 ==> lines[1..][j] == lines[j + 1];
      here + rest
  }

  /**
   * `get_session_pane_pids`: the pane ids of every window of a session, window
   * by window. `panesOut(w)` is the pane listing for the window whose index line
   * is `w` (`None` when that query fails, which skips the window).
   */
  function SessionPanePids(windowsOut: Option<string>, panesOut: string -> Option<string>): (r: seq<int>)
    ensures windowsOut.None? ==> r == []
    ensures forall p :: p in r ==>
              windowsOut.Some? && exists w :: w in Lines(windowsOut.value) && w != "" && p in PanePids(panesOut(w))
    ensures windowsOut.Some? ==> r == Concat(PanesPerWindow(Lines(windowsOut.value), panesOut))
  {
    match windowsOut
    case None => []
    case Some(s) =>
      PanesWindowByWindow(Lines(s), panesOut);
      PanesOfWindowLines(Lines(s), panesOut)
  }

  /** The pane ids of each window line, in order of the lines; none for a blank line. */
  function PanesPerWindow(lines: seq<string>, panesOut: string -> Option<string>): (r: seq<seq<int>>)
    ensures |r| == |lines|
    ensures forall k :: 0 <= k < |lines| ==> r[k] == if lines[k] == "" then [] else PanePids(panesOut(lines[k]))
  {
    seq(|lines|, k requires 0 <= k < |lines| => if lines[k] == "" then [] else PanePids(panesOut(lines[k])))
  }

  lemma {:induction false} PanesOfWindowLinesAppend(a: seq<string>, b: seq<string>, panesOut: string -> Option<string>)
    ensures PanesOfWindowLines(a + b, panesOut) == PanesOfWindowLines(a, panesOut) + PanesOfWindowLines(b, panesOut)
    decreases |a|
  {
    if |a| > 0 {
      assert (a + b)[1..] == a[1..] + b;
      PanesOfWindowLinesAppend(a[1..], b, panesOut);
    } else {
      assert a + b == b;
    }
  }

  /** A session's pane ids are those of its windows, window after window, each window's in the order tmux lists them. */
  lemma {:induction false} PanesWindowByWindow(lines: seq<string>, panesOut: string -> Option<string>)
    ensures PanesOfWindowLines(lines, panesOut) == Concat(PanesPerWindow(lines, panesOut))
    decreases |lines|
  {
    if |lines| > 0 {
      var init := lines[..|lines| - 1];
      var last := lines[|lines| - 1];
      var all, front := PanesPerWindow(lines, panesOut), PanesPerWindow(init, panesOut);
      assert lines == init + [last];
      PanesOfWindowLinesAppend(init, [last], panesOut);
      PanesWindowByWindow(init, panesOut);
      assert all[..|lines| - 1] == front;
      assert Concat(all) == Concat(front) + all[|lines| - 1];
      assert PanesOfWindowLines([last], panesOut) == all[|lines| - 1];
    }
  }
}

=== FILE: tree_prefix.dfy ===
/**
 * The connector glyphs drawn in front of each row of a process tree
 * (`get_tree_prefix`). The rows are the flat pre-order list built by
 * `ProcessTree.ProcessInfo`; only their depths and last-child flags matter.
 *
 * Two versions are modelled. `Prefix` is the rule as the renderer applies
 * it; `IntendedPrefix` is the standard tree drawing the renderer is meant to
 * produce. They differ in which ancestor decides an ancestor column.
 */
module TreePrefix {
  import opened Base
  import opened ProcessTree

  /** One glyph group: `└──`, `├──`, `│   ` or four spaces. */
  datatype Glyph = Last | Branch | Pipe | Blank

  function GlyphText(g: Glyph): (r: string)
    ensures |r| == (if g.Last? || g.Branch? then 3 else 4)
  {
    match g
    case Last => "└──"
    case Branch => "├──"
    case Pipe => "│   "
    case Blank => "    "
  }

  /** The glyph groups written one after another. */
  function Render(gs: seq<Glyph>): string
  {
    if |gs| == 0 then "" else Render(gs[..|gs| - 1]) + GlyphText(gs[|gs| - 1])
  }

  /** A row's own connector: `└──` for its parent's last child, `├──` otherwise. */
  function Connector(isLastChild: bool): Glyph
  {
    if isLastChild then Last else Branch
  }

  // ---------------------------------------------------------------------
  // The rule as written
  // ---------------------------------------------------------------------

  /**
   * The backward scan from row `i`: the nearest row at or before `i` whose
   * depth is at most `level`, or row 0 when there is none.
   */
  function ScanBack(nodes: seq<Node>, i: nat, level: nat): (c: nat)
    requires i < |nodes|
    ensures c <= i
    ensures c == 0 || nodes[c].depth <= level
    ensures forall k :: c < k <= i ==> nodes[k].depth > level
    decreases i
  {
    if i > 0 && nodes[i].depth > level then ScanBack(nodes, i - 1, level) else i
  }

  /** The last row of the run of rows deeper than `level` that follows row `a` (row `a` itself when none follows). */
  function RunEnd(nodes: seq<Node>, a: nat, level: nat): (e: nat)
    requires a < |nodes|
    ensures a <= e < |nodes|
    ensures forall k :: a < k <= e ==> nodes[k].depth > level
    ensures e + 1 == |nodes| || nodes[e + 1].depth <= level
    decreases |nodes| - a
  {
    if a + 1 < |nodes| && nodes[a + 1].depth > level then RunEnd(nodes, a + 1, level) else a
  }

  /** Some row from `from` on has depth exactly `level`. */
  function DepthAfter(nodes: seq<Node>, from: nat, level: nat): (b: bool)
    requires from <= |nodes|
    ensures b <==> exists k :: from <= k < |nodes| && nodes[k].depth == level
    decreases |nodes| - from
  {
    if from == |nodes| then false
    else nodes[from].depth == level || DepthAfter(nodes, from + 1, level)
  }

  /**
   * The glyph group the renderer writes in ancestor column `level` of row
   * `i`: it looks for the row at depth `level` above `i` and draws `│   `
   * when a row at that same depth appears anywhere after that row's subtree.
   */
  function AncestorGroup(nodes: seq<Node>, i: nat, level: nat): Glyph
    requires i < |nodes|
  {
    var c := ScanBack(nodes, i, level);
    if nodes[c].depth == level && DepthAfter(nodes, RunEnd(nodes, c, level) + 1, level) then Pipe else Blank
  }

  /** The glyph groups the renderer produces for row `i`: one per level of depth. */
  function Prefix(nodes: seq<Node>, i: nat): (r: seq<Glyph>)
    requires i < |nodes|
    ensures |r| == nodes[i].depth
  {
    var d := nodes[i].depth;
    seq(d, level requires 0 <= level < d => if level == d - 1 then Connector(nodes[i].isLastChild) else AncestorGroup(nodes, i, level))
  }

  /**
   * A row of depth d gets d glyph groups: ancestor groups in the first d - 1
   * columns and its own connector last; a pane root gets none. An ancestor
   * column shows `│   ` exactly when the nearest earlier row at depth at
   * most `level` is at depth `level` and some row at depth `level` follows
   * the run of deeper rows after it.
   */
  lemma PrefixSpec(nodes: seq<Node>, i: nat, level: nat)
    requires i < |nodes| && level < nodes[i].depth
    ensures level == nodes[i].depth - 1 ==> Prefix(nodes, i)[level] == Connector(nodes[i].isLastChild)
    ensures level < nodes[i].depth - 1 ==>
              (Prefix(nodes, i)[level] == Pipe <==>
                 exists a :: 0 <= a <= i && nodes[a].depth == level
                             && (forall m :: a < m <= i ==> nodes[m].depth > level)
                             && exists k :: RunEnd(nodes, a, level) < k < |nodes| && nodes[k].depth == level)
    ensures level < nodes[i].depth - 1 ==> Prefix(nodes, i)[level] in {Pipe, Blank}
  {
    if level < nodes[i].depth - 1 {
      var c := ScanBack(nodes, i, level);
      forall a | 0 <= a <= i && nodes[a].depth == level && (forall m :: a < m <= i ==> nodes[m].depth > level)
        ensures a == c
      {
      }
    }
  }

  /** Width in characters of the prefix: nothing at depth 0, otherwise three for the connector and four per ancestor column. */
  lemma PrefixWidth(nodes: seq<Node>, i: nat)
    requires i < |nodes|
    ensures |Render(Prefix(nodes, i))| == if nodes[i].depth == 0 then 0 else 4 * nodes[i].depth - 1
  {
    var p := Prefix(nodes, i);
    if |p| > 0 {
      forall k | 0 <= k < |p| - 1
        ensures p[k].Pipe? || p[k].Blank?
      {
        assert p[k] == AncestorGroup(nodes, i, k);
      }
      assert p[|p| - 1] == Connector(nodes[i].isLastChild);
      RenderWidth(p);
    }
  }

  lemma {:induction false} RenderWidth(gs: seq<Glyph>)
    requires |gs| > 0 && (gs[|gs| - 1].Last? || gs[|gs| - 1].Branch?)
    requires forall k :: 0 <= k < |gs| - 1 ==> gs[k].Pipe? || gs[k].Blank?
    ensures |Render(gs)| == 4 * |gs| - 1
  {
    var front := gs[..|gs| - 1];
    if |front| > 0 {
      BlankWidth(front);
    }
  }

  lemma {:induction false} BlankWidth(gs: seq<Glyph>)
    requires forall k :: 0 <= k < |gs| ==> gs[k].Pipe? || gs[k].Blank?
    ensures |Render(gs)| == 4 * |gs|
    decreases |gs|
  {
    if |gs| > 0 {
      BlankWidth(gs[..|gs| - 1]);
    }
  }

  /**
   * The renderer's loops, step by step: for each level below the row's own,
   * the glyph group computed by `AncestorGroupLoop`; then the connector.
   */
  method TreePrefix(nodes: seq<Node>, index: nat) returns (prefix: string)
    requires index < |nodes|
    ensures prefix == Render(Prefix(nodes, index))
  {
    var depth := nodes[index].depth;
    var parts: seq<Glyph> := [];
    var level := 0;
    while level < depth
      invariant level <= depth
      invariant parts == Prefix(nodes, index)[..level]
    {
      var g: Glyph;
      if level == depth - 1 {
        g := Connector(nodes[index].isLastChild);
      } else {
        g := AncestorGroupLoop(nodes, index, level);
      }
      parts := parts + [g];
      level := level + 1;
    }
    assert parts == Prefix(nodes, index);
    prefix := Render(parts);
  }

  /**
   * One ancestor column as the renderer computes it: a backward scan for the
   * ancestor, a forward scan to the end of its subtree, and a forward scan
   * for a row at the same depth.
   */
  method AncestorGroupLoop(nodes: seq<Node>, index: nat, level: nat) returns (g: Glyph)
    requires index < |nodes|
    ensures g == AncestorGroup(nodes, index, level)
  {
    var hasSibling := false;
    var checkIdx: nat := index;
    while checkIdx > 0 && nodes[checkIdx].depth > level
      invariant checkIdx <= index
      invariant ScanBack(nodes, checkIdx, level) == ScanBack(nodes, index, level)
    {
      checkIdx := checkIdx - 1;
    }
    if nodes[checkIdx].depth == level {
      var ancestor := checkIdx;
      var subtreeEnd := ancestor;
      var j := ancestor + 1;
      var stopped := false;
      while j < |nodes| && !stopped
        invariant ancestor < j <= |nodes|
        invariant ancestor <= subtreeEnd < |nodes|
        invariant !stopped ==> subtreeEnd == j - 1 && RunEnd(nodes, ancestor, level) == RunEnd(nodes, subtreeEnd, level)
        invariant stopped ==> subtreeEnd == RunEnd(nodes, ancestor, level)
        decreases |nodes| - j, if stopped then 0 else 1
      {
        if nodes[j].depth > level {
          subtreeEnd := j;
          j := j + 1;
        } else {
          stopped := true;
        }
      }
      var k := subtreeEnd + 1;
      while k < |nodes| && !hasSibling
        invariant subtreeEnd < k <= |nodes|
        invariant DepthAfter(nodes, subtreeEnd + 1, level) == (hasSibling || DepthAfter(nodes, k, level))
      {
        if nodes[k].depth == level {
          hasSibling := true;
        }
        k := k + 1;
      }
    }
    g := if hasSibling then Pipe else Blank;
  }

  // ---------------------------------------------------------------------
  // The intended rule
  // ---------------------------------------------------------------------

  /** The first row from `from` on whose depth is at most `bound`, or `|nodes|` when there is none. */
  function FirstAtMost(nodes: seq<Node>, from: nat, bound: nat): (k: nat)
    requires from <= |nodes|
    ensures from <= k <= |nodes|
    ensures forall m :: from <= m < k ==> nodes[m].depth > bound
    ensures k < |nodes| ==> nodes[k].depth <= bound
    decreases |nodes| - from
  {
    if from == |nodes| || nodes[from].depth <= bound then from else FirstAtMost(nodes, from + 1, bound)
  }

  /**
   * Ancestor column `level` of row `i` belongs to the ancestor at depth
   * `level + 1` and shows `│   ` while that ancestor still has a sibling to
   * come: the first row after `i` that leaves the ancestor's subtree is at
   * the ancestor's own depth.
   */
  function IntendedGroup(nodes: seq<Node>, i: nat, level: nat): Glyph
    requires i < |nodes|
  {
    var k := FirstAtMost(nodes, i + 1, level + 1);
    if k < |nodes| && nodes[k].depth == level + 1 then Pipe else Blank
  }

  function IntendedPrefix(nodes: seq<Node>, i: nat): (r: seq<Glyph>)
    requires i < |nodes|
    ensures |r| == nodes[i].depth
  {
    var d := nodes[i].depth;
    seq(d, level requires 0 <= level < d => if level == d - 1 then Connector(nodes[i].isLastChild) else IntendedGroup(nodes, i, level))
  }

  /**
   * In the intended drawing an ancestor column shows `│   ` exactly when a
   * later row sits at the depth of the column's ancestor with only deeper
   * rows in between, that is when the ancestor has a sibling still to come.
   */
  lemma IntendedPrefixSpec(nodes: seq<Node>, i: nat, level: nat)
    requires i < |nodes| && level < nodes[i].depth
    ensures level == nodes[i].depth - 1 ==> IntendedPrefix(nodes, i)[level] == Connector(nodes[i].isLastChild)
    ensures level < nodes[i].depth - 1 ==>
              (IntendedPrefix(nodes, i)[level] == Pipe <==>
                 exists k :: i < k < |nodes| && nodes[k].depth == level + 1
                             && forall m :: i < m < k ==> nodes[m].depth > level + 1)
    ensures level < nodes[i].depth - 1 ==> IntendedPrefix(nodes, i)[level] in {Pipe, Blank}
  {
    if level < nodes[i].depth - 1 {
      var f := FirstAtMost(nodes, i + 1, level + 1);
      forall k | i < k < |nodes| && nodes[k].depth == level + 1 && (forall m :: i < m < k ==> nodes[m].depth > level + 1)
        ensures k == f
      {
      }
    }
  }

  /** The intended prefix has the same width as the one the renderer produces. */
  lemma IntendedPrefixWidth(nodes: seq<Node>, i: nat)
    requires i < |nodes|
    ensures |Render(IntendedPrefix(nodes, i))| == |Render(Prefix(nodes, i))|
  {
    PrefixWidth(nodes, i);
    var p := IntendedPrefix(nodes, i);
    if |p| > 0 {
      forall k | 0 <= k < |p| - 1
        ensures p[k].Pipe? || p[k].Blank?
      {
        assert p[k] == IntendedGroup(nodes, i, k);
      }
      assert p[|p| - 1] == Connector(nodes[i].isLastChild);
      RenderWidth(p);
    }
  }

  // ---------------------------------------------------------------------
  // Examples
  // ---------------------------------------------------------------------

  /** A row with only the fields the renderer reads. */
  function Row(depth: nat, isLastChild: bool): Node
  {
    Node(0, 0.0, 0, "", depth, isLastChild, false, None)
  }

  /** A pane root with one child that has one child: every connector is `└──` and no column shows `│   `. */
  lemma OnlyChildrenDrawAllLast()
    ensures var chain := [Row(0, false), Row(1, true), Row(2, true)];
            && Prefix(chain, 0) == [] && Prefix(chain, 1) == [Last] && Prefix(chain, 2) == [Blank, Last]
            && IntendedPrefix(chain, 1) == [Last] && IntendedPrefix(chain, 2) == [Blank, Last]
            && Render(Prefix(chain, 2)) == "    └──"
  {
    var chain := [Row(0, false), Row(1, true), Row(2, true)];
    assert chain[1] == Row(1, true) && chain[2] == Row(2, true);
    assert Prefix(chain, 1)[0] == Connector(true) == Last;
    assert IntendedPrefix(chain, 1)[0] == Connector(true);
    assert Prefix(chain, 2)[1] == Connector(true) && IntendedPrefix(chain, 2)[1] == Connector(true);
    assert Prefix(chain, 2)[0] == Blank by {
      assert ScanBack(chain, 2, 0) == 0;
      assert RunEnd(chain, 0, 0) == 2;
    }
    assert IntendedPrefix(chain, 2)[0] == Blank by {
      assert FirstAtMost(chain, 3, 1) == 3;
    }
    assert Render([Blank, Last]) == Render([Blank]) + GlyphText(Last);
  }

  /** A pane root with two children, each with one child of its own. */
  function TwoBranches(): seq<Node>
  {
    [Row(0, false), Row(1, false), Row(2, true), Row(1, true), Row(2, true)]
  }

  /**
   * In the intended drawing the first child's subtree shows `│   ` in the
   * root's column, and the second (last) child's subtree does not.
   */
  lemma IntendedTwoBranches()
    ensures IntendedPrefix(TwoBranches(), 2) == [Pipe, Last]
    ensures IntendedPrefix(TwoBranches(), 4) == [Blank, Last]
    ensures Render(IntendedPrefix(TwoBranches(), 2)) == "│   └──"
  {
    var t := TwoBranches();
    assert t[2] == Row(2, true) && t[4] == Row(2, true);
    assert IntendedPrefix(t, 2)[1] == Connector(true) && IntendedPrefix(t, 4)[1] == Connector(true);
    assert IntendedPrefix(t, 2)[0] == Pipe by {
      assert FirstAtMost(t, 3, 1) == 3;
    }
    assert IntendedPrefix(t, 4)[0] == Blank by {
      assert FirstAtMost(t, 5, 1) == 5;
    }
    assert Render([Pipe, Last]) == Render([Pipe]) + GlyphText(Last);
  }

  /**
   * The renderer draws the first child's grandchild with blank padding in the
   * root's column: it consults the root, which has no later sibling, instead
   * of the first child, which has one.
   */
  lemma RendererMissesContinuation()
    ensures Prefix(TwoBranches(), 2) == [Blank, Last]
    ensures Render(Prefix(TwoBranches(), 2)) == "    └──"
    ensures Prefix(TwoBranches(), 2) != IntendedPrefix(TwoBranches(), 2)
  {
    var t := TwoBranches();
    assert t[2] == Row(2, true);
    assert Prefix(t, 2)[1] == Connector(true);
    assert Render([Blank, Last]) == Render([Blank]) + GlyphText(Last);
    assert Prefix(t, 2)[0] == Blank by {
      assert ScanBack(t, 2, 0) == 0;
      assert RunEnd(t, 0, 0) == 4;
      assert !DepthAfter(t, 5, 0);
    }
    IntendedTwoBranches();
  }
}
